=== FILE: README.md ===
# Coin economy bookkeeping, modelled in Dafny

This project models the bookkeeping core of a Discord-driven virtual-coin
economy. That core is the money and game logic under the bot's commands and
the small HTTP services behind them. Every operation is a pure function from
one immutable state to the next. Each remote call, database commit or random
draw that the code depends on becomes a parameter saying how it turned out.

The modules follow the repository's components:

- `Common`: `Option`, `Result`, `Abs`, `Min`, `Max`.
- `Ranking`: a descending sort and "the first n of it". It backs every leaderboard and every "latest first" listing.
- `BalanceLedger`: the balance service. It is a table of signed rows keyed by client id, and a balance is the sum of a client's rows.
- `EconomyLedger`: the economy service's ledger. A balance is what a user received minus what they sent.
- `CoinBank`: the in-memory coin service. It holds balances, daily claims, transfers, admin updates, user removal and the leaderboard.
- `DailyCoins`: the daily-claim service. It allows one claim per client per date and keeps the claim history.
- `ClientRegistry`: the client registry. It is a CRUD table keyed by id, with unique Discord ids.
- `BetPayout` and `BetService`: the pari-mutuel bet service. It covers event lifecycle, bet admission, the pool invariant, proportional payout with truncation, and cancellation refunds.
- `CoinHistory`: the bot's coin history table and users. It covers create, spend, give, transfer, the coin checks, the daily window, the top-10 list and registration.
- `LegacyEvents`: the bot's event repositories. Events move OPEN → CLOSED → PAID or DRAW, carry choices 'A' and 'B' and hold bets, with refund on a draw and payout to one choice.
- `EventCommands`: the event slash commands. They cover bet admission with the first failure winning, the close and end guards, and event-list paging.
- `Roulette`: maps a number to a colour and pays fixed odds. It also covers bets grouped per user and colour, and listing by status.
- `Jokenpo` and `JokenpoPlay`: rock-paper-scissors-lizard-Spock. They hold the rule table, one move per player, a 200-coin entry fee and a 400-coin prize.
- `TransferCommand`: the transfer command's ordered checks and the self-transfer penalty.
- `Cooldown`: the Redis rate-limit counter.

A few places where the code does something other than what its messages or
names suggest are modelled as the code behaves. Lemmas state these behaviours:

- The close command tests the event's status before its existence, so the "does not exist" reply can never be given (`EventCommands.CloseNeverReportsMissing`). For a missing event the source throws a TypeError before either test; the model reports it as "must be open" instead, the choice the "## Left out" line on `getEventById` describes.
- In the transfer command a missing sender has an account age of 0 days. Any transfer from a missing sender is therefore refused as "account too new", and "sender not found" is unreachable (`TransferCommand.SenderNotFoundUnreachable`).
- With `TRANSFER_LIMIT` unset, PHP compares the amount with NULL as booleans. Every transfer is then refused as an invalid amount (`TransferCommand.UnsetLimitRefusesAll`).
- `hasAvailableCoins` for a user with no history rows compares a NULL sum with the amount. This passes only an amount of 0 (`CoinHistory.HasAvailableCoinsMeaning`).
- The cooldown counter lets the first call of a window through even when `times` is 0 or negative (`Cooldown.WindowPassesAtMost`).
- A roulette bet's two inserts run without a transaction. When the history insert fails, the bet row stays without its debit (`Roulette.CreateBet`).

## Model

| member | source | states |
|---|---|---|
| BalanceLedger.BalanceIsSumOfOperations | balance_api/api_service.py:77-94 | the balance endpoint's sum equals the sum of exactly the rows the operations endpoint lists for that client |
| BalanceLedger.BalanceOfEmpty | balance_api/api_service.py:81-83 | a client with no rows has balance 0 |
| BalanceLedger.Operations | balance_api/api_service.py:91-92 | the listing holds exactly the client's rows (every one of them, nothing else), each as often as it occurs in the table |
| BalanceLedger.Add | balance_api/api_service.py:20-34 | `/balance/add` stores `abs(amount)`: the client's balance rises by |amount| (never falls), other clients are untouched, one row is appended |
| BalanceLedger.Subtract | balance_api/api_service.py:36-47 | `/balance/subtract` stores `-abs(amount)`: the balance falls by |amount| (never rises), other clients untouched |
| BalanceLedger.Transaction | balance_api/api_service.py:49-75 | rejected iff sender == receiver; otherwise two rows, sender -|a|, receiver +|a|, their sum unchanged, everyone else unchanged |
| EconomyLedger.SelfRowIsNeutral | economy_api/api_service.py:28-33 | a row whose receiver is its sender leaves every balance unchanged under received − sent |
| EconomyLedger.RowConservesPair | economy_api/api_service.py:68-72 | any row leaves the sum of its receiver's and sender's balances unchanged |
| EconomyLedger.AddOperation | economy_api/api_service.py:20-40 | the credited row moves `amount` from sender to receiver; the extra self-addressed `-|amount|` row changes nothing |
| EconomyLedger.SubtractOperation | economy_api/api_service.py:42-62 | the row as given plus a `+|amount|` row: the receiver gains amount + |amount|, the sender loses as much, others untouched |
| EconomyLedger.CreateTransaction | economy_api/api_service.py:102-127 | sender falls by |a|, receiver rises by |a|, the pair's sum is conserved, a self-transfer is neutral |
| EconomyLedger.BalanceDependsOnlyOnOperations | economy_api/api_service.py:64-83 | the balance computed from all rows equals the balance computed from just the user's listed operations |
| EconomyLedger.Operations | economy_api/api_service.py:80 | exactly the rows where the user is receiver or sender, each as often as it occurs in the table |
| EconomyLedger.UpdateOperation | economy_api/api_service.py:85-100 | 404 iff no row has the id; otherwise only that row changes, and only in the fields supplied |
| EconomyLedger.UpdateMovesBalances | economy_api/api_service.py:85-100 | editing a row's amount from a to a' moves its receiver's balance by a' − a and its sender's by a − a'; every other balance, and every balance for a self-addressed row, is unchanged |
| CoinBank.GetBalance | economy_api/app.py:37-38 | an unknown user's balance is 0, a known one's is the stored value |
| CoinBank.UpdateBalance | economy_api/app.py:40-44 | the user is initialised to 0 and the signed amount added; no other key changes |
| CoinBank.CanClaimDailyIffDayElapsed | economy_api/app.py:46-52 | a claim is allowed iff the user never claimed or at least 86400 seconds have passed since the last claim |
| CoinBank.GetDailyCoins | economy_api/app.py:58-93 | rejected iff the user id is missing or a claim is not yet allowed; otherwise +100 for that user only, one "daily" transaction from "system", the claim time recorded (so an immediate second claim fails), counter + 1 |
| CoinBank.Transfer | economy_api/app.py:118-159 | rejected, in this order, for missing fields or zero amount, negative amount, self-transfer, insufficient balance; otherwise the sender loses and the receiver gains the amount, the pair's sum is kept, the sender stays non-negative, one transaction is appended and the counter grows by 1 |
| CoinBank.UpdateCoins | economy_api/app.py:164-193 | any signed amount is applied with no balance check; the log stores |amount|, from "admin" to the user for a positive amount and from the user to "admin" otherwise |
| CoinBank.RemoveUser | economy_api/app.py:198-213 | rejected only for a missing id; otherwise balance and claim are gone (balance 0, may claim again), whether or not they existed, and nobody else changes |
| CoinBank.Leaderboard | economy_api/app.py:307-320 | min(10, users) entries ranked 1, 2, …, with true balances, descending, each user once; every user left out has a balance no greater than any listed one |
| Ranking.TopN | economy_api/app.py:310-313 | the first n of a descending sort: sorted, a sub-multiset of the input (the whole input when n covers it), and every element left out is no larger than any element kept |
| DailyCoins.ClaimDaily | coin_api/api_service.py:27-80 | rejected with 400 if already claimed today, 404 for an unknown client, 503 when the client service is unreachable; once those pass, 503 exactly when the balance service is unreachable and 500 exactly when it answers anything but 200; otherwise the ledger is credited the daily amount and only then the claim row is stored |
| DailyCoins.SecondClaimSameDayRejected | coin_api/api_service.py:32-41 | a successful claim followed by another on the same date by the same client is refused |
| DailyCoins.ClaimKeepsOneClaimPerDay | coin_api/api_service.py:32-73 | the claim table never holds two claims by one client on one date |
| DailyCoins.ClientClaims | coin_api/api_service.py:89-91 | exactly the client's claims, each as often as it occurs |
| DailyCoins.ClaimHistory | coin_api/api_service.py:85-106 | at most `limit` of the client's claims, newest date first, each reported as 100 coins, `totalClaims` the number returned and `totalCoinsEarned` 100 × that; omitted claims are no newer than listed ones; no date is reported more often than the client has a claim on it |
| DailyCoins.NewClaimHeadsHistory | coin_api/api_service.py:66-106 | after a successful claim the history's first entry is today's |
| ClientRegistry.Register | client_api/api_service.py:19-35 | 409 iff the Discord id is taken; otherwise exactly one user appended, ids and Discord ids stay unique |
| ClientRegistry.GetClient | client_api/api_service.py:46-55 | 404 iff no user has the id, otherwise a user with that id |
| ClientRegistry.GetClientByDiscordId | client_api/api_service.py:57-66 | 404 iff no user has the Discord id, otherwise a user with that Discord id |
| ClientRegistry.UpdateClient | client_api/api_service.py:68-83 | 404 for an unknown id; otherwise only that user changes, and only in the fields supplied |
| ClientRegistry.DeleteClient | client_api/api_service.py:85-96 | 404 iff the id is unknown; otherwise exactly that user is removed |
| ClientRegistry.RegisterThenLookup | client_api/api_service.py:19-66 | a registered user is found by its new id and by its Discord id |
| ClientRegistry.DeleteRemovesId | client_api/api_service.py:85-96 | after a delete the id is no longer found |
| ClientRegistry.DeleteKeepsOthers | client_api/api_service.py:85-96 | a delete leaves every other id's lookup result unchanged |
| BetService.NewEvent | bet_api/models/BetEvent.py:15-28 | a new event carries only its texts; it is active, unfinished, has no winning option and three zero pools |
| BetService.CreateEvent | bet_api/api_service.py:87-102 | exactly one event is added under the next id, carrying the request's title, description and two options, active, unfinished, without winner and with empty pools; existing events and bets are unchanged |
| BetService.CreateEventPreservesInv | bet_api/models/BetEvent.py:15-20 | the created event is open with empty pools, and the pool invariant (total == option1 + option2, each the sum of its stakes) holds for it from the start |
| BetService.PlaceBet | bet_api/api_service.py:167-225 | rejected, first failure wins: each check fails with its own error once the earlier ones pass (an option outside {1,2}, amount ≤ 0, a missing or non-open event, an earlier bet by the user on it, an unreachable or insufficient balance, a failed debit); otherwise the user is debited exactly `amount`, one bet row is appended and exactly the chosen option's pool and the total grow by `amount`; other events and users are untouched |
| BetService.PlaceBetPreservesInv | bet_api/api_service.py:206-221 | an accepted bet keeps the pool invariant for every event, one bet per user and event, and well-formed bets |
| BetService.Distribute | bet_api/api_service.py:273-299 | each winning bet whose credit succeeds is paid its share and listed; a failed credit pays nothing and is not listed; balances move by exactly the listed winnings |
| BetService.Finalize | bet_api/api_service.py:237-307 | 400 for a bad option, 404 for a missing or non-open event; otherwise the event is finished with the winning option whatever the credits did; with no winning stake nobody is credited |
| BetService.FinalizePayoutBounds | bet_api/api_service.py:273-307 | on a consistent database every listed winner gets at least its stake (profit ≥ 0) and all winnings together never exceed the pool; with no failed credit every winning bet is listed |
| BetService.FinalizePreservesInv | bet_api/api_service.py:237-307 | finalizing keeps the pool invariant and sets a winning option 1 or 2 exactly on finished events |
| BetService.Cancel | bet_api/api_service.py:391-424 | only an open event can be cancelled; each bet is refunded its own amount when its credit succeeds; the event becomes inactive and stays unfinished; the reply counts the successful refunds and totals all the bets |
| BetService.CancelRefundsWholePool | bet_api/api_service.py:420-424 | the reported refund total equals the event's pool |
| BetService.CancelPreservesInv | bet_api/api_service.py:391-424 | cancelling keeps every invariant |
| BetService.CreatedEventIsActive | bet_api/api_service.py:110-165 | a created event appears in the active listing and not in the finished one |
| BetService.PlaceBetKeepsListings | bet_api/api_service.py:110-165 | a bet changes neither listing |
| BetService.FinalizeMovesToFinished | bet_api/api_service.py:110-165 | a finalized event leaves the active listing and joins the finished one |
| BetService.CancelLeavesBothListings | bet_api/api_service.py:110-165 | a cancelled event leaves the active listing and never reaches the finished one |
| BetService.UserBets | bet_api/api_service.py:319-343 | one view per bet row of the user whose event still exists, in table order (position i is the view of the i-th such row), each with that event's texts and winner flag |
| BetService.WinnerFlagAfterFinalize | bet_api/api_service.py:319-343 | after finalization a bet on the event is flagged a winner iff it chose the winning option; before it no bet on an open event is |
| BetService.TwoPlayerScenario | bet_api/api_service.py:167-307 | 500 each, A stakes 200 on option 1, B 300 on option 2, option 2 wins: B ends at 700 and A at 300 |
| BetPayout.Share | bet_api/api_service.py:278-279 | `int(pool × stake / winningTotal)` brackets the exact quotient from below |
| BetPayout.ShareAtLeastStake | bet_api/api_service.py:278-279 | when the winning stakes are part of the pool, a winner's payout is at least its stake |
| BetPayout.ShareAtMostPool | bet_api/api_service.py:278-279 | a single share never exceeds the pool |
| BetPayout.TruncationLosesRemainder | bet_api/api_service.py:278-279 | truncation can leave coins undistributed: 10 over three stakes of 1 pays 9 |
| CoinHistory.Create | app/Repositories/UserCoinHistoryRepository.php:17-32 | exactly one row with the given fields is appended; that user id's sum rises by the amount, every other user id's sum is unchanged, and a Discord id's total moves only if it owns the user |
| CoinHistory.GetByDiscordId | app/Repositories/UserRepository.php:24-27 | nothing iff no user has the Discord id; otherwise the first user carrying it |
| CoinHistory.UserExistsIffFound | app/Repositories/UserRepository.php:126-131 | the existence test holds exactly when the lookup finds a user |
| CoinHistory.GetCurrentCoins | app/Repositories/UserRepository.php:105-113 | NULL iff the Discord id owns no row; otherwise the sum of its rows |
| CoinHistory.HasAvailableCoinsMeaning | app/Repositories/UserCoinHistoryRepository.php:92-99 | with rows, the test passes iff the total reaches the amount; with no row (a NULL sum) it passes only for amount 0 |
| CoinHistory.SpendCoins | app/Repositories/UserCoinHistoryRepository.php:34-46 | fails iff no user has the Discord id; otherwise one row with the signed amount as given and the encoded description, owned by that Discord id and dated today, whose total moves by exactly the amount |
| CoinHistory.GiveCoins | app/Repositories/UserRepository.php:68-82 | fails, writing nothing, iff the Discord id is unknown; otherwise one row with the description verbatim, and the total moves by the amount |
| CoinHistory.SpendTouchesOnlyThatUser | app/Repositories/UserCoinHistoryRepository.php:34-46 | with unique user ids a spend for one Discord id leaves every other Discord id's total unchanged |
| CoinHistory.GuardedSpendNeverOverdraws | app/Repositories/UserCoinHistoryRepository.php:92-99 | a debit of an amount that passed `hasAvailableCoins` never leaves the total below zero |
| CoinHistory.Transfer | app/Repositories/UserCoinHistoryRepository.php:59-90 | both rows or neither: fails iff an insert failed; otherwise rows −amount (entity: receiver) and +amount (entity: sender); the pair's sum is unchanged, distinct ids move by exactly the amount, nobody else moves |
| CoinHistory.TransferConservesOwners | app/Repositories/UserCoinHistoryRepository.php:59-90 | a transfer between two users of the same Discord id leaves its total unchanged |
| CoinHistory.DailyGiftClosesToday | app/Repositories/UserRepository.php:84-95 | after today's "Daily" gift the user can no longer receive daily coins today |
| CoinHistory.OtherRowsKeepWindowOpen | app/Repositories/UserRepository.php:84-95 | a row of another type or another date does not close today's daily window |
| CoinHistory.ListTop10 | app/Repositories/UserCoinHistoryRepository.php:48-57 | min(10, users with rows) lines, descending by sum, each user once with its true sum, and no omitted user has a larger sum than a listed one |
| CoinHistory.RegisterAsWritten | app/Repositories/UserRepository.php:42-66 | as written: a failed `create` throws out of the method uncaught, committing nothing; otherwise both inserts returned a model, the guard at :59 does not fire, and the flagged user and its 100-coin "Initial" row are committed |
| CoinHistory.AsWrittenNeverRollsBack | app/Repositories/UserRepository.php:53-62 | the rollback branch is dead: a failed coins insert after a successful user insert escapes as an exception, and no input makes the method roll back and answer false |
| CoinHistory.AsWrittenCommitsLikeCorrected | app/Repositories/UserRepository.php:42-66 | the database keeps the same as under the intended handling: a commit exactly when both inserts succeed, with the same user and row |
| CoinHistory.RegisterAndGiveInitialCoins | app/Repositories/UserRepository.php:42-66 | intended handling: any failed insert is caught, rolled back and answered with false, changing nothing; otherwise the flagged user and its 100-coin "Initial" row |
| CoinHistory.RegisterKeepsFlagsBacked | app/Repositories/UserRepository.php:42-66 | the corrected registration keeps every initial-coins flag backed by an initial row of 100 |
| LegacyEvents.FindEvent | app/Repositories/EventRepository.php:54-57 | nothing iff no event has the id; otherwise a position holding that id |
| LegacyEvents.ChoiceByLetter | app/Repositories/EventRepository.php:222 | nothing iff the event has no choice with that letter; otherwise one of its choices with that letter |
| LegacyEvents.CreateEvent | app/Repositories/EventRepository.php:59-91 | fails iff the transaction fails; otherwise one OPEN event with the given name, created by the user with the Discord id (none when unknown), without winner under the next id and its two choices 'A' and 'B' with the given texts, bets and coins untouched, id uniqueness kept |
| LegacyEvents.CreatedEventOffersAAndB | app/Repositories/EventRepository.php:73-82 | the new event's choice lookup succeeds exactly for the letters 'A' and 'B' |
| LegacyEvents.CloseEvent | app/Repositories/EventRepository.php:93-98 | error iff the event is missing or the save fails; otherwise it reads CLOSED whatever it was, and nothing else changes |
| LegacyEvents.FinishEvent | app/Repositories/EventRepository.php:100-105 | error iff the event is missing or the save fails; otherwise it reads PAID, and nothing else changes |
| LegacyEvents.UpdateEventWithWinner | app/Repositories/EventRepository.php:132-138 | error iff the event is missing or the save fails; otherwise PAID with the given winner choice, unchecked, and nothing else changes |
| LegacyEvents.BetsOfEvent | app/Repositories/EventBetRepository.php:87-93 | exactly the bets on the event, each as often as it occurs in the table |
| LegacyEvents.UserOpenBets | app/Repositories/EventBetRepository.php:70-78 | exactly the user's bets on the event, each as often as it occurs, and none unless the event is OPEN |
| LegacyEvents.DidUserBetIff | app/Repositories/EventBetRepository.php:80-85 | the user has bet iff the event is OPEN and some bet row of theirs is on it |
| LegacyEvents.Credits | app/Repositories/EventRepository.php:185-199 | one row per selected bet is appended; each user's coins rise by exactly the sum over their selected bets |
| LegacyEvents.DrawEvent | app/Repositories/EventRepository.php:178-216 | error iff the event is missing or the transaction fails; otherwise DRAW, and every user gets back exactly their stakes on the event; bets and other events unchanged |
| LegacyEvents.Winners | app/Repositories/EventRepository.php:253-259 | line i is the line of the i-th bet on the winning choice (its user, its earnings, its own choice's letter), so every bet on the choice yields exactly one line and no other line appears; empty iff no bet is on that choice |
| LegacyEvents.PayoutEvent | app/Repositories/EventRepository.php:218-273 | error iff the event is missing; a failed transaction changes nothing and lists nobody; otherwise PAID with the looked-up choice and each user credited the earnings of their bets on it; the winners are one line per bet on that choice, none for an unknown letter |
| LegacyEvents.UnknownLetterPaysNobody | app/Repositories/EventRepository.php:222-231 | a letter naming no choice pays nobody and lists nobody |
| LegacyEvents.WinnersCarryTheLetter | app/Repositories/EventRepository.php:222-259 | with unique choice ids every listed winner carries the paid letter |
| LegacyEvents.UniqueChoiceId | app/Repositories/EventRepository.php:229 | with unique choice ids the lookup by a choice's id finds that choice |
| LegacyEvents.PlaceBet | app/Repositories/EventBetRepository.php:31-68 | fails iff the user is unknown, the letter names no choice of the event or the transaction fails; otherwise one bet row and one −amount "EventBet" row, and the user's total falls by the amount |
| LegacyEvents.PlaceBetConservesCoinsAndStake | app/Repositories/EventBetRepository.php:42-59 | a bet only moves coins into the stake: each user's coins plus stake on the event are unchanged |
| LegacyEvents.BetThenDrawRestores | app/Repositories/EventRepository.php:178-216 | a bet followed by a draw leaves every user with their earlier coins plus all their stakes on the event |
| EventCommands.ToUpper | app/SlashCommands/Traits/Events/BetEvents.php:61 | same length; each ASCII lower-case letter becomes its upper-case letter and every other character is kept |
| EventCommands.LowerCaseChoiceIsUpperCased | app/SlashCommands/Traits/Events/BetEvents.php:61 | 'a' and 'b' are accepted as 'A' and 'B' |
| EventCommands.BetCommand | app/SlashCommands/Traits/Events/BetEvents.php:54-101 | a non-numeric event id is refused first, then an unregistered user, then each later check with its own refusal once the earlier ones pass (missing event, not OPEN, earlier open bet, bad amount, too few coins, choice not A or B, failed insert); the bet is placed iff every check passes, and then it is exactly the repository's bet |
| EventCommands.CommandBetNeverOverdraws | app/SlashCommands/Traits/Events/BetEvents.php:82-83 | an accepted bet never leaves the bettor's total below zero |
| EventCommands.SecondBetRefused | app/SlashCommands/Traits/Events/BetEvents.php:81 | after an accepted bet the same user's next bet on that event is refused as a repeat |
| EventCommands.CloseCommand | app/SlashCommands/Traits/Events/CloseEvents.php:20-72 | closes iff the event is OPEN and the save succeeds; anything not OPEN is refused as "must be open", and so is a missing event, the model's stand-in for the source's TypeError; the closed event reads CLOSED |
| EventCommands.CloseNeverReportsMissing | app/SlashCommands/Traits/Events/CloseEvents.php:25-47 | the existence check comes after the status check, so "does not exist" is never reported |
| EventCommands.KeepLetter | app/SlashCommands/Traits/Events/EndEvents.php:90-95 | exactly the winners whose choice equals the label, each as often as it occurs |
| EventCommands.EndCommand | app/SlashCommands/Traits/Events/EndEvents.php:20-114 | a missing event is refused, then a PAID one, then any other not CLOSED; a CLOSED event always ends unless the draw fails; "Empate" gives the draw's world (DRAW); any other label gives the payout's world (PAID), reporting "no bets" exactly when the payout lists no winner, and a failed payout changes nothing |
| EventCommands.EndListsEveryWinner | app/SlashCommands/Traits/Events/EndEvents.php:76-95 | with unique choice ids the label filter keeps every winner the payout produced |
| EventCommands.WithStatus | app/Repositories/EventRepository.php:107-110 | exactly the events with that status, each as often as it occurs |
| EventCommands.ListEvents | app/SlashCommands/Traits/Events/ListEvents.php:32-56 | nothing iff no event is OPEN or CLOSED; otherwise exactly those events, each as often as it occurs, every OPEN one before every CLOSED one, on page 0 |
| EventCommands.Backward | app/SlashCommands/Traits/Events/ListEvents.php:58-68 | at page 0 nothing changes; otherwise one page back; a valid page stays valid |
| EventCommands.Forward | app/SlashCommands/Traits/Events/ListEvents.php:70-80 | at the last page nothing changes; otherwise one page on; a valid page stays valid |
| EventCommands.Footer | app/SlashCommands/Traits/Events/ListEvents.php:106-110 | "page X of N" with 1 ≤ X ≤ N, X the current page plus one and N the number of events |
| EventCommands.ForwardThenBackward | app/SlashCommands/Traits/Events/ListEvents.php:58-80 | forward then back from a page before the last returns to it |
| EventCommands.ForwardPresses | app/SlashCommands/Traits/Events/ListEvents.php:70-80 | from page 0, k presses of forward reach page min(k, N − 1) |
| Roulette.ColourOf | app/Repositories/RouletteRepository.php:180-191 | GREEN iff the number is 0, BLACK iff it is non-zero and even, RED iff it is odd |
| Roulette.Odds | app/Repositories/RouletteRepository.php:145-149 | every colour pays at least twice the stake |
| Roulette.OddsMatchMultipliers | app/Repositories/RouletteRepository.php:35-37 | the odds the payout uses are the declared multipliers: 14 for GREEN, 2 otherwise |
| Roulette.FindGame | app/Repositories/RouletteRepository.php:128-131 | nothing iff no game has the id; otherwise a position holding that id |
| Roulette.CreateGame | app/Repositories/RouletteRepository.php:56-69 | refused for an unknown Discord id, whose NULL `created_by` the non-null column rejects (database/migrations/2024_09_21_173200_create_roulette_table.php:28); otherwise fails iff the insert fails, and else one OPEN game without result under the next id, created by that user, and the new id is returned |
| Roulette.CreatedGameIsListedOpen | app/Repositories/RouletteRepository.php:56-69 | the returned id finds the new game, which is OPEN and listed by `listEventsByStatus([OPEN])` without a limit |
| Roulette.SetGame | app/Repositories/RouletteRepository.php:71-83 | error iff the game is missing or the save fails; otherwise only that game's status and result change |
| Roulette.Close | app/Repositories/RouletteRepository.php:133-138 | error iff the game is missing or the save fails; otherwise CLOSED with its result kept, and nothing else changes |
| Roulette.Finish | app/Repositories/RouletteRepository.php:78-83 | error iff the game is missing or the save fails; otherwise PAID with its result kept, and nothing else changes |
| Roulette.UpdateWithWinner | app/Repositories/RouletteRepository.php:172-178 | error iff the game is missing or the save fails; otherwise PAID with the drawn number stored, and nothing else changes |
| Roulette.CreateBet | app/Repositories/RouletteBetRepository.php:37-49 | the bet row exists iff its insert succeeded; the −amount row is written (the user's coins falling by the amount) iff both inserts succeeded, so there is never a debit without the bet; the result is true iff both did |
| Roulette.BetsOnChoice | app/Repositories/RouletteBetRepository.php:51-57 | exactly the game's bets on that colour, each as often as it occurs |
| Roulette.Keys | app/Repositories/RouletteBetRepository.php:71 | each (user, colour) pair that bet on the game, exactly once |
| Roulette.AbsentKeyHasNoStake | app/Repositories/RouletteBetRepository.php:67-71 | a pair with no bet on the game has stake 0 |
| Roulette.BetsByGame | app/Repositories/RouletteBetRepository.php:59-74 | one line per (user, colour) pair that bet, each pair once, exactly the pairs that bet, each carrying the pair's summed amount |
| Roulette.CreditIsStake | app/Repositories/RouletteRepository.php:153-167 | crediting the grouped lines of a colour gives each user their total stake on it times the odds |
| Roulette.PayStakes | app/Repositories/RouletteRepository.php:153-167 | every user's coins rise by exactly their stake on the drawn colour times its odds |
| Roulette.WinnerLines | app/Repositories/RouletteRepository.php:153-164 | one line per group on the colour, with its user and amount times the odds, and no user twice when the groups' (user, colour) keys are distinct |
| Roulette.Winners | app/Repositories/RouletteRepository.php:153-164 | one line per user who bet on the drawn colour in this game, no user twice, each earning their stake on it times its odds; no other line appears |
| Roulette.PayoutRoulette | app/Repositories/RouletteRepository.php:140-170 | error iff the game is missing; otherwise PAID with the number, each user credited their stake on the drawn colour times its odds; the winners are one line per user who bet on that colour, no user twice, with those earnings; bets, the other games, the users and the next id untouched |
| Roulette.LosersGetNothing | app/Repositories/RouletteRepository.php:153-156 | a user with no bet on the drawn colour gains nothing |
| Roulette.WithStatuses | app/Repositories/RouletteRepository.php:104-105 | exactly the games whose status is in the list, each as often as it occurs |
| Roulette.ListByStatus | app/Repositories/RouletteRepository.php:102-113 | a sub-multiset of the games with a listed status (all of them, with multiplicity, without a truthy limit), ids descending, min(limit, matches) of them for a positive limit and all of them otherwise, and no omitted match has a larger id than a listed one |
| Roulette.BetThenPayout | app/Repositories/RouletteRepository.php:140-170 | a user's first bet on a game, paid out, nets amount × (odds − 1) on the drawn colour and −amount on any other |
| Jokenpo.EachMoveBeatsTwo | app/Entities/JokenpoEntity.php:18-24 | each move beats two distinct moves, neither of them itself |
| Jokenpo.ExactlyOneWins | app/Entities/JokenpoEntity.php:18-24 | of two distinct moves exactly one beats the other; no move beats itself |
| Jokenpo.GetOutcome | app/Entities/JokenpoEntity.php:137-146 | a tie iff the bot played the same move, a win iff the bot's move is one the player's beats, and a loss otherwise, including when the bot has no move |
| Jokenpo.OutcomeSwaps | app/Entities/JokenpoEntity.php:137-146 | swapping the two moves turns a win into a loss and keeps a tie |
| Jokenpo.SetPlayerMove | app/Entities/JokenpoEntity.php:88-98 | refused, with the game unchanged, iff the Discord id already played; otherwise the player is appended |
| Jokenpo.SetPlayerMoveKeepsPlayersDistinct | app/Entities/JokenpoEntity.php:88-98 | accepted moves keep one entry per Discord id, and a second move by the same id is refused |
| Jokenpo.SetBotMove | app/Entities/JokenpoEntity.php:115-118 | the bot gets a move and the game's id and players are untouched |
| Jokenpo.EveryMoveCanBeDrawn | app/Entities/JokenpoEntity.php:31 | every move is among those the bot draws from |
| Jokenpo.EvaluateMoves | app/Entities/JokenpoEntity.php:153-165 | every player, in order, with their id and move kept and a result set: a win iff the bot's move is beaten by theirs, a tie iff it is the same |
| Jokenpo.TwoMovesWinOneTies | app/Entities/JokenpoEntity.php:18-31 | against any bot move exactly two of the five moves win and exactly one ties |
| JokenpoPlay.UserIdOf | app/Repositories/UserRepository.php:24-27 | a user id iff a user has the Discord id |
| JokenpoPlay.AvailableCoinsMeansKnownUser | app/Repositories/UserCoinHistoryRepository.php:92-99 | passing the coins check for a positive amount implies the Discord id belongs to a user |
| JokenpoPlay.PlayJokenpo | app/SlashCommands/Traits/Jokenpo/PlayJokenpo.php:26-74 | refused iff the player has fewer than 200 coins or already played, the coin refusal first; otherwise the move joins the game, the total falls by 200 and stays ≥ 0, and one player row of 200 is written for this game, carrying the looked-up user id that `RecordResults` later matches |
| JokenpoPlay.WinCountOfDistinct | app/Entities/JokenpoEntity.php:88-98 | with one entry per Discord id, an id's number of winning entries is 1 if its entry won and 0 otherwise |
| JokenpoPlay.PayWinners | app/SlashCommands/Traits/Jokenpo/PlayJokenpo.php:117-129 | each registered Discord id's total rises by 400 per winning entry; unregistered ids and non-winners are unchanged |
| JokenpoPlay.SetResult | app/SlashCommands/Traits/Jokenpo/PlayJokenpo.php:113-115 | exactly the rows of that game and looked-up user get the result; the rest are unchanged |
| JokenpoPlay.RecordResults | app/SlashCommands/Traits/Jokenpo/PlayJokenpo.php:112-116 | only the result column changes, and only on rows of that game; a row of the game whose user is a player's looked-up user gets the last such player's result, and a row of no player is unchanged |
| JokenpoPlay.BuildGameResults | app/SlashCommands/Traits/Jokenpo/PlayJokenpo.php:102-131 | the game's players become exactly `EvaluateMoves` of the game; each registered player's result row for the game gets that player's result; each registered player who won gains exactly 400, other players nothing, and anyone who did not play is unchanged |
| JokenpoPlay.SoloRound | app/SlashCommands/Traits/Jokenpo/PlayJokenpo.php:26-131 | a lone player with 200 coins is accepted and ends +200 net if their move beats the bot's, −200 otherwise |
| TransferCommand.AccountAge | app/SlashCommands/TransferCommand.php:84 | the age is never negative, and 0 when the sender is unknown |
| TransferCommand.Handle | app/SlashCommands/TransferCommand.php:73-192 | each outcome holds iff its condition does: invalid amount iff outside 1..limit; too new iff the amount is valid and the account is at most 15 days old; insufficient iff both pass and coins fall short; a self-transfer after the checks costs the sender the amount as a "Troll" row; an unknown receiver is refused; otherwise the repository transfer runs and its failure is reported |
| TransferCommand.TrollPenalty | app/SlashCommands/TransferCommand.php:126-143 | the sender's total falls by the amount and stays ≥ 0; users unchanged |
| TransferCommand.SenderNotFoundUnreachable | app/SlashCommands/TransferCommand.php:145-156 | "sender not found" is never replied: an unknown sender is always refused earlier |
| TransferCommand.UnsetLimitRefusesAll | app/SlashCommands/TransferCommand.php:86 | with no transfer limit configured every transfer is refused as an invalid amount |
| TransferCommand.TransferMovesExactlyTheAmount | app/SlashCommands/TransferCommand.php:171-191 | a completed transfer moves exactly the amount from the sender's user to a different receiving user and no other user's sum changes |
| Cooldown.Cool | app/Helpers/RedisHelper.php:9-21 | with no truthy count the key is set to 1 and the call passes; a count below `times` is incremented and passes; any other count is refused with nothing changed; other keys are untouched |
| Cooldown.Expire | app/Helpers/RedisHelper.php:13-19 | once the window ends the key no longer counts; other keys are untouched |
| Cooldown.FreshWindowPassesFirstCalls | app/Helpers/RedisHelper.php:9-21 | in a fresh window exactly the first max(1, times) calls pass, and the count stops at that number |
| Cooldown.WindowPassesAtMost | app/Helpers/RedisHelper.php:9-21 | n calls in one window let exactly min(n, max(1, times)) through |
| Cooldown.PassesOfPrefix | app/Helpers/RedisHelper.php:9-21 | answers that are true exactly below index m contain min(length, m) passes |
| Ranking.SortDesc | economy_api/app.py:310 | the result is sorted by descending key and is a permutation of the input |
| BetService.Refund | bet_api/api_service.py:408-413 | every user's balance rises by exactly the amounts of their bets whose refund credit succeeded |
| BetService.EachWinnerGetsStakeBack | bet_api/api_service.py:278-299 | when the winning stakes are part of the pool, every distribution pays at least the original bet and its profit is ≥ 0 |
| BetService.ShareSumAtMostPool | bet_api/api_service.py:278-279 | the truncated shares of all winners together never exceed the pool |

## Left out

- HTTP routing, JSON request parsing and response bodies, Discord embeds, buttons, modals and message texts are left out. Each handler is reduced to the outcome it reports: a status code, a refusal kind or a reply kind.
- Remote calls are oracle parameters that say whether the call succeeded. This covers the bet service's calls to the balance service and the daily-claim service's calls to the client and balance services. The transport itself is not modelled.
- Database writes that can fail are oracle parameters too (`ok`, `saved`, `fromOk`, `toOk`, `betOk`, `historyOk`). Where the source catches the failure (the try/catch blocks of `EventRepository` and `EventBetRepository`) the parameter's error is the reply the source gives. Elsewhere Eloquent's `create` and `save` throw on a database error and nothing catches it: the roulette repositories, `UserCoinHistoryRepository` and `UserRepository`. There a false parameter stands for an exception that ends the call with no reply. The state the model returns is the source's: without a transaction what was written before the throw stays (`Roulette.CreateBet`), and inside an uncommitted transaction nothing is kept. An open transaction left behind by the exception is not modelled.
- TransferCommand.Handle: `Err(TransferFailed)` (the "erro ao transferir coins" reply of app/SlashCommands/TransferCommand.php:171-181) stands for a thrown insert inside the repository transfer. In the source that exception escapes `handle`, so no reply is sent. The guard `!$from || !$to` is never true, so this reply is as unreachable as "sender not found". No coins move in either case.
- CoinHistory.Transfer: `fromOk`/`toOk` false stands for a thrown `create` (app/Repositories/UserCoinHistoryRepository.php:68-80), not for the rollback at :82-85, which cannot fire. Nothing is committed and the transaction stays open; the model returns `Err(RolledBack)` with the history unchanged.
- Session and transaction machinery is left out: SQLAlchemy, Eloquent, Redis and the migrations. Each commit is one atomic state step. A rollback discards the local database changes of the step; it does not undo a call already made to another service.
- BetService.PlaceBet, BetService.Finalize, BetService.Cancel and DailyCoins.ClaimDaily assume that the local commit following a successful balance-service call succeeds. In the services the debit (bet_api/api_service.py:202) or the credits (bet_api/api_service.py:282, 411; coin_api/api_service.py:51) reach the balance service before `db.commit()`, so a failing commit would roll back the local rows while the remote ledger keeps the change; that outcome is not modelled.
- EconomyLedger: `economy_api/api_service.py` cannot run as written. `BalanceOperation(**op.dict())` (line 25) omits the `id`, `createdAt` and `updatedAt` that the plain class in `economy_api/models/BalanceOperation.py` requires. The keyword constructions (lines 28-33 and 50-55) pass `receiverId` and `senderId`, names its constructor does not take. The class is also not a mapped table that `db.add` accepts. The ledger models the handlers' evident intent: each request appends the rows it builds.
- The clock is not modelled. Times, dates and account ages are integer parameters (seconds in `CoinBank`, day numbers elsewhere). `TransferCommand.AccountAge` takes the whole-day difference between two day numbers in place of `DateTime::diff()->days`.
- `Cooldown.Expire`: the key's expiry (`EX seconds`) is not timed. Expiry is the abstract step that drops the key.
- Randomness is not modelled. The bot's jokenpo move is an index parameter (`Jokenpo.SetBotMove`). The roulette number is a parameter.
- Amounts are modelled as integers. The services parse some amounts as floats and the PHP code uses `float` parameters; fractional coins are not modelled.
- BetPayout.Share: the payout is the exact `floor(pool * stake / winningTotal)`. The Python code computes `int(total_pool * (amount / winning_total))` in floating point, which can come out one coin lower.
- LegacyEvents.PayoutEvent: the prize per bet is an uninterpreted function `earnings`. The log10-based odds of `calculateOdds`, the 2-decimal rounding and the random "extra lucky" multiplier are not modelled.
- The JSON-encoded descriptions of history rows are free `note` strings. Their encoding is not modelled.
- JokenpoPlay.BuildGameResults: the contract is stated for games whose players have distinct Discord ids. That is the invariant `Jokenpo.SetPlayerMove` keeps (`Jokenpo.SetPlayerMoveKeepsPlayersDistinct`), and it is the only way players join a game.
- JokenpoPlay.PayWinners: the contract is stated for a history whose user ids are unique, the invariant `CoinHistory.Inv`.
- The event repositories declare `getEventById` as returning a non-nullable `Event`, so a missing event would throw before the commands' `!$event` branches. The model takes the branches, and those outcomes change no state. The close command, which tests the status first, reports a missing event as "must be open".
- Roulette choices and numbers are compared as integers. The strict `!==` in `payoutRoulette` is assumed to see the same type on both sides.
- Ranking.TopN: the order among equal keys is not stated. Python's `sorted` is stable, so tied users keep table order and the earlier ones make a tied cut; the model promises only that whichever tied elements are kept, none left out is larger.
- Concurrency is not modelled. Operations run one at a time, so the races between a duplicate-bet check and the insert do not arise.
- Out of scope: the LLM proxies, the little-airplanes game, the Discord front-ends, the schema-only entity files, and the display helpers (labels, emoji, money formatting).

## Findings

| source | as written | input that shows it | evidently intended | confidence | as-written member | corrected member |
|---|---|---|---|---|---|---|
| app/Repositories/UserRepository.php:59 | the rollback guard `!$createUser && !$registerCoinsGiven` is dead code: `create` returns a model or throws, and nothing catches the throw (with `&&` it could not catch one failed insert even if `create` returned false) | the user insert succeeds and the initial-coins insert fails: the exception leaves the method at :53 with the transaction open, so it neither rolls back nor answers false | a failed insert is caught, the transaction rolled back and false answered, as the guard and the `bool` result suggest | not executed | CoinHistory.AsWrittenNeverRollsBack | CoinHistory.RegisterAndGiveInitialCoins |

=== FILE: balance_ledger.dfy ===
/**
 * The balance service: an append-only table of signed operations keyed by
 * client id. A balance is never stored; it is the sum of the client's rows.
 */
module BalanceLedger {
  import opened Common

  /** One row of the `balance_operation` table (the generated id and timestamps are not modelled). */
  datatype Op = Op(clientId: string, amount: int, description: string)

  /** The whole table, in insertion order. */
  type Ledger = seq<Op>

  /** Sum of the amounts of a list of rows. */
  function SumAmounts(ops: seq<Op>): int
  {
    if |ops| == 0 then 0 else SumAmounts(ops[..|ops| - 1]) + ops[|ops| - 1].amount
  }

  /** The balance of client c: the sum of the amounts of the rows carrying c; 0 when there are none. */
  function Balance(l: Ledger, c: string): int
  {
    if |l| == 0 then 0
    else Balance(l[..|l| - 1], c) + (if l[|l| - 1].clientId == c then l[|l| - 1].amount else 0)
  }

  lemma BalanceAppend(l: Ledger, op: Op, c: string)
    ensures Balance(l + [op], c) == Balance(l, c) + (if op.clientId == c then op.amount else 0)
  {
    assert (l + [op])[..|l|] == l;
  }

  /** An empty table gives every client a zero balance. */
  lemma BalanceOfEmpty(c: string)
    ensures Balance([], c) == 0
  {
  }

  /** The rows of client c, in insertion order (`get_user_operations`). */
  function Operations(l: Ledger, c: string): (r: seq<Op>)
    ensures |r| <= |l|
    ensures forall op :: op in r ==> op in l && op.clientId == c
    ensures forall i :: 0 <= i < |l| && l[i].clientId == c ==> l[i] in r
    ensures forall op {:trigger multiset(r)[op]} :: multiset(r)[op] == if op.clientId == c then multiset(l)[op] else 0
  {
    if |l| == 0 then []
    else
      var prefix := Operations(l[..|l| - 1], c);
      assert forall i :: 0 <= i < |l| - 1 ==> l[..|l| - 1][i] == l[i];
      assert l == l[..|l| - 1] + [l[|l| - 1]];
      if l[|l| - 1].clientId == c then prefix + [l[|l| - 1]] else prefix
  }

  /** The two read endpoints agree: the balance is the sum of exactly the rows the operations listing returns. */
  lemma {:induction false} BalanceIsSumOfOperations(l: Ledger, c: string)
    ensures Balance(l, c) == SumAmounts(Operations(l, c))
  {
    if |l| > 0 {
      var init := l[..|l| - 1];
      BalanceIsSumOfOperations(init, c);
      var last := l[|l| - 1];
      if last.clientId == c {
        var p := Operations(init, c);
        assert (p + [last])[..|p|] == p;
      }
    }
  }

  /** `/balance/add`: appends a row carrying |amount| for the client. */
  function Add(l: Ledger, c: string, amount: int, description: string): (r: Ledger)
    ensures Balance(r, c) == Balance(l, c) + Abs(amount)
    ensures Balance(r, c) >= Balance(l, c)
    ensures forall o :: o != c ==> Balance(r, o) == Balance(l, o)
    ensures Operations(r, c) == Operations(l, c) + [Op(c, Abs(amount), description)]
    ensures |r| == |l| + 1 && r[..|l|] == l
  {
    var op := Op(c, Abs(amount), description);
    BalanceAppend(l, op, c);
    forall o | o != c ensures Balance(l + [op], o) == Balance(l, o) {
      BalanceAppend(l, op, o);
    }
    assert (l + [op])[..|l|] == l;
    l + [op]
  }

  /** `/balance/subtract`: appends a row carrying -|amount| for the client. */
  function Subtract(l: Ledger, c: string, amount: int, description: string): (r: Ledger)
    ensures Balance(r, c) == Balance(l, c) - Abs(amount)
    ensures Balance(r, c) <= Balance(l, c)
    ensures forall o :: o != c ==> Balance(r, o) == Balance(l, o)
    ensures Operations(r, c) == Operations(l, c) + [Op(c, -Abs(amount), description)]
    ensures |r| == |l| + 1 && r[..|l|] == l
  {
    var op := Op(c, -Abs(amount), description);
    BalanceAppend(l, op, c);
    forall o | o != c ensures Balance(l + [op], o) == Balance(l, o) {
      BalanceAppend(l, op, o);
    }
    assert (l + [op])[..|l|] == l;
    l + [op]
  }

  datatype TransactionError = SameSenderAndReceiver

  /** HTTP status of a rejected transaction. */
  function TransactionStatus(e: TransactionError): int
  {
    400
  }

  /**
   * `/balance/transaction`: rejected when sender and receiver coincide; otherwise
   * one commit appends -|amount| for the sender and +|amount| for the receiver.
   */
  function Transaction(l: Ledger, sender: string, receiver: string, amount: int, description: string)
    : (r: Result<Ledger, TransactionError>)
    ensures r.Err? <==> sender == receiver
    ensures r.Ok? ==> |r.value| == |l| + 2 && r.value[..|l|] == l
    ensures r.Ok? ==> Balance(r.value, sender) == Balance(l, sender) - Abs(amount)
    ensures r.Ok? ==> Balance(r.value, receiver) == Balance(l, receiver) + Abs(amount)
    ensures r.Ok? ==> Balance(r.value, sender) + Balance(r.value, receiver)
                      == Balance(l, sender) + Balance(l, receiver)
    ensures r.Ok? ==> forall o :: o != sender && o != receiver ==> Balance(r.value, o) == Balance(l, o)
  {
    if sender == receiver then Err(SameSenderAndReceiver)
    else
      var senderOp := Op(sender, -Abs(amount), "Transaction to " + receiver + ": " + description);
      var receiverOp := Op(receiver, Abs(amount), "Transaction from " + sender + ": " + description);
      var mid := l + [senderOp];
      var out := mid + [receiverOp];
      forall o ensures Balance(out, o) == Balance(l, o) + (if o == sender then -Abs(amount) else 0)
                                                      + (if o == receiver then Abs(amount) else 0) {
        BalanceAppend(l, senderOp, o);
        BalanceAppend(mid, receiverOp, o);
      }
      assert out[..|l|] == l;
      Ok(out)
  }
}

=== FILE: bet_payout.dfy ===
/**
 * The pari-mutuel payout arithmetic of the bet service. A winner's share is
 * `int(total_pool * amount / winning_total)`: the exact proportional share,
 * truncated toward zero.
 */
module BetPayout {
  import opened Common

  /** Integer division truncating toward zero, as Python's `int()` of a quotient does. */
  function TruncDiv(n: int, d: int): (q: int)
    requires d != 0
    ensures n >= 0 && d > 0 ==> q * d <= n < (q + 1) * d
    ensures Abs(q) * Abs(d) <= Abs(n)
  {
    var m := Abs(n) / Abs(d);
    DivBounds(Abs(n), Abs(d));
    if (n < 0) != (d < 0) then -m else m
  }

  /** Euclidean division of a non-negative by a positive number brackets the numerator. */
  lemma DivBounds(n: int, d: int)
    requires n >= 0 && d > 0
    ensures (n / d) * d <= n < (n / d + 1) * d
    ensures n / d >= 0
  {
    assert n == d * (n / d) + n % d;
  }

  /** A winner's payout: `int(pool * stake / winningTotal)`. */
  function Share(pool: int, stake: int, winningTotal: int): (r: int)
    requires winningTotal != 0
    ensures pool >= 0 && stake >= 0 && winningTotal > 0 ==> 0 <= r && r * winningTotal <= pool * stake
    ensures pool >= 0 && stake >= 0 && winningTotal > 0 ==> pool * stake < (r + 1) * winningTotal
  {
    MulNonNegative(pool, stake);
    TruncDiv(pool * stake, winningTotal)
  }

  lemma MulNonNegative(a: int, b: int)
    ensures a >= 0 && b >= 0 ==> a * b >= 0
  {
  }

  /** Cancelling a positive factor preserves an inequality. */
  lemma CancelFactor(a: int, b: int, w: int)
    requires w > 0
    requires a * w <= b * w
    ensures a <= b
  {
    if a > b {
      assert a * w == b * w + (a - b) * w;
      MulPositive(a - b, w);
    }
  }

  lemma MulPositive(a: int, b: int)
    requires a > 0 && b > 0
    ensures a * b > 0
  {
  }

  /**
   * When the winning side's stakes are part of the pool (stake <= winningTotal
   * <= pool), no winner receives less than their own stake back.
   */
  lemma ShareAtLeastStake(pool: int, stake: int, winningTotal: int)
    requires 0 <= stake && 0 < winningTotal <= pool
    ensures Share(pool, stake, winningTotal) >= stake
  {
    var r := Share(pool, stake, winningTotal);
    assert pool * stake >= winningTotal * stake by {
      assert pool * stake == winningTotal * stake + (pool - winningTotal) * stake;
      MulNonNegative(pool - winningTotal, stake);
    }
    assert stake * winningTotal < (r + 1) * winningTotal;
    CancelFactorStrict(stake, r + 1, winningTotal);
  }

  lemma CancelFactorStrict(a: int, b: int, w: int)
    requires w > 0
    requires a * w < b * w
    ensures a < b
  {
    if a >= b {
      assert a * w == b * w + (a - b) * w;
      MulNonNegative(a - b, w);
    }
  }

  /** A single stake's share never exceeds the whole pool when it is part of the winning total. */
  lemma ShareAtMostPool(pool: int, stake: int, winningTotal: int)
    requires 0 <= pool && 0 <= stake <= winningTotal && winningTotal > 0
    ensures Share(pool, stake, winningTotal) <= pool
  {
    var r := Share(pool, stake, winningTotal);
    assert r * winningTotal <= pool * winningTotal by {
      assert pool * winningTotal == pool * stake + pool * (winningTotal - stake);
      MulNonNegative(pool, winningTotal - stake);
    }
    CancelFactor(r, pool, winningTotal);
  }

  /** Truncation can lose coins: a pool of 10 split over three equal stakes of 1 pays 3 + 3 + 3 = 9. */
  lemma TruncationLosesRemainder()
    ensures Share(10, 1, 3) == 3
    ensures 3 * Share(10, 1, 3) < 10
  {
    assert 10 * 1 == 3 * 3 + 1;
  }

  /** When the pool is a multiple of the winning total the payout is exact: 1000 over stakes 300 and 700. */
  lemma ExactWhenDivisible()
    ensures Share(1000, 300, 1000) + Share(1000, 700, 1000) == 1000
  {
  }
}

=== FILE: bet_service.dfy ===
/**
 * The pari-mutuel bet service. Events are open (active, unfinished), then
 * either finished with a winning option or cancelled (inactive, unfinished).
 * Users stake on option 1 or 2; each event keeps running pool totals. Money
 * moves through the balance service, modelled by `BalanceLedger`: the
 * balance check and the debit/credit calls become oracle parameters that say
 * whether the remote call succeeded.
 */
module BetService {
  import opened Common
  import BalanceLedger
  import BetPayout

  datatype BetEvent = BetEvent(
    id: nat, title: string, description: string, option1: string, option2: string,
    isActive: bool, isFinished: bool, winningOption: Option<int>,
    totalBetAmount: int, option1BetAmount: int, option2BetAmount: int)

  datatype UserBet = UserBet(id: nat, userId: string, betEventId: nat, chosenOption: int, amount: int)

  /** The two tables and the next auto-increment ids. */
  datatype Db = Db(events: map<nat, BetEvent>, bets: seq<UserBet>, nextEventId: nat, nextBetId: nat)

  /** The bet service's tables together with the balance service's table it calls into. */
  datatype State = State(db: Db, ledger: BalanceLedger.Ledger)

  predicate ValidOption(o: int)
  {
    o == 1 || o == 2
  }

  /** The filter every mutating endpoint and the active listing apply. */
  predicate IsOpen(e: BetEvent)
  {
    e.isActive && !e.isFinished
  }

  /** A freshly constructed event: only the texts are given, every other column takes its default. */
  function NewEvent(id: nat, title: string, description: string, option1: string, option2: string): (e: BetEvent)
    ensures e.id == id && e.title == title && e.description == description
    ensures e.option1 == option1 && e.option2 == option2
    ensures IsOpen(e) && e.winningOption.None?
    ensures e.totalBetAmount == 0 && e.option1BetAmount == 0 && e.option2BetAmount == 0
  {
    BetEvent(id, title, description, option1, option2, true, false, None, 0, 0, 0)
  }

  // ---------------------------------------------------------------- bet lists

  function SumStakes(bets: seq<UserBet>): int
  {
    if |bets| == 0 then 0 else SumStakes(bets[..|bets| - 1]) + bets[|bets| - 1].amount
  }

  lemma SumStakesAppend(bets: seq<UserBet>, b: UserBet)
    ensures SumStakes(bets + [b]) == SumStakes(bets) + b.amount
  {
    assert (bets + [b])[..|bets|] == bets;
  }

  /** The bets on one option of one event, in table order, each once. */
  function OptionBets(bets: seq<UserBet>, eventId: nat, option: int): (r: seq<UserBet>)
    ensures |r| <= |bets|
    ensures forall b :: b in r <==> b in bets && b.betEventId == eventId && b.chosenOption == option
    ensures forall b {:trigger multiset(r)[b]} :: multiset(r)[b] == if b.betEventId == eventId && b.chosenOption == option then multiset(bets)[b] else 0
  {
    if |bets| == 0 then []
    else
      var last := bets[|bets| - 1];
      assert bets == bets[..|bets| - 1] + [last];
      var init := OptionBets(bets[..|bets| - 1], eventId, option);
      if last.betEventId == eventId && last.chosenOption == option then init + [last] else init
  }

  /** The bets of one event, in table order, each once. */
  function EventBets(bets: seq<UserBet>, eventId: nat): (r: seq<UserBet>)
    ensures |r| <= |bets|
    ensures forall b :: b in r <==> b in bets && b.betEventId == eventId
    ensures forall b {:trigger multiset(r)[b]} :: multiset(r)[b] == if b.betEventId == eventId then multiset(bets)[b] else 0
  {
    if |bets| == 0 then []
    else
      var last := bets[|bets| - 1];
      assert bets == bets[..|bets| - 1] + [last];
      var init := EventBets(bets[..|bets| - 1], eventId);
      if last.betEventId == eventId then init + [last] else init
  }

  /** The bets whose remote credit call succeeded (their id is not in `failed`), in order, each once. */
  function Kept(bets: seq<UserBet>, failed: set<nat>): (r: seq<UserBet>)
    ensures |r| <= |bets|
    ensures forall b :: b in r <==> b in bets && b.id !in failed
    ensures forall b {:trigger multiset(r)[b]} :: multiset(r)[b] == if b.id !in failed then multiset(bets)[b] else 0
    ensures (forall b :: b in bets ==> b.id !in failed) ==> r == bets
  {
    if |bets| == 0 then []
    else
      var last := bets[|bets| - 1];
      assert bets == bets[..|bets| - 1] + [last];
      var init := Kept(bets[..|bets| - 1], failed);
      if last.id !in failed then init + [last] else init
  }

  /** The amount staked on one option of one event, recomputed from the bets. */
  function OptionPool(bets: seq<UserBet>, eventId: nat, option: int): int
  {
    SumStakes(OptionBets(bets, eventId, option))
  }

  lemma OptionPoolAppend(bets: seq<UserBet>, b: UserBet, eventId: nat, option: int)
    ensures OptionPool(bets + [b], eventId, option)
            == OptionPool(bets, eventId, option) + (if b.betEventId == eventId && b.chosenOption == option then b.amount else 0)
  {
    assert (bets + [b])[..|bets|] == bets;
    if b.betEventId == eventId && b.chosenOption == option {
      SumStakesAppend(OptionBets(bets, eventId, option), b);
    }
  }

  lemma {:induction false} UnreferencedHasEmptyPool(bets: seq<UserBet>, eventId: nat, option: int)
    requires forall i :: 0 <= i < |bets| ==> bets[i].betEventId != eventId
    ensures OptionPool(bets, eventId, option) == 0
  {
    if |bets| > 0 {
      UnreferencedHasEmptyPool(bets[..|bets| - 1], eventId, option);
    }
  }

  /** An event's stakes split into its two option pools when every bet names option 1 or 2. */
  lemma {:induction false} EventStakesSplit(bets: seq<UserBet>, eventId: nat)
    requires forall i :: 0 <= i < |bets| ==> ValidOption(bets[i].chosenOption)
    ensures SumStakes(EventBets(bets, eventId)) == OptionPool(bets, eventId, 1) + OptionPool(bets, eventId, 2)
  {
    if |bets| > 0 {
      var init := bets[..|bets| - 1];
      var last := bets[|bets| - 1];
      EventStakesSplit(init, eventId);
      if last.betEventId == eventId {
        SumStakesAppend(EventBets(init, eventId), last);
        if last.chosenOption == 1 {
          SumStakesAppend(OptionBets(init, eventId, 1), last);
        } else {
          SumStakesAppend(OptionBets(init, eventId, 2), last);
        }
      }
    }
  }

  /** Every element of a list of non-negative stakes is at most their sum. */
  lemma {:induction false} StakeAtMostSum(bets: seq<UserBet>, b: UserBet)
    requires forall i :: 0 <= i < |bets| ==> bets[i].amount >= 0
    requires b in bets
    ensures 0 <= b.amount <= SumStakes(bets)
  {
    var init := bets[..|bets| - 1];
    if b != bets[|bets| - 1] {
      assert bets == init + [bets[|bets| - 1]];
      StakeAtMostSum(init, b);
    } else if |init| > 0 {
      StakesNonNegative(init);
    }
  }

  lemma {:induction false} StakesNonNegative(bets: seq<UserBet>)
    requires forall i :: 0 <= i < |bets| ==> bets[i].amount >= 0
    ensures SumStakes(bets) >= 0
  {
    if |bets| > 0 {
      StakesNonNegative(bets[..|bets| - 1]);
    }
  }

  // ---------------------------------------------------------------- invariant

  /** Each map key is its event's id and lies below the next id to hand out. */
  predicate KeysMatch(db: Db)
  {
    forall k :: k in db.events ==> db.events[k].id == k && k < db.nextEventId
  }

  /** Every stored bet names an existing event, option 1 or 2, and a positive amount. */
  predicate BetsWellFormed(db: Db)
  {
    forall i :: 0 <= i < |db.bets| ==>
      db.bets[i].betEventId in db.events && ValidOption(db.bets[i].chosenOption) && db.bets[i].amount > 0
  }

  /** At most one bet per (user, event). */
  predicate OneBetPerUserAndEvent(bets: seq<UserBet>)
  {
    forall i, j :: 0 <= i < j < |bets| ==> bets[i].userId != bets[j].userId || bets[i].betEventId != bets[j].betEventId
  }

  /** The stored pool columns agree with the bets: total == option1 + option2, each the sum of its stakes. */
  predicate PoolConsistent(bets: seq<UserBet>, e: BetEvent)
  {
    && e.option1BetAmount == OptionPool(bets, e.id, 1)
    && e.option2BetAmount == OptionPool(bets, e.id, 2)
    && e.totalBetAmount == e.option1BetAmount + e.option2BetAmount
  }

  /** winningOption is set exactly when the event is finished, is 1 or 2, and a cancelled event never finishes. */
  predicate WellPhased(e: BetEvent)
  {
    && (e.winningOption.Some? <==> e.isFinished)
    && (e.winningOption.Some? ==> ValidOption(e.winningOption.value))
    && (e.isFinished ==> e.isActive)
  }

  predicate Inv(db: Db)
  {
    && KeysMatch(db)
    && BetsWellFormed(db)
    && OneBetPerUserAndEvent(db.bets)
    && (forall k :: k in db.events ==> PoolConsistent(db.bets, db.events[k]))
    && (forall k :: k in db.events ==> WellPhased(db.events[k]))
  }

  function Empty(): Db
  {
    Db(map[], [], 1, 1)
  }

  lemma EmptySatisfiesInv()
    ensures Inv(Empty())
  {
  }

  // ---------------------------------------------------------------- create

  /** `POST /bet/event`: stores a new event under the next id. */
  function CreateEvent(db: Db, title: string, description: string, option1: string, option2: string): (r: Db)
    ensures r.events.Keys == db.events.Keys + {db.nextEventId}
    ensures forall k :: k in db.events && k != db.nextEventId ==> r.events[k] == db.events[k]
    ensures r.bets == db.bets && r.nextEventId > db.nextEventId
    ensures r.events[db.nextEventId] == NewEvent(db.nextEventId, title, description, option1, option2)
  {
    db.(events := db.events[db.nextEventId := NewEvent(db.nextEventId, title, description, option1, option2)],
        nextEventId := db.nextEventId + 1)
  }

  /** A new event is open with empty pools, and the pool invariant holds for it from the start. */
  lemma CreateEventPreservesInv(db: Db, title: string, description: string, option1: string, option2: string)
    requires Inv(db)
    ensures var r := CreateEvent(db, title, description, option1, option2);
      && Inv(r)
      && db.nextEventId !in db.events
      && IsOpen(r.events[db.nextEventId])
      && r.events[db.nextEventId].winningOption.None?
      && r.events[db.nextEventId].totalBetAmount == 0
  {
    var r := CreateEvent(db, title, description, option1, option2);
    var id := db.nextEventId;
    forall i | 0 <= i < |db.bets| ensures db.bets[i].betEventId != id {
      assert db.bets[i].betEventId in db.events;
    }
    UnreferencedHasEmptyPool(db.bets, id, 1);
    UnreferencedHasEmptyPool(db.bets, id, 2);
    assert PoolConsistent(r.bets, r.events[id]);
  }

  // ---------------------------------------------------------------- place

  datatype BetError = BadOption | BadAmount | EventNotOpen | AlreadyBet | InsufficientBalance | DebitFailed

  function Status(e: BetError): int
  {
    match e
    case BadOption => 400
    case BadAmount => 400
    case EventNotOpen => 404
    case AlreadyBet => 400
    case InsufficientBalance => 400
    case DebitFailed => 500
  }

  predicate HasBet(bets: seq<UserBet>, userId: string, eventId: nat)
  {
    exists i :: 0 <= i < |bets| && bets[i].userId == userId && bets[i].betEventId == eventId
  }

  function AddToPools(e: BetEvent, option: int, amount: int): BetEvent
  {
    if option == 1 then e.(totalBetAmount := e.totalBetAmount + amount, option1BetAmount := e.option1BetAmount + amount)
    else e.(totalBetAmount := e.totalBetAmount + amount, option2BetAmount := e.option2BetAmount + amount)
  }

  /**
   * `POST /bet/place`. Checks, first failure wins: option in {1, 2}; amount > 0;
   * the event exists and is open; no earlier bet by this user on it; the balance
   * service answers and reports at least `amount` (`balanceReachable`); the debit
   * call succeeds (`debitOk`). Then the debit row, the bet row and the pool update.
   */
  function PlaceBet(s: State, userId: string, eventId: nat, option: int, amount: int,
                    balanceReachable: bool, debitOk: bool): (r: Result<State, BetError>)
    ensures r.Err? <==>
      || !ValidOption(option) || amount <= 0
      || eventId !in s.db.events || !IsOpen(s.db.events[eventId])
      || HasBet(s.db.bets, userId, eventId)
      || !balanceReachable || BalanceLedger.Balance(s.ledger, userId) < amount
      || !debitOk
    ensures !ValidOption(option) ==> r == Err(BadOption)
    ensures ValidOption(option) && amount <= 0 ==> r == Err(BadAmount)
    ensures ValidOption(option) && amount > 0 && (eventId !in s.db.events || !IsOpen(s.db.events[eventId]))
            ==> r == Err(EventNotOpen)
    ensures ValidOption(option) && amount > 0 && eventId in s.db.events && IsOpen(s.db.events[eventId]) ==>
      && (HasBet(s.db.bets, userId, eventId) ==> r == Err(AlreadyBet))
      && (!HasBet(s.db.bets, userId, eventId)
          && (!balanceReachable || BalanceLedger.Balance(s.ledger, userId) < amount)
          ==> r == Err(InsufficientBalance))
      && (!HasBet(s.db.bets, userId, eventId) && balanceReachable
          && BalanceLedger.Balance(s.ledger, userId) >= amount && !debitOk
          ==> r == Err(DebitFailed))
    ensures r.Err? && r.error == AlreadyBet ==> HasBet(s.db.bets, userId, eventId)
    ensures r.Err? && r.error == InsufficientBalance ==> !balanceReachable || BalanceLedger.Balance(s.ledger, userId) < amount
    ensures r.Err? && r.error == DebitFailed ==> balanceReachable && !debitOk
    ensures r.Ok? ==> eventId in s.db.events && r.value.db.events.Keys == s.db.events.Keys
    ensures r.Ok? ==> r.value.db.bets == s.db.bets + [UserBet(s.db.nextBetId, userId, eventId, option, amount)]
    ensures r.Ok? ==> var e, e' := s.db.events[eventId], r.value.db.events[eventId];
      && e'.totalBetAmount == e.totalBetAmount + amount
      && e'.option1BetAmount == e.option1BetAmount + (if option == 1 then amount else 0)
      && e'.option2BetAmount == e.option2BetAmount + (if option == 2 then amount else 0)
      && e'.(totalBetAmount := 0, option1BetAmount := 0, option2BetAmount := 0)
         == e.(totalBetAmount := 0, option1BetAmount := 0, option2BetAmount := 0)
    ensures r.Ok? ==> forall k :: k in s.db.events && k != eventId ==> r.value.db.events[k] == s.db.events[k]
    ensures r.Ok? ==> BalanceLedger.Balance(r.value.ledger, userId) == BalanceLedger.Balance(s.ledger, userId) - amount >= 0
    ensures r.Ok? ==> forall u :: u != userId ==> BalanceLedger.Balance(r.value.ledger, u) == BalanceLedger.Balance(s.ledger, u)
  {
    if !ValidOption(option) then Err(BadOption)
    else if amount <= 0 then Err(BadAmount)
    else if eventId !in s.db.events || !IsOpen(s.db.events[eventId]) then Err(EventNotOpen)
    else if HasBet(s.db.bets, userId, eventId) then Err(AlreadyBet)
    else if !balanceReachable || BalanceLedger.Balance(s.ledger, userId) < amount then Err(InsufficientBalance)
    else if !debitOk then Err(DebitFailed)
    else
      var ledger := BalanceLedger.Subtract(s.ledger, userId, amount, "Bet on " + s.db.events[eventId].title);
      Ok(State(AppendBet(s.db, UserBet(s.db.nextBetId, userId, eventId, option, amount)), ledger))
  }

  /** An accepted bet keeps every invariant, in particular total == option1 + option2 for every event. */
  lemma PlaceBetPreservesInv(s: State, userId: string, eventId: nat, option: int, amount: int,
                             balanceReachable: bool, debitOk: bool)
    requires Inv(s.db)
    ensures var r := PlaceBet(s, userId, eventId, option, amount, balanceReachable, debitOk);
      r.Ok? ==> Inv(r.value.db)
  {
    if ValidOption(option) && amount > 0 && eventId in s.db.events && IsOpen(s.db.events[eventId])
       && !HasBet(s.db.bets, userId, eventId) {
      var bet := UserBet(s.db.nextBetId, userId, eventId, option, amount);
      AppendBetPreservesInv(s.db, bet);
    }
  }

  /** The database step of an accepted bet, separated from the admission checks. */
  function AppendBet(db: Db, bet: UserBet): Db
    requires bet.betEventId in db.events
  {
    db.(events := db.events[bet.betEventId := AddToPools(db.events[bet.betEventId], bet.chosenOption, bet.amount)],
        bets := db.bets + [bet], nextBetId := db.nextBetId + 1)
  }

  lemma AppendBetPreservesInv(db: Db, bet: UserBet)
    requires Inv(db)
    requires bet.betEventId in db.events && IsOpen(db.events[bet.betEventId])
    requires ValidOption(bet.chosenOption) && bet.amount > 0
    requires !HasBet(db.bets, bet.userId, bet.betEventId)
    ensures Inv(AppendBet(db, bet))
  {
    AppendBetKeepsPools(db, bet);
    AppendBetKeepsOneBet(db, bet);
    AppendBetKeepsWellFormed(db, bet);
  }

  lemma AppendBetKeepsPools(db: Db, bet: UserBet)
    requires KeysMatch(db) && bet.betEventId in db.events && ValidOption(bet.chosenOption)
    requires forall k :: k in db.events ==> PoolConsistent(db.bets, db.events[k])
    ensures var r := AppendBet(db, bet); forall k :: k in r.events ==> PoolConsistent(r.bets, r.events[k])
  {
    var r := AppendBet(db, bet);
    forall k | k in r.events ensures PoolConsistent(r.bets, r.events[k]) {
      AppendBetKeepsPoolAt(db, bet, k);
    }
  }

  lemma AppendBetKeepsPoolAt(db: Db, bet: UserBet, k: int)
    requires KeysMatch(db) && bet.betEventId in db.events && ValidOption(bet.chosenOption)
    requires k in db.events && PoolConsistent(db.bets, db.events[k])
    ensures k in AppendBet(db, bet).events && PoolConsistent(AppendBet(db, bet).bets, AppendBet(db, bet).events[k])
  {
    var r := AppendBet(db, bet);
    var e := db.events[k];
    assert e.id == k;
    OptionPoolAppend(db.bets, bet, k, 1);
    OptionPoolAppend(db.bets, bet, k, 2);
    if k == bet.betEventId {
      assert r.events[k] == AddToPools(e, bet.chosenOption, bet.amount);
    } else {
      assert r.events[k] == e;
    }
  }

  lemma AppendBetKeepsOneBet(db: Db, bet: UserBet)
    requires OneBetPerUserAndEvent(db.bets) && bet.betEventId in db.events
    requires !HasBet(db.bets, bet.userId, bet.betEventId)
    ensures OneBetPerUserAndEvent(AppendBet(db, bet).bets)
  {
    var r := AppendBet(db, bet);
    forall i, j | 0 <= i < j < |r.bets|
      ensures r.bets[i].userId != r.bets[j].userId || r.bets[i].betEventId != r.bets[j].betEventId
    {
      if j == |db.bets| {
        assert r.bets[i] == db.bets[i];
      }
    }
  }

  lemma AppendBetKeepsWellFormed(db: Db, bet: UserBet)
    requires KeysMatch(db) && BetsWellFormed(db) && (forall k :: k in db.events ==> WellPhased(db.events[k]))
    requires bet.betEventId in db.events && ValidOption(bet.chosenOption) && bet.amount > 0
    ensures var r := AppendBet(db, bet);
      KeysMatch(r) && BetsWellFormed(r) && forall k :: k in r.events ==> WellPhased(r.events[k])
  {
    var r := AppendBet(db, bet);
    forall k | k in r.events ensures WellPhased(r.events[k]) {
      assert WellPhased(db.events[k]);
    }
    forall i | 0 <= i < |r.bets|
      ensures r.bets[i].betEventId in r.events && ValidOption(r.bets[i].chosenOption) && r.bets[i].amount > 0
    {
      if i < |db.bets| {
        assert r.bets[i] == db.bets[i];
      }
    }
  }

  // ---------------------------------------------------------------- finalize

  datatype Distribution = Distribution(userId: string, originalBet: int, winnings: int, profit: int)

  datatype FinalizeReply =
    | NoWinners
    | Finalized(winningOption: int, totalPool: int, winnersCount: int, distributions: seq<Distribution>)

  datatype Finalization = Finalization(state: State, reply: FinalizeReply)

  /** What one winning bet is owed: its stake, its proportional share and the difference. */
  function Owed(b: UserBet, pool: int, winningTotal: int): Distribution
    requires winningTotal != 0
  {
    var w := BetPayout.Share(pool, b.amount, winningTotal);
    Distribution(b.userId, b.amount, w, w - b.amount)
  }

  /** What user u was credited by a list of distributions (the balance service stores |amount|). */
  function Credited(ds: seq<Distribution>, u: string): int
  {
    if |ds| == 0 then 0
    else Credited(ds[..|ds| - 1], u) + (if ds[|ds| - 1].userId == u then Abs(ds[|ds| - 1].winnings) else 0)
  }

  function SumWinnings(ds: seq<Distribution>): int
  {
    if |ds| == 0 then 0 else SumWinnings(ds[..|ds| - 1]) + ds[|ds| - 1].winnings
  }

  datatype Payout = Payout(ledger: BalanceLedger.Ledger, distributions: seq<Distribution>)

  /**
   * The payout loop: each winning bet, in order, is credited its share; a bet whose
   * credit call fails (`id in failed`) gets no money and no entry in the distributions.
   */
  function Distribute(ledger: BalanceLedger.Ledger, winners: seq<UserBet>, pool: int, winningTotal: int,
                      failed: set<nat>, description: string): (r: Payout)
    requires winningTotal != 0
    ensures |r.distributions| == |Kept(winners, failed)|
    ensures forall i :: 0 <= i < |r.distributions| ==>
      r.distributions[i] == Owed(Kept(winners, failed)[i], pool, winningTotal)
    ensures forall u :: BalanceLedger.Balance(r.ledger, u) == BalanceLedger.Balance(ledger, u) + Credited(r.distributions, u)
  {
    if |winners| == 0 then Payout(ledger, [])
    else
      var init := winners[..|winners| - 1];
      var b := winners[|winners| - 1];
      var p := Distribute(ledger, init, pool, winningTotal, failed, description);
      if b.id in failed then p
      else
        var d := Owed(b, pool, winningTotal);
        var ds := p.distributions + [d];
        assert ds[..|ds| - 1] == p.distributions;
        Payout(BalanceLedger.Add(p.ledger, b.userId, d.winnings, description), ds)
  }

  /**
   * `POST /bet/finalize`. A bad option is a 400 and a missing or non-open event a
   * 404. With no stake on the winning option the event is only marked finished.
   * Otherwise each winning bet is paid `int(totalBetAmount * amount / winningTotal)`
   * and the event is marked finished whatever the credit calls returned.
   */
  function Finalize(s: State, eventId: nat, option: int, failed: set<nat>): (r: Result<Finalization, BetError>)
    ensures r.Err? <==> !ValidOption(option) || eventId !in s.db.events || !IsOpen(s.db.events[eventId])
    ensures !ValidOption(option) ==> r == Err(BadOption)
    ensures ValidOption(option) && r.Err? ==> r.error == EventNotOpen
    ensures r.Ok? ==> r.value.state.db.bets == s.db.bets && r.value.state.db.events.Keys == s.db.events.Keys
    ensures r.Ok? ==> r.value.state.db.events[eventId]
                      == s.db.events[eventId].(isFinished := true, winningOption := Some(option))
    ensures r.Ok? ==> forall k :: k in s.db.events && k != eventId ==> r.value.state.db.events[k] == s.db.events[k]
    ensures r.Ok? && OptionPool(s.db.bets, eventId, option) == 0 ==> r.value.reply == NoWinners && r.value.state.ledger == s.ledger
    ensures r.Ok? && OptionPool(s.db.bets, eventId, option) != 0 ==>
      var reply := r.value.reply;
      && reply.Finalized?
      && reply.winningOption == option
      && reply.totalPool == s.db.events[eventId].totalBetAmount
      && reply.winnersCount == |reply.distributions| == |Kept(OptionBets(s.db.bets, eventId, option), failed)|
      && (forall i :: 0 <= i < |reply.distributions| ==>
            reply.distributions[i] == Owed(Kept(OptionBets(s.db.bets, eventId, option), failed)[i],
                                           s.db.events[eventId].totalBetAmount, OptionPool(s.db.bets, eventId, option)))
      && (forall i :: 0 <= i < |reply.distributions| ==>
            reply.distributions[i].profit == reply.distributions[i].winnings - reply.distributions[i].originalBet)
      && (forall u :: BalanceLedger.Balance(r.value.state.ledger, u)
                      == BalanceLedger.Balance(s.ledger, u) + Credited(reply.distributions, u))
  {
    if !ValidOption(option) then Err(BadOption)
    else if eventId !in s.db.events || !IsOpen(s.db.events[eventId]) then Err(EventNotOpen)
    else
      var e := s.db.events[eventId];
      var winners := OptionBets(s.db.bets, eventId, option);
      var winningTotal := SumStakes(winners);
      var e' := e.(isFinished := true, winningOption := Some(option));
      var db := s.db.(events := s.db.events[eventId := e']);
      if winningTotal == 0 then Ok(Finalization(State(db, s.ledger), NoWinners))
      else
        var description := "Winnings from " + e.title + " - Option " + (if option == 1 then "1" else "2");
        var p := Distribute(s.ledger, winners, e.totalBetAmount, winningTotal, failed, description);
        Ok(Finalization(State(db, p.ledger),
                        Finalized(option, e.totalBetAmount, |p.distributions|, p.distributions)))
  }

  /** Sum of the shares owed to a list of bets. */
  function ShareSum(bets: seq<UserBet>, pool: int, winningTotal: int): int
    requires winningTotal != 0
  {
    if |bets| == 0 then 0
    else ShareSum(bets[..|bets| - 1], pool, winningTotal) + BetPayout.Share(pool, bets[|bets| - 1].amount, winningTotal)
  }

  /** Summing truncated shares never exceeds summing the exact ones: ShareSum * W <= pool * (sum of stakes). */
  lemma {:induction false} ShareSumScaled(bets: seq<UserBet>, pool: int, winningTotal: int)
    requires pool >= 0 && winningTotal > 0
    requires forall i :: 0 <= i < |bets| ==> bets[i].amount >= 0
    ensures ShareSum(bets, pool, winningTotal) * winningTotal <= pool * SumStakes(bets)
    ensures ShareSum(bets, pool, winningTotal) >= 0
  {
    if |bets| > 0 {
      var init := bets[..|bets| - 1];
      var last := bets[|bets| - 1];
      ShareSumScaled(init, pool, winningTotal);
      AddScaled(ShareSum(init, pool, winningTotal), BetPayout.Share(pool, last.amount, winningTotal),
                winningTotal, pool, SumStakes(init), last.amount);
    }
  }

  lemma AddScaled(a: int, b: int, w: int, p: int, x: int, y: int)
    requires a * w <= p * x && b * w <= p * y
    ensures (a + b) * w <= p * (x + y)
  {
    assert (a + b) * w == a * w + b * w;
    assert p * (x + y) == p * x + p * y;
  }

  /** Dropping the failed credits can only lower the sum of shares paid. */
  lemma {:induction false} KeptShareSum(bets: seq<UserBet>, failed: set<nat>, pool: int, winningTotal: int)
    requires pool >= 0 && winningTotal > 0
    requires forall i :: 0 <= i < |bets| ==> bets[i].amount >= 0
    ensures ShareSum(Kept(bets, failed), pool, winningTotal) <= ShareSum(bets, pool, winningTotal)
  {
    if |bets| > 0 {
      var init := bets[..|bets| - 1];
      var last := bets[|bets| - 1];
      KeptShareSum(init, failed, pool, winningTotal);
      if last.id !in failed {
        var k := Kept(init, failed);
        assert (k + [last])[..|k|] == k;
      }
    }
  }

  lemma {:induction false} SumWinningsIsShareSum(ds: seq<Distribution>, kept: seq<UserBet>, pool: int, winningTotal: int)
    requires winningTotal != 0
    requires |ds| == |kept|
    requires forall i :: 0 <= i < |ds| ==> ds[i] == Owed(kept[i], pool, winningTotal)
    ensures SumWinnings(ds) == ShareSum(kept, pool, winningTotal)
  {
    if |ds| > 0 {
      SumWinningsIsShareSum(ds[..|ds| - 1], kept[..|kept| - 1], pool, winningTotal);
    }
  }

  /**
   * Payout bounds on a consistent database: every listed winner gets back at
   * least their stake (profit >= 0), and all winnings together never exceed the
   * event's total pool. When no credit call fails, every winning bet is listed.
   */
  lemma FinalizePayoutBounds(s: State, eventId: nat, option: int, failed: set<nat>)
    requires Inv(s.db)
    ensures var r := Finalize(s, eventId, option, failed);
      r.Ok? && r.value.reply.Finalized? ==>
        var ds := r.value.reply.distributions;
        && (forall i :: 0 <= i < |ds| ==> 0 < ds[i].originalBet <= ds[i].winnings && ds[i].profit >= 0)
        && SumWinnings(ds) <= r.value.reply.totalPool
        && ((forall i :: 0 <= i < |s.db.bets| ==> s.db.bets[i].id !in failed) ==>
              r.value.reply.winnersCount == |OptionBets(s.db.bets, eventId, option)|)
  {
    var r := Finalize(s, eventId, option, failed);
    if r.Ok? && r.value.reply.Finalized? {
      var winners := OptionBets(s.db.bets, eventId, option);
      WinningStakesWithinPool(s.db, eventId, option);
      DistributionBounds(r.value.reply.distributions, winners, failed, s.db.events[eventId].totalBetAmount);
      if forall i :: 0 <= i < |s.db.bets| ==> s.db.bets[i].id !in failed {
        forall b | b in winners ensures b.id !in failed {
          assert b in s.db.bets;
        }
      }
    }
  }

  /** The shares owed to the kept winning bets: each at least its stake, all together within the pool. */
  lemma DistributionBounds(ds: seq<Distribution>, winners: seq<UserBet>, failed: set<nat>, pool: int)
    requires 0 < SumStakes(winners) <= pool
    requires forall i :: 0 <= i < |winners| ==> winners[i].amount > 0
    requires |ds| == |Kept(winners, failed)|
    requires forall i :: 0 <= i < |ds| ==> ds[i] == Owed(Kept(winners, failed)[i], pool, SumStakes(winners))
    ensures forall i :: 0 <= i < |ds| ==> 0 < ds[i].originalBet <= ds[i].winnings && ds[i].profit >= 0
    ensures SumWinnings(ds) <= pool
    ensures (forall b :: b in winners ==> b.id !in failed) ==> |ds| == |winners|
  {
    var w := SumStakes(winners);
    var kept := Kept(winners, failed);
    EachWinnerGetsStakeBack(ds, kept, winners, pool, w);
    SumWinningsIsShareSum(ds, kept, pool, w);
    KeptShareSum(winners, failed, pool, w);
    ShareSumAtMostPool(winners, pool);
  }

  /** On a consistent database the winning stakes are positive and lie within the event's pool. */
  lemma WinningStakesWithinPool(db: Db, eventId: nat, option: int)
    requires Inv(db) && eventId in db.events && ValidOption(option)
    ensures var winners := OptionBets(db.bets, eventId, option);
      && (forall i :: 0 <= i < |winners| ==> winners[i].amount > 0)
      && 0 <= SumStakes(winners) <= db.events[eventId].totalBetAmount
  {
    var winners := OptionBets(db.bets, eventId, option);
    var losers := OptionBets(db.bets, eventId, 3 - option);
    assert PoolConsistent(db.bets, db.events[eventId]);
    forall i | 0 <= i < |winners| ensures winners[i].amount > 0 {
      assert winners[i] in db.bets;
    }
    forall i | 0 <= i < |losers| ensures losers[i].amount > 0 {
      assert losers[i] in db.bets;
    }
    StakesNonNegative(winners);
    StakesNonNegative(losers);
  }

  lemma EachWinnerGetsStakeBack(ds: seq<Distribution>, kept: seq<UserBet>, winners: seq<UserBet>, pool: int, w: int)
    requires 0 < w <= pool && w == SumStakes(winners)
    requires forall i :: 0 <= i < |winners| ==> winners[i].amount > 0
    requires forall b :: b in kept ==> b in winners
    requires |ds| == |kept| && forall i :: 0 <= i < |ds| ==> ds[i] == Owed(kept[i], pool, w)
    ensures forall i :: 0 <= i < |ds| ==> 0 < ds[i].originalBet <= ds[i].winnings && ds[i].profit >= 0
  {
    forall i | 0 <= i < |ds| ensures 0 < ds[i].originalBet <= ds[i].winnings && ds[i].profit >= 0 {
      assert kept[i] in winners;
      StakeAtMostSum(winners, kept[i]);
      BetPayout.ShareAtLeastStake(pool, kept[i].amount, w);
    }
  }

  /** The truncated shares of all winning bets sum to at most the pool. */
  lemma ShareSumAtMostPool(winners: seq<UserBet>, pool: int)
    requires 0 < SumStakes(winners) <= pool
    requires forall i :: 0 <= i < |winners| ==> winners[i].amount > 0
    ensures ShareSum(winners, pool, SumStakes(winners)) <= pool
  {
    var w := SumStakes(winners);
    ShareSumScaled(winners, pool, w);
    BetPayout.CancelFactor(ShareSum(winners, pool, w), pool, w);
  }

  lemma FinalizePreservesInv(s: State, eventId: nat, option: int, failed: set<nat>)
    requires Inv(s.db)
    ensures var r := Finalize(s, eventId, option, failed);
      r.Ok? ==> Inv(r.value.state.db)
  {
    var r := Finalize(s, eventId, option, failed);
    if r.Ok? {
      var db := r.value.state.db;
      forall k | k in db.events ensures PoolConsistent(db.bets, db.events[k]) && WellPhased(db.events[k]) {
        assert PoolConsistent(s.db.bets, s.db.events[k]) && WellPhased(s.db.events[k]);
      }
    }
  }

  // ---------------------------------------------------------------- cancel

  datatype Cancellation = Cancellation(state: State, refundedBets: int, totalRefunded: int)

  /** What user u was refunded by a list of bets (the balance service stores |amount|). */
  function Refunded(bets: seq<UserBet>, u: string): int
  {
    if |bets| == 0 then 0
    else Refunded(bets[..|bets| - 1], u) + (if bets[|bets| - 1].userId == u then Abs(bets[|bets| - 1].amount) else 0)
  }

  /** The refund loop: each bet whose credit call succeeds is credited its own amount. */
  function Refund(ledger: BalanceLedger.Ledger, bets: seq<UserBet>, failed: set<nat>, description: string)
    : (r: BalanceLedger.Ledger)
    ensures forall u :: BalanceLedger.Balance(r, u) == BalanceLedger.Balance(ledger, u) + Refunded(Kept(bets, failed), u)
  {
    if |bets| == 0 then ledger
    else
      var init := bets[..|bets| - 1];
      var b := bets[|bets| - 1];
      var l := Refund(ledger, init, failed, description);
      if b.id in failed then l
      else
        var k := Kept(init, failed);
        assert (k + [b])[..|k|] == k;
        BalanceLedger.Add(l, b.userId, b.amount, description)
  }

  /**
   * `DELETE /bet/event/{id}`: only an open event can be cancelled (else 404). Every
   * bet on it is refunded its own amount; the event becomes inactive but not
   * finished. The reply counts the successful refunds and sums all the bets.
   */
  function Cancel(s: State, eventId: nat, failed: set<nat>): (r: Result<Cancellation, BetError>)
    ensures r.Err? <==> eventId !in s.db.events || !IsOpen(s.db.events[eventId])
    ensures r.Err? ==> r.error == EventNotOpen
    ensures r.Ok? ==> r.value.state.db.bets == s.db.bets && r.value.state.db.events.Keys == s.db.events.Keys
    ensures r.Ok? ==> r.value.state.db.events[eventId] == s.db.events[eventId].(isActive := false)
    ensures r.Ok? ==> forall k :: k in s.db.events && k != eventId ==> r.value.state.db.events[k] == s.db.events[k]
    ensures r.Ok? ==> r.value.refundedBets == |Kept(EventBets(s.db.bets, eventId), failed)| <= |EventBets(s.db.bets, eventId)|
    ensures r.Ok? ==> r.value.totalRefunded == SumStakes(EventBets(s.db.bets, eventId))
    ensures r.Ok? ==> forall u :: BalanceLedger.Balance(r.value.state.ledger, u)
                                  == BalanceLedger.Balance(s.ledger, u) + Refunded(Kept(EventBets(s.db.bets, eventId), failed), u)
  {
    if eventId !in s.db.events || !IsOpen(s.db.events[eventId]) then Err(EventNotOpen)
    else
      var e := s.db.events[eventId];
      var bets := EventBets(s.db.bets, eventId);
      var ledger := Refund(s.ledger, bets, failed, "Refund for cancelled event: " + e.title);
      var db := s.db.(events := s.db.events[eventId := e.(isActive := false)]);
      Ok(Cancellation(State(db, ledger), |Kept(bets, failed)|, SumStakes(bets)))
  }

  /** On a consistent database the reported refund total is exactly the event's pool. */
  lemma CancelRefundsWholePool(s: State, eventId: nat, failed: set<nat>)
    requires Inv(s.db)
    ensures var r := Cancel(s, eventId, failed);
      r.Ok? ==> r.value.totalRefunded == s.db.events[eventId].totalBetAmount
  {
    var r := Cancel(s, eventId, failed);
    if r.Ok? {
      EventStakesSplit(s.db.bets, eventId);
      assert PoolConsistent(s.db.bets, s.db.events[eventId]);
    }
  }

  lemma CancelPreservesInv(s: State, eventId: nat, failed: set<nat>)
    requires Inv(s.db)
    ensures var r := Cancel(s, eventId, failed);
      r.Ok? ==> Inv(r.value.state.db)
  {
    var r := Cancel(s, eventId, failed);
    if r.Ok? {
      var db := r.value.state.db;
      forall k | k in db.events ensures PoolConsistent(db.bets, db.events[k]) && WellPhased(db.events[k]) {
        assert PoolConsistent(s.db.bets, s.db.events[k]) && WellPhased(s.db.events[k]);
      }
    }
  }

  // ---------------------------------------------------------------- reads

  /** `GET /bet/events`: the ids of open events. */
  function ActiveEvents(db: Db): set<nat>
  {
    set k | k in db.events && IsOpen(db.events[k])
  }

  /** `GET /bet/events/finished`: the ids of finished events. */
  function FinishedEvents(db: Db): set<nat>
  {
    set k | k in db.events && db.events[k].isFinished
  }

  /** A created event is listed as active and not as finished. */
  lemma CreatedEventIsActive(db: Db, title: string, description: string, option1: string, option2: string)
    requires KeysMatch(db)
    ensures var r := CreateEvent(db, title, description, option1, option2);
      ActiveEvents(r) == ActiveEvents(db) + {db.nextEventId} && FinishedEvents(r) == FinishedEvents(db)
  {
    var r := CreateEvent(db, title, description, option1, option2);
    assert db.nextEventId !in db.events;
    assert forall k :: k in r.events <==> k in db.events || k == db.nextEventId;
  }

  /** A placed bet leaves both listings as they were. */
  lemma PlaceBetKeepsListings(s: State, userId: string, eventId: nat, option: int, amount: int,
                              balanceReachable: bool, debitOk: bool)
    ensures var r := PlaceBet(s, userId, eventId, option, amount, balanceReachable, debitOk);
      r.Ok? ==> ActiveEvents(r.value.db) == ActiveEvents(s.db) && FinishedEvents(r.value.db) == FinishedEvents(s.db)
  {
  }

  /** A finalized event moves from the active listing to the finished one. */
  lemma FinalizeMovesToFinished(s: State, eventId: nat, option: int, failed: set<nat>)
    ensures var r := Finalize(s, eventId, option, failed);
      r.Ok? ==> ActiveEvents(r.value.state.db) == ActiveEvents(s.db) - {eventId}
                && FinishedEvents(r.value.state.db) == FinishedEvents(s.db) + {eventId}
  {
  }

  /** A cancelled event leaves the active listing and never reaches the finished one. */
  lemma CancelLeavesBothListings(s: State, eventId: nat, failed: set<nat>)
    ensures var r := Cancel(s, eventId, failed);
      r.Ok? ==> ActiveEvents(r.value.state.db) == ActiveEvents(s.db) - {eventId}
                && FinishedEvents(r.value.state.db) == FinishedEvents(s.db)
                && eventId !in FinishedEvents(r.value.state.db)
  {
    var r := Cancel(s, eventId, failed);
    if r.Ok? {
      var db := r.value.state.db;
      assert forall k :: k in db.events ==> (k in ActiveEvents(db) <==> k in ActiveEvents(s.db) - {eventId});
      assert forall k :: k in db.events ==> (k in FinishedEvents(db) <==> k in FinishedEvents(s.db));
    }
  }

  datatype BetView = BetView(
    betId: nat, eventId: nat, eventTitle: string, chosenOption: int, chosenOptionText: string,
    amount: int, isFinished: bool, winningOption: Option<int>, isWinner: bool)

  function View(b: UserBet, e: BetEvent): BetView
  {
    BetView(b.id, e.id, e.title, b.chosenOption, if b.chosenOption == 1 then e.option1 else e.option2,
            b.amount, e.isFinished, e.winningOption, e.isFinished && e.winningOption == Some(b.chosenOption))
  }

  /** The user's bet rows whose event still exists, in table order, each once: the rows `UserBets` reports. */
  function ListedBets(bets: seq<UserBet>, events: map<nat, BetEvent>, userId: string): (r: seq<UserBet>)
    ensures |r| <= |bets|
    ensures forall b :: b in r <==> b in bets && b.userId == userId && b.betEventId in events
    ensures forall b {:trigger multiset(r)[b]} ::
      multiset(r)[b] == if b.userId == userId && b.betEventId in events then multiset(bets)[b] else 0
  {
    if |bets| == 0 then []
    else
      var last := bets[|bets| - 1];
      assert bets == bets[..|bets| - 1] + [last];
      var init := ListedBets(bets[..|bets| - 1], events, userId);
      if last.userId == userId && last.betEventId in events then init + [last] else init
  }

  /**
   * `GET /bet/user/{id}`: one view per listed bet row, in table order, each
   * carrying the texts and winner flag of that row's event.
   */
  function UserBets(db: Db, userId: string): (r: seq<BetView>)
    decreases |db.bets|
    ensures var rows := ListedBets(db.bets, db.events, userId);
      && |r| == |rows|
      && forall i :: 0 <= i < |r| ==> rows[i].betEventId in db.events && r[i] == View(rows[i], db.events[rows[i].betEventId])
    ensures forall v :: v in r <==> exists b :: b in db.bets && b.userId == userId && b.betEventId in db.events
                                              && v == View(b, db.events[b.betEventId])
  {
    if |db.bets| == 0 then []
    else
      var last := db.bets[|db.bets| - 1];
      var init := db.(bets := db.bets[..|db.bets| - 1]);
      assert db.bets == init.bets + [last];
      var prefix := UserBets(init, userId);
      assert ListedBets(db.bets, db.events, userId)
             == ListedBets(init.bets, db.events, userId)
                + (if last.userId == userId && last.betEventId in db.events then [last] else []);
      if last.userId == userId && last.betEventId in db.events then prefix + [View(last, db.events[last.betEventId])]
      else prefix
  }

  /**
   * After an event is finalized on option o, each of the user's bets on it is
   * listed as a winner exactly when it chose o; before that, no bet on an open
   * event is a winner.
   */
  lemma WinnerFlagAfterFinalize(s: State, eventId: nat, option: int, failed: set<nat>, userId: string)
    requires KeysMatch(s.db)
    ensures forall v :: v in UserBets(s.db, userId) && v.eventId in s.db.events && IsOpen(s.db.events[v.eventId])
                        ==> !v.isWinner
    ensures var r := Finalize(s, eventId, option, failed);
      r.Ok? ==> forall v :: v in UserBets(r.value.state.db, userId) && v.eventId == eventId ==>
                  (v.isWinner <==> v.chosenOption == option)
  {
    var r := Finalize(s, eventId, option, failed);
    if r.Ok? {
      var db := r.value.state.db;
      forall v | v in UserBets(db, userId) && v.eventId == eventId ensures v.isWinner <==> v.chosenOption == option {
        var b :| b in db.bets && b.userId == userId && b.betEventId in db.events && v == View(b, db.events[b.betEventId]);
        assert db.events[b.betEventId].id == b.betEventId;
      }
    }
  }

  // ---------------------------------------------------------------- scenario

  /**
   * Two users start with 500 each; A stakes 200 on option 1, B stakes 300 on
   * option 2; option 2 wins. B is paid int(500 * 300 / 300) = 500 and ends at
   * 700, A ends at 300.
   */
  lemma TwoPlayerScenario(l0: BalanceLedger.Ledger, db0: Db)
    requires l0 == BalanceLedger.Add(BalanceLedger.Add([], "A", 500, "seed"), "B", 500, "seed")
    requires db0 == CreateEvent(Empty(), "Match", "", "Home", "Away")
    ensures var r1 := PlaceBet(State(db0, l0), "A", 1, 1, 200, true, true);
      r1.Ok? &&
      var r2 := PlaceBet(r1.value, "B", 1, 2, 300, true, true);
      r2.Ok? &&
      var r3 := Finalize(r2.value, 1, 2, {});
      && r3.Ok?
      && BalanceLedger.Balance(r3.value.state.ledger, "B") == 700
      && BalanceLedger.Balance(r3.value.state.ledger, "A") == 300
  {
    ScenarioFirstBet(State(db0, l0));
    var s1 := PlaceBet(State(db0, l0), "A", 1, 1, 200, true, true).value;
    ScenarioSecondBet(s1);
    var s2 := PlaceBet(s1, "B", 1, 2, 300, true, true).value;
    ScenarioFinalize(s2);
  }

  lemma ScenarioFirstBet(s: State)
    requires s.ledger == BalanceLedger.Add(BalanceLedger.Add([], "A", 500, "seed"), "B", 500, "seed")
    requires s.db == CreateEvent(Empty(), "Match", "", "Home", "Away")
    ensures var r := PlaceBet(s, "A", 1, 1, 200, true, true);
      && r.Ok?
      && r.value.db.bets == [UserBet(1, "A", 1, 1, 200)] && r.value.db.nextBetId == 2
      && BalanceLedger.Balance(r.value.ledger, "A") == 300 && BalanceLedger.Balance(r.value.ledger, "B") == 500
      && 1 in r.value.db.events && IsOpen(r.value.db.events[1]) && r.value.db.events[1].totalBetAmount == 200
  {
    assert BalanceLedger.Balance(s.ledger, "A") == 500 && BalanceLedger.Balance(s.ledger, "B") == 500;
    assert s.db.bets == [] && 1 in s.db.events && IsOpen(s.db.events[1]) && s.db.nextBetId == 1;
    assert !HasBet(s.db.bets, "A", 1);
  }

  lemma ScenarioSecondBet(s: State)
    requires s.db.bets == [UserBet(1, "A", 1, 1, 200)] && s.db.nextBetId == 2
    requires BalanceLedger.Balance(s.ledger, "A") == 300 && BalanceLedger.Balance(s.ledger, "B") == 500
    requires 1 in s.db.events && IsOpen(s.db.events[1]) && s.db.events[1].totalBetAmount == 200
    ensures var r := PlaceBet(s, "B", 1, 2, 300, true, true);
      && r.Ok?
      && r.value.db.bets == [UserBet(1, "A", 1, 1, 200), UserBet(2, "B", 1, 2, 300)]
      && BalanceLedger.Balance(r.value.ledger, "A") == 300 && BalanceLedger.Balance(r.value.ledger, "B") == 200
      && 1 in r.value.db.events && IsOpen(r.value.db.events[1]) && r.value.db.events[1].totalBetAmount == 500
  {
    assert !HasBet(s.db.bets, "B", 1);
  }

  lemma ScenarioFinalize(s: State)
    requires s.db.bets == [UserBet(1, "A", 1, 1, 200), UserBet(2, "B", 1, 2, 300)]
    requires BalanceLedger.Balance(s.ledger, "A") == 300 && BalanceLedger.Balance(s.ledger, "B") == 200
    requires 1 in s.db.events && IsOpen(s.db.events[1]) && s.db.events[1].totalBetAmount == 500
    ensures var r := Finalize(s, 1, 2, {});
      && r.Ok?
      && BalanceLedger.Balance(r.value.state.ledger, "B") == 700
      && BalanceLedger.Balance(r.value.state.ledger, "A") == 300
  {
    ScenarioWinners(s.db.bets);
    var winner := UserBet(2, "B", 1, 2, 300);
    var kept := Kept(OptionBets(s.db.bets, 1, 2), {});
    assert kept == [winner];
    var r := Finalize(s, 1, 2, {});
    var ds := r.value.reply.distributions;
    assert |ds| == 1;
    assert ds[0] == Owed(kept[0], 500, 300);
    ScenarioCredits(ds);
  }

  /** The single distribution of the scenario pays B the whole pool of 500. */
  lemma ScenarioCredits(ds: seq<Distribution>)
    requires |ds| == 1 && ds[0] == Owed(UserBet(2, "B", 1, 2, 300), 500, 300)
    ensures Credited(ds, "B") == 500 && Credited(ds, "A") == 0
  {
    assert BetPayout.Share(500, 300, 300) == 500;
    assert ds[..0] == [];
  }

  lemma ScenarioWinners(bets: seq<UserBet>)
    requires bets == [UserBet(1, "A", 1, 1, 200), UserBet(2, "B", 1, 2, 300)]
    ensures OptionBets(bets, 1, 2) == [UserBet(2, "B", 1, 2, 300)]
    ensures OptionPool(bets, 1, 2) == 300
  {
    assert bets[..1] == [UserBet(1, "A", 1, 1, 200)];
    assert bets[..1][..0] == [];
    assert OptionBets(bets[..1], 1, 2) == [];
    var w := [UserBet(2, "B", 1, 2, 300)];
    assert w[..0] == [];
  }
}

=== FILE: client_registry.dfy ===
/**
 * The client registry: users keyed by a generated id, each carrying a
 * Discord id that the table declares unique. The generated uuid is modelled
 * as a counter.
 */
module ClientRegistry {
  import opened Common

  datatype User = User(id: nat, discordId: string, name: string)

  datatype Registry = Registry(users: seq<User>, nextId: nat)

  datatype ClientError = AlreadyRegistered | NotFound | DuplicateDiscordId

  /** A duplicate Discord id on update violates the unique column: the commit fails with a 500. */
  function Status(e: ClientError): int
  {
    match e
    case AlreadyRegistered => 409
    case NotFound => 404
    case DuplicateDiscordId => 500
  }

  /** Position of the first user with this id (`.filter(User.id == id).first()`). */
  function IndexOfId(users: seq<User>, id: nat): (r: Option<nat>)
    ensures r.None? <==> forall i :: 0 <= i < |users| ==> users[i].id != id
    ensures r.Some? ==> r.value < |users| && users[r.value].id == id
    ensures r.Some? ==> forall i :: 0 <= i < r.value ==> users[i].id != id
  {
    FirstIndex(users, (u: User) => u.id == id)
  }

  /**
   * Position of the first user with this Discord id (`.filter(User.discordId == discordId).first()`,
   * the registration conflict check and the lookup by Discord id). The two lookups share
   * `FirstIndex` and differ only in the column they compare.
   */
  function IndexOfDiscordId(users: seq<User>, discordId: string): (r: Option<nat>)
    ensures r.None? <==> forall i :: 0 <= i < |users| ==> users[i].discordId != discordId
    ensures r.Some? ==> r.value < |users| && users[r.value].discordId == discordId
    ensures r.Some? ==> forall i :: 0 <= i < r.value ==> users[i].discordId != discordId
  {
    FirstIndex(users, (u: User) => u.discordId == discordId)
  }

  /** Ids are unique and below the counter; Discord ids are unique. */
  predicate Inv(reg: Registry)
  {
    && (forall i :: 0 <= i < |reg.users| ==> reg.users[i].id < reg.nextId)
    && (forall i, j :: 0 <= i < j < |reg.users| ==> reg.users[i].id != reg.users[j].id)
    && (forall i, j :: 0 <= i < j < |reg.users| ==> reg.users[i].discordId != reg.users[j].discordId)
  }

  datatype Registered = Registered(registry: Registry, user: User)

  /** `POST /client/`: 409 when the Discord id is taken; otherwise one new user under a fresh id. */
  function Register(reg: Registry, discordId: string, name: string): (r: Result<Registered, ClientError>)
    ensures r.Err? <==> exists i :: 0 <= i < |reg.users| && reg.users[i].discordId == discordId
    ensures r.Err? ==> r.error == AlreadyRegistered
    ensures r.Ok? ==> r.value.user == User(reg.nextId, discordId, name)
    ensures r.Ok? ==> r.value.registry.users == reg.users + [r.value.user]
    ensures r.Ok? && Inv(reg) ==> Inv(r.value.registry)
  {
    if IndexOfDiscordId(reg.users, discordId).Some? then Err(AlreadyRegistered)
    else
      var u := User(reg.nextId, discordId, name);
      var users := reg.users + [u];
      assert forall i :: 0 <= i < |reg.users| ==> users[i] == reg.users[i];
      Ok(Registered(Registry(users, reg.nextId + 1), u))
  }

  /** `GET /client/{id}`. */
  function GetClient(reg: Registry, id: nat): (r: Result<User, ClientError>)
    ensures r.Err? <==> forall i :: 0 <= i < |reg.users| ==> reg.users[i].id != id
    ensures r.Err? ==> r.error == NotFound
    ensures r.Ok? ==> r.value in reg.users && r.value.id == id
  {
    match IndexOfId(reg.users, id)
    case None => Err(NotFound)
    case Some(k) => Ok(reg.users[k])
  }

  /** `GET /client/discordId/{discordId}`. */
  function GetClientByDiscordId(reg: Registry, discordId: string): (r: Result<User, ClientError>)
    ensures r.Err? <==> forall i :: 0 <= i < |reg.users| ==> reg.users[i].discordId != discordId
    ensures r.Err? ==> r.error == NotFound
    ensures r.Ok? ==> r.value in reg.users && r.value.discordId == discordId
  {
    match IndexOfDiscordId(reg.users, discordId)
    case None => Err(NotFound)
    case Some(k) => Ok(reg.users[k])
  }

  /**
   * `PUT /client/{id}`: 404 for an unknown id; otherwise each supplied field
   * overwrites the stored one. A new Discord id that another user already holds
   * makes the commit fail.
   */
  function UpdateClient(reg: Registry, id: nat, discordId: Option<string>, name: Option<string>)
    : (r: Result<Registry, ClientError>)
    ensures (forall i :: 0 <= i < |reg.users| ==> reg.users[i].id != id) ==> r == Err(NotFound)
    ensures r.Err? && r.error == DuplicateDiscordId ==>
      discordId.Some? && exists i :: 0 <= i < |reg.users| && reg.users[i].discordId == discordId.value
    ensures Inv(reg) && (exists i :: 0 <= i < |reg.users| && reg.users[i].id == id)
            && (discordId.None? || forall i :: 0 <= i < |reg.users| && reg.users[i].discordId == discordId.value
                                               ==> reg.users[i].id == id)
            ==> r.Ok?
    ensures r.Ok? ==> |r.value.users| == |reg.users| && r.value.nextId == reg.nextId
    ensures r.Ok? ==> exists k :: (0 <= k < |reg.users| && reg.users[k].id == id
      && r.value.users[k] == User(id, if discordId.Some? then discordId.value else reg.users[k].discordId,
                                       if name.Some? then name.value else reg.users[k].name)
      && forall j :: 0 <= j < |reg.users| && j != k ==> r.value.users[j] == reg.users[j])
    ensures r.Ok? && Inv(reg) ==> Inv(r.value)
  {
    match IndexOfId(reg.users, id)
    case None => Err(NotFound)
    case Some(k) =>
      var u := reg.users[k];
      var newDiscordId := if discordId.Some? then discordId.value else u.discordId;
      var newName := if name.Some? then name.value else u.name;
      if discordId.Some? && exists i :: 0 <= i < |reg.users| && i != k && reg.users[i].discordId == newDiscordId then
        Err(DuplicateDiscordId)
      else
        SoleHolder(reg, k, newDiscordId);
        ReplaceKeepsInv(reg, k, User(id, newDiscordId, newName));
        Ok(reg.(users := reg.users[k := User(id, newDiscordId, newName)]))
  }

  /** Under unique ids, a Discord id held only under user k's id is held by no other position. */
  lemma SoleHolder(reg: Registry, k: nat, discordId: string)
    requires k < |reg.users|
    ensures Inv(reg) && (forall i :: 0 <= i < |reg.users| && reg.users[i].discordId == discordId ==> reg.users[i].id == reg.users[k].id)
            ==> forall i :: 0 <= i < |reg.users| && i != k ==> reg.users[i].discordId != discordId
  {
    if Inv(reg) && (forall i :: 0 <= i < |reg.users| && reg.users[i].discordId == discordId ==> reg.users[i].id == reg.users[k].id) {
      forall i | 0 <= i < |reg.users| && i != k ensures reg.users[i].discordId != discordId {
        if i < k {
          assert reg.users[i].id != reg.users[k].id;
        } else {
          assert reg.users[k].id != reg.users[i].id;
        }
      }
    }
  }

  /** Overwriting user k with a user of the same id and a Discord id nobody else holds keeps the invariant. */
  lemma ReplaceKeepsInv(reg: Registry, k: nat, u: User)
    requires k < |reg.users| && u.id == reg.users[k].id
    ensures (forall i :: 0 <= i < |reg.users| && i != k ==> reg.users[i].discordId != u.discordId) && Inv(reg)
            ==> Inv(reg.(users := reg.users[k := u]))
  {
    var users := reg.users[k := u];
    if (forall i :: 0 <= i < |reg.users| && i != k ==> reg.users[i].discordId != u.discordId) && Inv(reg) {
      forall i, j | 0 <= i < j < |users| ensures users[i].id != users[j].id && users[i].discordId != users[j].discordId {
        assert reg.users[i].id != reg.users[j].id;
      }
    }
  }

  /** `DELETE /client/{id}`: 404 for an unknown id; otherwise only that user is removed. */
  function DeleteClient(reg: Registry, id: nat): (r: Result<Registry, ClientError>)
    ensures r.Err? <==> forall i :: 0 <= i < |reg.users| ==> reg.users[i].id != id
    ensures r.Err? ==> r.error == NotFound
    ensures r.Ok? ==> |r.value.users| == |reg.users| - 1 && r.value.nextId == reg.nextId
    ensures r.Ok? ==> exists k :: 0 <= k < |reg.users| && reg.users[k].id == id
                                  && r.value.users == reg.users[..k] + reg.users[k + 1..]
    ensures r.Ok? && Inv(reg) ==> Inv(r.value)
  {
    match IndexOfId(reg.users, id)
    case None => Err(NotFound)
    case Some(k) =>
      var users := reg.users[..k] + reg.users[k + 1..];
      RemoveKeepsInv(reg, k);
      Ok(reg.(users := users))
  }

  /** Removing one user keeps ids and Discord ids unique and below the counter. */
  lemma RemoveKeepsInv(reg: Registry, k: nat)
    requires k < |reg.users|
    ensures Inv(reg) ==> Inv(reg.(users := reg.users[..k] + reg.users[k + 1..]))
  {
    var users := reg.users[..k] + reg.users[k + 1..];
    assert forall i :: 0 <= i < |users| ==> users[i] == reg.users[if i < k then i else i + 1];
    if Inv(reg) {
      forall i, j | 0 <= i < j < |users| ensures users[i].id != users[j].id && users[i].discordId != users[j].discordId {
        var a := if i < k then i else i + 1;
        var b := if j < k then j else j + 1;
        assert a < b;
        assert reg.users[a].id != reg.users[b].id;
      }
    }
  }

  /** A registered client can be read back both by its id and by its Discord id. */
  lemma RegisterThenLookup(reg: Registry, discordId: string, name: string)
    requires Inv(reg)
    ensures var r := Register(reg, discordId, name);
      r.Ok? ==> GetClient(r.value.registry, r.value.user.id) == Ok(r.value.user)
                && GetClientByDiscordId(r.value.registry, discordId) == Ok(r.value.user)
  {
    var r := Register(reg, discordId, name);
    if r.Ok? {
      var users := r.value.registry.users;
      assert users[|reg.users|] == r.value.user;
      assert forall i :: 0 <= i < |reg.users| ==> users[i].id != reg.nextId;
    }
  }

  /** With unique ids, the lookup finds the one position holding the id. */
  lemma IndexOfUniqueId(users: seq<User>, p: nat)
    requires forall i, j :: 0 <= i < j < |users| ==> users[i].id != users[j].id
    requires p < |users|
    ensures IndexOfId(users, users[p].id) == Some(p)
  {
    var r := IndexOfId(users, users[p].id);
    assert r.Some?;
    assert !(r.value < p) && !(p < r.value);
  }

  /** After a delete the id is gone. */
  lemma DeleteRemovesId(reg: Registry, id: nat)
    requires Inv(reg)
    ensures var r := DeleteClient(reg, id);
      r.Ok? ==> GetClient(r.value, id) == Err(NotFound)
  {
    var r := DeleteClient(reg, id);
    if r.Ok? {
      var k :| 0 <= k < |reg.users| && reg.users[k].id == id && r.value.users == reg.users[..k] + reg.users[k + 1..];
      RemoveAt(reg.users, k);
    }
  }

  /** A delete leaves every other user where lookups find it. */
  lemma DeleteKeepsOthers(reg: Registry, id: nat, other: nat)
    requires Inv(reg)
    requires other != id
    ensures var r := DeleteClient(reg, id);
      r.Ok? ==> GetClient(r.value, other) == GetClient(reg, other)
  {
    var r := DeleteClient(reg, id);
    if r.Ok? {
      var k :| 0 <= k < |reg.users| && reg.users[k].id == id && r.value.users == reg.users[..k] + reg.users[k + 1..];
      assert r.value == reg.(users := reg.users[..k] + reg.users[k + 1..]);
      LookupAfterRemove(reg, k, other);
    }
  }

  /** Removing the user at k does not change what a lookup of another id returns. */
  lemma LookupAfterRemove(reg: Registry, k: nat, other: nat)
    requires Inv(reg) && k < |reg.users| && reg.users[k].id != other
    ensures GetClient(reg.(users := reg.users[..k] + reg.users[k + 1..]), other) == GetClient(reg, other)
  {
    var users := reg.users[..k] + reg.users[k + 1..];
    RemoveAt(reg.users, k);
    match IndexOfId(reg.users, other)
    case Some(j) =>
      var p := if j < k then j else j - 1;
      assert j != k;
      assert users[p] == reg.users[j];
      IndexOfUniqueId(users, p);
    case None =>
  }

  /** Removing position k keeps every other user and, with unique ids, drops the id at k. */
  lemma RemoveAt(users: seq<User>, k: nat)
    requires k < |users|
    requires forall i, j :: 0 <= i < j < |users| ==> users[i].id != users[j].id
    ensures var rest := users[..k] + users[k + 1..];
      && |rest| == |users| - 1
      && (forall i :: 0 <= i < k ==> rest[i] == users[i])
      && (forall i :: k <= i < |rest| ==> rest[i] == users[i + 1])
      && (forall i :: 0 <= i < |rest| ==> rest[i].id != users[k].id)
      && (forall u :: u in rest ==> u in users)
      && (forall i, j :: 0 <= i < j < |rest| ==> rest[i].id != rest[j].id)
  {
  }
}

=== FILE: coin_bank.dfy ===
/**
 * The in-memory coin service: a balance per user, a transaction log, the time
 * of each user's last daily claim, and a transaction counter. Every handler is
 * one atomic step from one `Bank` to the next. Times are seconds, amounts are
 * integers, and an empty user id stands for a missing or empty field.
 */
module CoinBank {
  import opened Common
  import Ranking

  const DailyAmount: int := 100
  const SecondsPerDay: int := 86400

  datatype Transaction = Transaction(
    id: int, fromUser: string, toUser: string, amount: int, kind: string, description: string)

  datatype Bank = Bank(
    coins: map<string, int>,
    transactions: seq<Transaction>,
    dailyClaims: map<string, int>,
    counter: int)

  /** The state at start-up. */
  function Initial(): Bank
  {
    Bank(map[], [], map[], 1)
  }

  /** An unknown user has balance 0. */
  function GetBalance(b: Bank, u: string): (r: int)
    ensures u !in b.coins ==> r == 0
    ensures u in b.coins ==> r == b.coins[u]
  {
    if u in b.coins then b.coins[u] else 0
  }

  /** Adds a signed amount to u's balance, creating u at 0 first; returns the new balance. */
  function UpdateBalance(coins: map<string, int>, u: string, amount: int): (r: map<string, int>)
    ensures u in r && r[u] == (if u in coins then coins[u] else 0) + amount
    ensures r.Keys == coins.Keys + {u}
    ensures forall v :: v in coins && v != u ==> r[v] == coins[v]
  {
    coins[u := (if u in coins then coins[u] else 0) + amount]
  }

  /** `can_claim_daily`: never claimed, or at least one whole day (floor of the elapsed days) has passed. */
  predicate CanClaimDaily(b: Bank, u: string, now: int)
  {
    u !in b.dailyClaims || (now - b.dailyClaims[u]) / SecondsPerDay >= 1
  }

  /** Whole days elapsed is at least one exactly when at least 86400 seconds elapsed. */
  lemma CanClaimDailyIffDayElapsed(b: Bank, u: string, now: int)
    ensures CanClaimDaily(b, u, now) <==> (u !in b.dailyClaims || now - b.dailyClaims[u] >= SecondsPerDay)
  {
  }

  datatype BankError = MissingUser | AlreadyClaimed | MissingFields | NonPositiveAmount | SelfTransfer | InsufficientBalance

  /** Every rejection is a 400. */
  function Status(e: BankError): int
  {
    400
  }

  /** `/coin/get-daily`: credits 100, logs a "daily" transaction from "system", and records the claim time. */
  function GetDailyCoins(b: Bank, u: string, now: int): (r: Result<Bank, BankError>)
    ensures r.Err? <==> u == "" || !CanClaimDaily(b, u, now)
    ensures r.Err? ==> r.error == (if u == "" then MissingUser else AlreadyClaimed)
    ensures r.Ok? ==> GetBalance(r.value, u) == GetBalance(b, u) + DailyAmount
    ensures r.Ok? ==> forall v :: v != u ==> GetBalance(r.value, v) == GetBalance(b, v)
    ensures r.Ok? ==> u in r.value.dailyClaims && r.value.dailyClaims[u] == now
    ensures r.Ok? ==> !CanClaimDaily(r.value, u, now)
    ensures r.Ok? ==> r.value.transactions
                      == b.transactions + [Transaction(b.counter, "system", u, DailyAmount, "daily", "Daily coin claim")]
    ensures r.Ok? ==> r.value.counter == b.counter + 1
  {
    if u == "" then Err(MissingUser)
    else if !CanClaimDaily(b, u, now) then Err(AlreadyClaimed)
    else
      var t := Transaction(b.counter, "system", u, DailyAmount, "daily", "Daily coin claim");
      Ok(Bank(UpdateBalance(b.coins, u, DailyAmount), b.transactions + [t], b.dailyClaims[u := now], b.counter + 1))
  }

  /**
   * `/coin/transfer`: rejected, in this order, for a missing field or a zero
   * amount, a non-positive amount, a self-transfer, or a balance below the amount.
   * Otherwise the amount moves from sender to receiver and one transaction is logged.
   */
  function Transfer(b: Bank, from: string, to: string, amount: int): (r: Result<Bank, BankError>)
    ensures r.Err? <==> from == "" || to == "" || amount <= 0 || from == to || GetBalance(b, from) < amount
    ensures r.Err? ==> r.error == (if from == "" || to == "" || amount == 0 then MissingFields
                                   else if amount < 0 then NonPositiveAmount
                                   else if from == to then SelfTransfer
                                   else InsufficientBalance)
    ensures r.Ok? ==> GetBalance(r.value, from) == GetBalance(b, from) - amount >= 0
    ensures r.Ok? ==> GetBalance(r.value, to) == GetBalance(b, to) + amount
    ensures r.Ok? ==> GetBalance(r.value, from) + GetBalance(r.value, to) == GetBalance(b, from) + GetBalance(b, to)
    ensures r.Ok? ==> forall v :: v != from && v != to ==> GetBalance(r.value, v) == GetBalance(b, v)
    ensures r.Ok? ==> |r.value.transactions| == |b.transactions| + 1 && r.value.transactions[..|b.transactions|] == b.transactions
    ensures r.Ok? ==> r.value.transactions[|b.transactions|].amount == amount
    ensures r.Ok? ==> r.value.counter == b.counter + 1 && r.value.dailyClaims == b.dailyClaims
  {
    if from == "" || to == "" || amount == 0 then Err(MissingFields)
    else if amount <= 0 then Err(NonPositiveAmount)
    else if from == to then Err(SelfTransfer)
    else if GetBalance(b, from) < amount then Err(InsufficientBalance)
    else
      var coins := UpdateBalance(UpdateBalance(b.coins, from, -amount), to, amount);
      var t := Transaction(b.counter, from, to, amount, "transfer", "Transfer from " + from + " to " + to);
      assert (b.transactions + [t])[..|b.transactions|] == b.transactions;
      Ok(Bank(coins, b.transactions + [t], b.dailyClaims, b.counter + 1))
  }

  /**
   * `/coin/update`: applies any signed amount with no balance check. The log
   * records |amount|, from "admin" to the user for a positive amount and from the
   * user to "admin" otherwise.
   */
  function UpdateCoins(b: Bank, u: string, amount: int, reason: string): (r: Result<Bank, BankError>)
    ensures r.Err? <==> u == ""
    ensures r.Ok? ==> GetBalance(r.value, u) == GetBalance(b, u) + amount
    ensures r.Ok? ==> forall v :: v != u ==> GetBalance(r.value, v) == GetBalance(b, v)
    ensures r.Ok? ==> |r.value.transactions| == |b.transactions| + 1 && r.value.transactions[..|b.transactions|] == b.transactions
    ensures r.Ok? ==> var t := r.value.transactions[|b.transactions|];
      t.amount == Abs(amount) && t.amount >= 0
      && (amount > 0 ==> t.fromUser == "admin" && t.toUser == u)
      && (amount <= 0 ==> t.fromUser == u && t.toUser == "admin")
    ensures r.Ok? ==> r.value.counter == b.counter + 1
  {
    if u == "" then Err(MissingUser)
    else
      var t := Transaction(b.counter, if amount > 0 then "admin" else u, if amount > 0 then u else "admin",
                           Abs(amount), "admin_update", reason);
      assert (b.transactions + [t])[..|b.transactions|] == b.transactions;
      Ok(Bank(UpdateBalance(b.coins, u, amount), b.transactions + [t], b.dailyClaims, b.counter + 1))
  }

  /** `/coin/remove`: forgets u's balance and claim, whether or not they exist; others are untouched. */
  function RemoveUser(b: Bank, u: string): (r: Result<Bank, BankError>)
    ensures r.Err? <==> u == ""
    ensures r.Ok? ==> u !in r.value.coins && u !in r.value.dailyClaims && GetBalance(r.value, u) == 0
    ensures r.Ok? ==> CanClaimDaily(r.value, u, 0)
    ensures r.Ok? ==> forall v :: v != u ==> GetBalance(r.value, v) == GetBalance(b, v)
    ensures r.Ok? ==> forall v :: v != u && v in b.dailyClaims ==> v in r.value.dailyClaims && r.value.dailyClaims[v] == b.dailyClaims[v]
    ensures r.Ok? ==> r.value.transactions == b.transactions && r.value.counter == b.counter
  {
    if u == "" then Err(MissingUser)
    else Ok(b.(coins := b.coins - {u}, dailyClaims := b.dailyClaims - {u}))
  }

  datatype Entry = Entry(userId: string, balance: int)
  datatype Ranked = Ranked(rank: int, userId: string, balance: int)

  function EntryBalance(e: Entry): int { e.balance }

  function EntryUser(e: Entry): string { e.userId }

  /** The map's items in the given (insertion) order. */
  function Items(coins: map<string, int>, order: seq<string>): (r: seq<Entry>)
    requires forall i :: 0 <= i < |order| ==> order[i] in coins
    ensures |r| == |order|
    ensures forall i :: 0 <= i < |r| ==> r[i] == Entry(order[i], coins[order[i]])
    ensures forall e :: e in r ==> e.userId in coins && e.balance == coins[e.userId]
  {
    if |order| == 0 then [] else [Entry(order[0], coins[order[0]])] + Items(coins, order[1..])
  }

  function EntryUsers(top: seq<Entry>): set<string> { set e | e in top :: e.userId }

  function RankedUsers(r: seq<Ranked>): set<string> { set x | x in r :: x.userId }

  function Rank(top: seq<Entry>, first: int): (r: seq<Ranked>)
    ensures |r| == |top|
    ensures forall i :: 0 <= i < |r| ==> r[i] == Ranked(first + i, top[i].userId, top[i].balance)
  {
    if |top| == 0 then [] else [Ranked(first, top[0].userId, top[0].balance)] + Rank(top[1..], first + 1)
  }

  /**
   * `/leaderboard`: at most ten users, in descending balance order, ranked from 1;
   * every user left out has a balance no greater than any listed one.
   * `order` is the dictionary's iteration order: each user exactly once.
   */
  function Leaderboard(b: Bank, order: seq<string>): (r: seq<Ranked>)
    requires forall i :: 0 <= i < |order| ==> order[i] in b.coins
    requires forall u :: u in b.coins ==> u in order
    requires forall i, j :: 0 <= i < j < |order| ==> order[i] != order[j]
    ensures |r| == Min(10, |b.coins|)
    ensures forall i :: 0 <= i < |r| ==> r[i].rank == i + 1
    ensures forall i :: 0 <= i < |r| ==> r[i].userId in b.coins && r[i].balance == b.coins[r[i].userId]
    ensures forall i, j :: 0 <= i < j < |r| ==> r[i].balance >= r[j].balance
    ensures forall i, j :: 0 <= i < j < |r| ==> r[i].userId != r[j].userId
    ensures forall u, i :: u in b.coins && u !in RankedUsers(r) && 0 <= i < |r| ==> b.coins[u] <= r[i].balance
  {
    var items := Items(b.coins, order);
    var top := Ranking.TopN(items, EntryBalance, 10);
    var r := Rank(top, 1);
    RankedTopIsTrue(b, order, items, top, r);
    r
  }

  lemma RankedTopIsTrue(b: Bank, order: seq<string>, items: seq<Entry>, top: seq<Entry>, r: seq<Ranked>)
    requires forall i :: 0 <= i < |order| ==> order[i] in b.coins
    requires forall u :: u in b.coins ==> u in order
    requires forall i, j :: 0 <= i < j < |order| ==> order[i] != order[j]
    requires items == Items(b.coins, order)
    requires top == Ranking.TopN(items, EntryBalance, 10)
    requires r == Rank(top, 1)
    ensures |r| == Min(10, |b.coins|)
    ensures forall i :: 0 <= i < |r| ==> r[i].rank == i + 1
    ensures forall i :: 0 <= i < |r| ==> r[i].userId in b.coins && r[i].balance == b.coins[r[i].userId]
    ensures forall i, j :: 0 <= i < j < |r| ==> r[i].balance >= r[j].balance
    ensures forall i, j :: 0 <= i < j < |r| ==> r[i].userId != r[j].userId
    ensures forall u, i :: u in b.coins && u !in RankedUsers(r) && 0 <= i < |r| ==> b.coins[u] <= r[i].balance
  {
    TopEntriesAreTrue(b, order, items, top);
    OmittedBalancesLower(b, order, items, top);
    RankCopiesEntries(b, top, r);
  }

  /** Ranking the selected entries carries each of their properties over to the ranked lines. */
  lemma RankCopiesEntries(b: Bank, top: seq<Entry>, r: seq<Ranked>)
    requires r == Rank(top, 1)
    requires |top| == Min(10, |b.coins|)
    requires forall i :: 0 <= i < |top| ==> top[i].userId in b.coins && top[i].balance == b.coins[top[i].userId]
    requires forall i, j :: 0 <= i < j < |top| ==> top[i].balance >= top[j].balance
    requires forall i, j :: 0 <= i < j < |top| ==> top[i].userId != top[j].userId
    requires forall u, i :: u in b.coins && u !in EntryUsers(top) && 0 <= i < |top| ==> b.coins[u] <= top[i].balance
    ensures |r| == Min(10, |b.coins|)
    ensures forall i :: 0 <= i < |r| ==> r[i].rank == i + 1
    ensures forall i :: 0 <= i < |r| ==> r[i].userId in b.coins && r[i].balance == b.coins[r[i].userId]
    ensures forall i, j :: 0 <= i < j < |r| ==> r[i].balance >= r[j].balance
    ensures forall i, j :: 0 <= i < j < |r| ==> r[i].userId != r[j].userId
    ensures forall u, i :: u in b.coins && u !in RankedUsers(r) && 0 <= i < |r| ==> b.coins[u] <= r[i].balance
  {
    RankKeepsUsers(top, 1);
    RankKeepsOrder(top, r);
  }

  lemma RankKeepsOrder(top: seq<Entry>, r: seq<Ranked>)
    requires r == Rank(top, 1)
    requires forall i, j :: 0 <= i < j < |top| ==> top[i].balance >= top[j].balance
    requires forall i, j :: 0 <= i < j < |top| ==> top[i].userId != top[j].userId
    ensures forall i, j :: 0 <= i < j < |r| ==> r[i].balance >= r[j].balance
    ensures forall i, j :: 0 <= i < j < |r| ==> r[i].userId != r[j].userId
  {
    forall i, j | 0 <= i < j < |r| ensures r[i].balance >= r[j].balance && r[i].userId != r[j].userId {
      assert r[i].balance == top[i].balance && r[j].balance == top[j].balance;
    }
  }

  /** The ten selected entries are distinct users with their true balances, largest first. */
  lemma TopEntriesAreTrue(b: Bank, order: seq<string>, items: seq<Entry>, top: seq<Entry>)
    requires forall i :: 0 <= i < |order| ==> order[i] in b.coins
    requires forall u :: u in b.coins ==> u in order
    requires forall i, j :: 0 <= i < j < |order| ==> order[i] != order[j]
    requires items == Items(b.coins, order)
    requires top == Ranking.TopN(items, EntryBalance, 10)
    ensures |top| == Min(10, |b.coins|)
    ensures forall i :: 0 <= i < |top| ==> top[i].userId in b.coins && top[i].balance == b.coins[top[i].userId]
    ensures forall i, j :: 0 <= i < j < |top| ==> top[i].balance >= top[j].balance
    ensures forall i, j :: 0 <= i < j < |top| ==> top[i].userId != top[j].userId
  {
    ItemsAreDistinctUsers(b, order, items);
    Ranking.SelectionKeepsDistinct(items, top, EntryUser);
    forall i | 0 <= i < |top| ensures top[i].userId in b.coins && top[i].balance == b.coins[top[i].userId] {
      assert top[i] in items;
    }
    assert Ranking.SortedDesc(top, EntryBalance);
  }

  /** A user left out of the ten selected entries has a balance no greater than any selected one. */
  lemma OmittedBalancesLower(b: Bank, order: seq<string>, items: seq<Entry>, top: seq<Entry>)
    requires forall i :: 0 <= i < |order| ==> order[i] in b.coins
    requires forall u :: u in b.coins ==> u in order
    requires items == Items(b.coins, order)
    requires top == Ranking.TopN(items, EntryBalance, 10)
    ensures forall u, i :: u in b.coins && u !in EntryUsers(top) && 0 <= i < |top| ==> b.coins[u] <= top[i].balance
  {
    forall u | u in b.coins && u !in EntryUsers(top)
      ensures forall i :: 0 <= i < |top| ==> b.coins[u] <= top[i].balance
    {
      var k :| 0 <= k < |order| && order[k] == u;
      OmittedUserLower(b, order, items, u, k);
    }
  }

  lemma OmittedUserLower(b: Bank, order: seq<string>, items: seq<Entry>, u: string, k: nat)
    requires forall i :: 0 <= i < |order| ==> order[i] in b.coins
    requires items == Items(b.coins, order)
    requires k < |order| && order[k] == u
    requires u !in EntryUsers(Ranking.TopN(items, EntryBalance, 10))
    ensures var top := Ranking.TopN(items, EntryBalance, 10);
      forall i :: 0 <= i < |top| ==> b.coins[u] <= top[i].balance
  {
    var e := items[k];
    UnlistedEntry(Ranking.TopN(items, EntryBalance, 10), e);
    Ranking.LeftOutRanksLower(items, EntryBalance, 10, e);
  }

  lemma UnlistedEntry(top: seq<Entry>, e: Entry)
    requires e.userId !in EntryUsers(top)
    ensures e !in top
  {
    assert forall x :: x in top ==> x.userId in EntryUsers(top);
  }

  /** Ranking keeps the set of users. */
  lemma RankKeepsUsers(top: seq<Entry>, first: int)
    ensures RankedUsers(Rank(top, first)) == EntryUsers(top)
  {
    var r := Rank(top, first);
    forall u | u in EntryUsers(top) ensures u in RankedUsers(r) {
      var e :| e in top && e.userId == u;
      var j :| 0 <= j < |top| && top[j] == e;
      assert r[j].userId == u;
    }
  }

  lemma ItemsAreDistinctUsers(b: Bank, order: seq<string>, items: seq<Entry>)
    requires forall i :: 0 <= i < |order| ==> order[i] in b.coins
    requires forall u :: u in b.coins ==> u in order
    requires forall i, j :: 0 <= i < j < |order| ==> order[i] != order[j]
    requires items == Items(b.coins, order)
    ensures |items| == |b.coins|
    ensures forall a, c :: 0 <= a < c < |items| ==> EntryUser(items[a]) != EntryUser(items[c])
  {
    OrderCoversKeys(b.coins, order);
    forall a, c | 0 <= a < c < |items| ensures EntryUser(items[a]) != EntryUser(items[c]) {
      assert items[a].userId == order[a] && items[c].userId == order[c];
    }
  }

  lemma OrderCoversKeys(coins: map<string, int>, order: seq<string>)
    requires forall i :: 0 <= i < |order| ==> order[i] in coins
    requires forall u :: u in coins ==> u in order
    requires forall i, j :: 0 <= i < j < |order| ==> order[i] != order[j]
    ensures |order| == |coins|
  {
    var ks := set i | 0 <= i < |order| :: order[i];
    assert ks == coins.Keys;
    DistinctSeqCard(order);
  }

  lemma {:induction false} DistinctSeqCard(s: seq<string>)
    requires forall i, j :: 0 <= i < j < |s| ==> s[i] != s[j]
    ensures |set i | 0 <= i < |s| :: s[i]| == |s|
  {
    if |s| > 0 {
      var rest := s[1..];
      DistinctSeqCard(rest);
      var a := set i | 0 <= i < |rest| :: rest[i];
      var b := set i | 0 <= i < |s| :: s[i];
      assert b == a + {s[0]};
      assert s[0] !in a;
    }
  }
}

=== FILE: coin_history.dfy ===
/**
 * The bot's own coin ledger: a `users` table (Discord id, initial-coins flag)
 * and an append-only `user_coin_history` table of signed rows. A user's coins
 * are never stored; they are the sum of the rows whose user carries the
 * Discord id. The creation date of a row is a day number supplied by the caller.
 */
module CoinHistory {
  import opened Common
  import Ranking

  /** The coins a newly registered user starts with. */
  const InitialCoins: int := 100

  datatype User = User(id: int, discordId: int, receivedInitialCoins: bool)

  /** One history row; `kind` is the free-text `type` column ("Initial", "Daily", "Transfer", ...). */
  datatype Row = Row(userId: int, amount: int, kind: string, entityId: Option<int>, description: Option<string>, day: int)

  datatype Db = Db(users: seq<User>, rows: seq<Row>, nextUserId: int)

  /**
   * `RolledBack`: the repository caught the failure, rolled back and returned
   * false. `Escaped`: an insert threw and the exception left the method before
   * any rollback or commit, so nothing was committed and no reply was returned.
   */
  datatype HistoryError = UnknownUser | RolledBack | Escaped

  /** Generated user ids are unique and below the auto-increment counter. */
  predicate Inv(db: Db)
  {
    && (forall i :: 0 <= i < |db.users| ==> db.users[i].id < db.nextUserId)
    && (forall i, j :: 0 <= i < j < |db.users| ==> db.users[i].id != db.users[j].id)
  }

  /** The sum of the rows carrying this user id. */
  function UserCoins(rows: seq<Row>, userId: int): int
  {
    if |rows| == 0 then 0
    else UserCoins(rows[..|rows| - 1], userId) + (if rows[|rows| - 1].userId == userId then rows[|rows| - 1].amount else 0)
  }

  lemma UserCoinsAppend(rows: seq<Row>, row: Row, userId: int)
    ensures UserCoins(rows + [row], userId) == UserCoins(rows, userId) + (if row.userId == userId then row.amount else 0)
  {
    assert (rows + [row])[..|rows|] == rows;
  }

  /** `whereHas('user', discord_id = d)`: the row's user carries Discord id d. */
  predicate OwnedBy(users: seq<User>, userId: int, discordId: int)
  {
    exists i :: 0 <= i < |users| && users[i].id == userId && users[i].discordId == discordId
  }

  /** `sum(amount)` over the rows owned by Discord id d, counting an empty sum as 0. */
  function Total(users: seq<User>, rows: seq<Row>, discordId: int): int
  {
    if |rows| == 0 then 0
    else Total(users, rows[..|rows| - 1], discordId)
         + (if OwnedBy(users, rows[|rows| - 1].userId, discordId) then rows[|rows| - 1].amount else 0)
  }

  lemma TotalAppend(users: seq<User>, rows: seq<Row>, row: Row, discordId: int)
    ensures Total(users, rows + [row], discordId)
            == Total(users, rows, discordId) + (if OwnedBy(users, row.userId, discordId) then row.amount else 0)
  {
    assert (rows + [row])[..|rows|] == rows;
  }

  /** Some row is owned by Discord id d (otherwise SQL's `sum` is NULL). */
  predicate HasRows(users: seq<User>, rows: seq<Row>, discordId: int)
  {
    exists i :: 0 <= i < |rows| && OwnedBy(users, rows[i].userId, discordId)
  }

  /** `UserRepository::getCurrentCoins`: the summed amount, or NULL when the user owns no row. */
  function GetCurrentCoins(db: Db, discordId: int): (r: Option<int>)
    ensures r.None? <==> forall i :: 0 <= i < |db.rows| ==> !OwnedBy(db.users, db.rows[i].userId, discordId)
    ensures r.Some? ==> r.value == Total(db.users, db.rows, discordId)
  {
    if HasRows(db.users, db.rows, discordId) then Some(Total(db.users, db.rows, discordId)) else None
  }

  /**
   * PHP 8's `total >= amount` when `total` may be NULL: NULL is compared as the
   * boolean false, so it passes only an amount that is itself falsy, that is 0.
   */
  predicate NullableAtLeast(total: Option<int>, amount: int)
  {
    match total
    case None => amount == 0
    case Some(t) => t >= amount
  }

  /** `hasAvailableCoins` (both repositories): the owned total compared with the amount. */
  predicate HasAvailableCoins(db: Db, discordId: int, amount: int)
  {
    NullableAtLeast(GetCurrentCoins(db, discordId), amount)
  }

  /**
   * A user who owns rows has the coins exactly when the total reaches the amount;
   * a user who owns none passes only for amount 0, even when the amount is negative.
   */
  lemma HasAvailableCoinsMeaning(db: Db, discordId: int, amount: int)
    ensures HasRows(db.users, db.rows, discordId) ==>
              (HasAvailableCoins(db, discordId, amount) <==> Total(db.users, db.rows, discordId) >= amount)
    ensures !HasRows(db.users, db.rows, discordId) ==> (HasAvailableCoins(db, discordId, amount) <==> amount == 0)
  {
  }

  /** `create`: exactly one row with the given fields is appended; only its owners' totals move. */
  function Create(db: Db, userId: int, amount: int, kind: string, entityId: Option<int>,
                  description: Option<string>, day: int): (r: Db)
    ensures r.users == db.users && r.nextUserId == db.nextUserId
    ensures |r.rows| == |db.rows| + 1 && r.rows[..|db.rows|] == db.rows
    ensures r.rows[|db.rows|] == Row(userId, amount, kind, entityId, description, day)
    ensures UserCoins(r.rows, userId) == UserCoins(db.rows, userId) + amount
    ensures forall v :: v != userId ==> UserCoins(r.rows, v) == UserCoins(db.rows, v)
    ensures forall d :: Total(r.users, r.rows, d)
                        == Total(db.users, db.rows, d) + (if OwnedBy(db.users, userId, d) then amount else 0)
  {
    var row := Row(userId, amount, kind, entityId, description, day);
    var rows := db.rows + [row];
    assert rows[..|db.rows|] == db.rows;
    forall v ensures UserCoins(rows, v) == UserCoins(db.rows, v) + (if v == userId then amount else 0) {
      UserCoinsAppend(db.rows, row, v);
    }
    forall d ensures Total(db.users, rows, d) == Total(db.users, db.rows, d) + (if OwnedBy(db.users, userId, d) then amount else 0) {
      TotalAppend(db.users, db.rows, row, d);
    }
    db.(rows := rows)
  }

  /** `getByDiscordId`: the first user carrying the Discord id, if any. */
  function GetByDiscordId(users: seq<User>, discordId: int): (r: Option<User>)
    ensures r.None? <==> forall i :: 0 <= i < |users| ==> users[i].discordId != discordId
    ensures r.Some? ==> exists k :: 0 <= k < |users| && users[k] == r.value && r.value.discordId == discordId
                                    && forall i :: 0 <= i < k ==> users[i].discordId != discordId
  {
    if |users| == 0 then None
    else if users[0].discordId == discordId then Some(users[0])
    else
      var rest := GetByDiscordId(users[1..], discordId);
      if rest.Some? then
        var k :| 0 <= k < |users[1..]| && users[1..][k] == rest.value && rest.value.discordId == discordId
                 && forall i :: 0 <= i < k ==> users[1..][i].discordId != discordId;
        assert users[k + 1] == rest.value;
        rest
      else rest
  }

  /** `userExistByDiscordId`. */
  predicate UserExistByDiscordId(db: Db, discordId: int)
  {
    exists i :: 0 <= i < |db.users| && db.users[i].discordId == discordId
  }

  /** The existence test and the lookup agree. */
  lemma UserExistsIffFound(db: Db, discordId: int)
    ensures UserExistByDiscordId(db, discordId) <==> GetByDiscordId(db.users, discordId).Some?
  {
  }

  /** Two different Discord ids found in a database whose user ids are distinct belong to different users. */
  lemma FoundUsersDiffer(db: Db, d1: int, d2: int)
    requires Inv(db) && d1 != d2
    requires GetByDiscordId(db.users, d1).Some? && GetByDiscordId(db.users, d2).Some?
    ensures GetByDiscordId(db.users, d1).value.id != GetByDiscordId(db.users, d2).value.id
  {
    var a := GetByDiscordId(db.users, d1).value;
    var b := GetByDiscordId(db.users, d2).value;
    var i :| 0 <= i < |db.users| && db.users[i] == a && a.discordId == d1
             && forall x :: 0 <= x < i ==> db.users[x].discordId != d1;
    var j :| 0 <= j < |db.users| && db.users[j] == b && b.discordId == d2
             && forall x :: 0 <= x < j ==> db.users[x].discordId != d2;
    assert i != j;
    if i < j {
      assert db.users[i].id != db.users[j].id;
    } else {
      assert db.users[j].id != db.users[i].id;
    }
  }

  /**
   * `spendCoins`: one row for the first user with the Discord id, carrying the
   * amount exactly as given (callers pass the sign) and the JSON-encoded
   * description. With no such user the insert cannot name a user and fails.
   */
  function SpendCoins(db: Db, discordId: int, amount: int, kind: string, encodedDescription: string, day: int)
    : (r: Result<Db, HistoryError>)
    ensures r.Err? <==> !UserExistByDiscordId(db, discordId)
    ensures r.Err? ==> r.error == UnknownUser
    ensures r.Ok? ==> r.value.users == db.users && r.value.nextUserId == db.nextUserId && |r.value.rows| == |db.rows| + 1 && r.value.rows[..|db.rows|] == db.rows
    ensures r.Ok? ==> var row := r.value.rows[|db.rows|];
      row.amount == amount && row.kind == kind && row.entityId.None? && row.description == Some(encodedDescription)
      && OwnedBy(db.users, row.userId, discordId) && row.day == day
    ensures r.Ok? ==> Total(r.value.users, r.value.rows, discordId) == Total(db.users, db.rows, discordId) + amount
  {
    match GetByDiscordId(db.users, discordId)
    case None => Err(UnknownUser)
    case Some(u) => Ok(Create(db, u.id, amount, kind, None, Some(encodedDescription), day))
  }

  /**
   * `giveCoins`: like a spend, with the description stored verbatim. For an unknown
   * Discord id it writes nothing and fails: the repository returns `false` from a
   * method declared to return `UserCoinHistory`, which PHP rejects with a TypeError.
   */
  function GiveCoins(db: Db, discordId: int, amount: int, kind: string, description: Option<string>, day: int)
    : (r: Result<Db, HistoryError>)
    ensures r.Err? <==> !UserExistByDiscordId(db, discordId)
    ensures r.Err? ==> r.error == UnknownUser
    ensures r.Ok? ==> r.value.users == db.users && |r.value.rows| == |db.rows| + 1 && r.value.rows[..|db.rows|] == db.rows
    ensures r.Ok? ==> var row := r.value.rows[|db.rows|];
      row.amount == amount && row.kind == kind && row.entityId.None? && row.description == description && row.day == day
      && OwnedBy(db.users, row.userId, discordId)
    ensures r.Ok? ==> Total(r.value.users, r.value.rows, discordId) == Total(db.users, db.rows, discordId) + amount
  {
    match GetByDiscordId(db.users, discordId)
    case None => Err(UnknownUser)
    case Some(u) => Ok(Create(db, u.id, amount, kind, None, description, day))
  }

  /** With unique user ids, a row written for one Discord id moves no other Discord id's total. */
  lemma SpendTouchesOnlyThatUser(db: Db, discordId: int, amount: int, kind: string, encodedDescription: string,
                                 day: int, other: int)
    requires Inv(db)
    requires other != discordId
    ensures var r := SpendCoins(db, discordId, amount, kind, encodedDescription, day);
      r.Ok? ==> Total(r.value.users, r.value.rows, other) == Total(db.users, db.rows, other)
  {
    var r := SpendCoins(db, discordId, amount, kind, encodedDescription, day);
    if r.Ok? {
      var u := GetByDiscordId(db.users, discordId).value;
      var k :| 0 <= k < |db.users| && db.users[k] == u && u.discordId == discordId;
      assert !OwnedBy(db.users, u.id, other) by {
        forall i | 0 <= i < |db.users| && db.users[i].id == u.id ensures db.users[i].discordId != other {
          assert db.users[k].discordId == discordId;
        }
      }
    }
  }

  /** A spend guarded by `hasAvailableCoins` for the amount it debits never leaves the user below zero. */
  lemma GuardedSpendNeverOverdraws(db: Db, discordId: int, amount: int, kind: string, encodedDescription: string, day: int)
    requires amount >= 0
    requires HasAvailableCoins(db, discordId, amount)
    ensures var r := SpendCoins(db, discordId, -amount, kind, encodedDescription, day);
      r.Ok? ==> Total(r.value.users, r.value.rows, discordId) >= 0
  {
    var r := SpendCoins(db, discordId, -amount, kind, encodedDescription, day);
    if !HasRows(db.users, db.rows, discordId) {
      TotalWithoutRows(db.users, db.rows, discordId);
    }
  }

  /** A user who owns no row has total 0. */
  lemma {:induction false} TotalWithoutRows(users: seq<User>, rows: seq<Row>, discordId: int)
    requires !HasRows(users, rows, discordId)
    ensures Total(users, rows, discordId) == 0
  {
    if |rows| > 0 {
      var init := rows[..|rows| - 1];
      assert forall i :: 0 <= i < |init| ==> init[i] == rows[i];
      TotalWithoutRows(users, init, discordId);
      assert !OwnedBy(users, rows[|rows| - 1].userId, discordId);
    }
  }

  /**
   * `transfer`: `-amount` for the sender (entity: the receiver) and `+amount` for the
   * receiver (entity: the sender), both or neither. Nothing is validated: any amount,
   * any ids, a self-transfer. `fromOk` and `toOk` say whether each insert succeeded;
   * a failed `create` throws before the rollback guard, so `RolledBack` stands for
   * that exception, which likewise commits nothing.
   */
  function Transfer(db: Db, fromId: int, amount: int, toId: int, day: int, fromOk: bool, toOk: bool)
    : (r: Result<Db, HistoryError>)
    ensures r.Err? <==> !fromOk || !toOk
    ensures r.Err? ==> r.error == RolledBack
    ensures r.Ok? ==> r.value.users == db.users
    ensures r.Ok? ==> r.value.rows == db.rows + [Row(fromId, -amount, "Transfer", Some(toId), None, day),
                                                 Row(toId, amount, "Transfer", Some(fromId), None, day)]
    ensures r.Ok? ==> UserCoins(r.value.rows, fromId) + UserCoins(r.value.rows, toId)
                      == UserCoins(db.rows, fromId) + UserCoins(db.rows, toId)
    ensures r.Ok? && fromId != toId ==> UserCoins(r.value.rows, fromId) == UserCoins(db.rows, fromId) - amount
                                        && UserCoins(r.value.rows, toId) == UserCoins(db.rows, toId) + amount
    ensures r.Ok? ==> forall v :: v != fromId && v != toId ==> UserCoins(r.value.rows, v) == UserCoins(db.rows, v)
  {
    if !fromOk || !toOk then Err(RolledBack)
    else
      var first := Create(db, fromId, -amount, "Transfer", Some(toId), None, day);
      var second := Create(first, toId, amount, "Transfer", Some(fromId), None, day);
      assert second.rows == db.rows + [Row(fromId, -amount, "Transfer", Some(toId), None, day),
                                       Row(toId, amount, "Transfer", Some(fromId), None, day)];
      Ok(second)
  }

  /** A committed transfer between two users owned by the same Discord id leaves that Discord id's total unchanged. */
  lemma TransferConservesOwners(db: Db, fromId: int, amount: int, toId: int, day: int, d: int)
    requires Inv(db)
    ensures var r := Transfer(db, fromId, amount, toId, day, true, true);
      r.Ok? && OwnedBy(db.users, fromId, d) && OwnedBy(db.users, toId, d)
      ==> Total(r.value.users, r.value.rows, d) == Total(db.users, db.rows, d)
  {
  }

  /** `canReceivedDailyCoins`: the user owns no "Daily" row dated today. */
  predicate CanReceiveDailyCoins(db: Db, discordId: int, today: int)
  {
    forall i :: 0 <= i < |db.rows| && OwnedBy(db.users, db.rows[i].userId, discordId)
                ==> !(db.rows[i].kind == "Daily" && db.rows[i].day == today)
  }

  /** Giving today's daily coins closes the daily window for the rest of the day. */
  lemma DailyGiftClosesToday(db: Db, discordId: int, amount: int, description: Option<string>, today: int)
    ensures var r := GiveCoins(db, discordId, amount, "Daily", description, today);
      r.Ok? ==> !CanReceiveDailyCoins(r.value, discordId, today)
  {
    var r := GiveCoins(db, discordId, amount, "Daily", description, today);
    if r.Ok? {
      assert r.value.rows[|db.rows|].kind == "Daily";
    }
  }

  /** A row of another kind, or dated another day, does not close today's window. */
  lemma OtherRowsKeepWindowOpen(db: Db, discordId: int, amount: int, kind: string, description: Option<string>,
                                day: int, today: int)
    requires CanReceiveDailyCoins(db, discordId, today)
    requires kind != "Daily" || day != today
    ensures var r := GiveCoins(db, discordId, amount, kind, description, day);
      r.Ok? ==> CanReceiveDailyCoins(r.value, discordId, today)
  {
    var r := GiveCoins(db, discordId, amount, kind, description, day);
    if r.Ok? {
      forall i | 0 <= i < |r.value.rows| && OwnedBy(db.users, r.value.rows[i].userId, discordId)
        ensures !(r.value.rows[i].kind == "Daily" && r.value.rows[i].day == today)
      {
        if i < |db.rows| {
          assert r.value.rows[i] == db.rows[i];
        }
      }
    }
  }

  /** A `listTop10` line: a user id and the sum of its rows. */
  datatype UserTotal = UserTotal(userId: int, total: int)

  function TotalOf(t: UserTotal): int { t.total }

  function UserOf(t: UserTotal): int { t.userId }

  /** `GROUP BY user_id`: the user ids occurring in the rows, each once, in first-appearance order. */
  function UserIds(rows: seq<Row>): (r: seq<int>)
    ensures forall v :: v in r <==> exists i :: 0 <= i < |rows| && rows[i].userId == v
    ensures forall i, j :: 0 <= i < j < |r| ==> r[i] != r[j]
  {
    if |rows| == 0 then []
    else
      var init := UserIds(rows[..|rows| - 1]);
      var last := rows[|rows| - 1];
      assert forall i :: 0 <= i < |rows| - 1 ==> rows[..|rows| - 1][i] == rows[i];
      if last.userId in init then init else init + [last.userId]
  }

  function Groups(rows: seq<Row>, ids: seq<int>): (r: seq<UserTotal>)
    ensures |r| == |ids|
    ensures forall i :: 0 <= i < |r| ==> r[i] == UserTotal(ids[i], UserCoins(rows, ids[i]))
  {
    if |ids| == 0 then [] else [UserTotal(ids[0], UserCoins(rows, ids[0]))] + Groups(rows, ids[1..])
  }

  /**
   * `listTop10`: the ten users with the largest summed amounts, largest first, each
   * user once with its true sum; no user left out has a larger sum than a listed one.
   */
  function ListTop10(rows: seq<Row>): (r: seq<UserTotal>)
    ensures |r| == Min(10, |UserIds(rows)|)
    ensures forall i, j :: 0 <= i < j < |r| ==> r[i].total >= r[j].total
    ensures forall i, j :: 0 <= i < j < |r| ==> r[i].userId != r[j].userId
    ensures forall i :: 0 <= i < |r| ==> r[i].userId in UserIds(rows) && r[i].total == UserCoins(rows, r[i].userId)
    ensures forall v, i :: v in UserIds(rows) && 0 <= i < |r| && (forall j :: 0 <= j < |r| ==> r[j].userId != v)
                           ==> UserCoins(rows, v) <= r[i].total
  {
    var groups := Groups(rows, UserIds(rows));
    var top := Ranking.TopN(groups, TotalOf, 10);
    TopLinesAreGroups(rows, groups, top);
    OmittedUsersRankLower(rows, groups, top);
    top
  }

  /** The selected lines are distinct users' lines, each carrying that user's true sum, largest first. */
  lemma TopLinesAreGroups(rows: seq<Row>, groups: seq<UserTotal>, top: seq<UserTotal>)
    requires groups == Groups(rows, UserIds(rows))
    requires top == Ranking.TopN(groups, TotalOf, 10)
    ensures |top| == Min(10, |UserIds(rows)|)
    ensures forall i, j :: 0 <= i < j < |top| ==> top[i].total >= top[j].total
    ensures forall i :: 0 <= i < |top| ==> top[i] in groups
    ensures forall i, j :: 0 <= i < j < |top| ==> top[i].userId != top[j].userId
    ensures forall i :: 0 <= i < |top| ==> top[i].userId in UserIds(rows) && top[i].total == UserCoins(rows, top[i].userId)
  {
    var ids := UserIds(rows);
    assert forall a, b :: 0 <= a < b < |groups| ==> UserOf(groups[a]) != UserOf(groups[b]) by {
      forall a, b | 0 <= a < b < |groups| ensures UserOf(groups[a]) != UserOf(groups[b]) {
        assert groups[a].userId == ids[a] && groups[b].userId == ids[b];
      }
    }
    Ranking.SelectionKeepsDistinct(groups, top, UserOf);
    assert Ranking.SortedDesc(top, TotalOf);
    forall i | 0 <= i < |top| ensures top[i].userId in ids && top[i].total == UserCoins(rows, top[i].userId) {
      var k :| 0 <= k < |groups| && groups[k] == top[i];
      assert groups[k] == UserTotal(ids[k], UserCoins(rows, ids[k]));
    }
  }

  lemma OmittedUsersRankLower(rows: seq<Row>, groups: seq<UserTotal>, top: seq<UserTotal>)
    requires groups == Groups(rows, UserIds(rows))
    requires top == Ranking.TopN(groups, TotalOf, 10)
    ensures forall v, i :: v in UserIds(rows) && 0 <= i < |top| && (forall j :: 0 <= j < |top| ==> top[j].userId != v)
                           ==> UserCoins(rows, v) <= top[i].total
  {
    var ids := UserIds(rows);
    forall v, i | v in ids && 0 <= i < |top| && (forall j :: 0 <= j < |top| ==> top[j].userId != v)
      ensures UserCoins(rows, v) <= top[i].total
    {
      var k :| 0 <= k < |ids| && ids[k] == v;
      var g := groups[k];
      assert g == UserTotal(v, UserCoins(rows, v));
      assert g !in top;
      assert g in multiset(groups);
      assert multiset(top)[g] == 0;
      assert g in multiset(groups) - multiset(top);
      assert TotalOf(g) <= TotalOf(top[i]);
    }
  }

  /** Every user flagged as having received the initial coins owns an initial row of 100. */
  predicate FlagsBacked(db: Db)
  {
    forall i :: 0 <= i < |db.users| && db.users[i].receivedInitialCoins ==>
      exists k :: 0 <= k < |db.rows| && db.rows[k].userId == db.users[i].id
                  && db.rows[k].kind == "Initial" && db.rows[k].amount == InitialCoins
  }

  /**
   * `registerAndGiveInitialCoins` as written: the flagged user row and then its
   * initial row are inserted in one transaction. `userOk` and `coinsOk` say
   * whether each `create` succeeded; a failed `create` throws, and the method has
   * no `catch`, so the exception escapes before the rollback guard is reached. At
   * the guard both inserts have returned a model, so it never rolls back.
   */
  function RegisterAsWritten(db: Db, discordId: int, day: int, userOk: bool, coinsOk: bool): (r: Result<Db, HistoryError>)
    ensures r.Err? <==> !userOk || !coinsOk
    ensures r.Err? ==> r.error == Escaped
    ensures r.Ok? ==> |r.value.users| == |db.users| + 1 && r.value.users[..|db.users|] == db.users
    ensures r.Ok? ==> r.value.users[|db.users|] == User(db.nextUserId, discordId, true)
    ensures r.Ok? ==> r.value.rows == db.rows + [Row(db.nextUserId, InitialCoins, "Initial", None, None, day)]
  {
    if !userOk || !coinsOk then Err(Escaped)
    else
      var createdUser := true;
      var coinsGiven := true;
      if !createdUser && !coinsGiven then Err(RolledBack)
      else
        var u := User(db.nextUserId, discordId, true);
        assert (db.users + [u])[..|db.users|] == db.users;
        Ok(Db(db.users + [u], db.rows + [Row(u.id, InitialCoins, "Initial", None, None, day)], db.nextUserId + 1))
  }

  /**
   * The rollback branch is dead: a successful user insert followed by a failed
   * initial-coins insert escapes as an exception instead of rolling back and
   * answering false, and no input makes the method answer false.
   */
  lemma AsWrittenNeverRollsBack(db: Db, discordId: int, day: int, userOk: bool, coinsOk: bool)
    ensures RegisterAsWritten(db, discordId, day, true, false) == Err(Escaped)
    ensures RegisterAsWritten(db, discordId, day, userOk, coinsOk) != Err(RolledBack)
  {
  }

  /**
   * What the database keeps is the same as under the intended failure handling:
   * the registration commits exactly when both inserts succeed, and then the
   * same user and initial row.
   */
  lemma AsWrittenCommitsLikeCorrected(db: Db, discordId: int, day: int, userOk: bool, coinsOk: bool)
    ensures RegisterAsWritten(db, discordId, day, userOk, coinsOk).Ok?
            <==> RegisterAndGiveInitialCoins(db, discordId, day, userOk, coinsOk).Ok?
    ensures RegisterAsWritten(db, discordId, day, userOk, coinsOk).Ok? ==>
              RegisterAsWritten(db, discordId, day, userOk, coinsOk).value
              == RegisterAndGiveInitialCoins(db, discordId, day, userOk, coinsOk).value
  {
  }

  /**
   * `registerAndGiveInitialCoins` with the failure handling its rollback branch and
   * `bool` result evidently intend: a failed insert is caught, the transaction is
   * rolled back and the method answers false; otherwise both rows are committed.
   */
  function RegisterAndGiveInitialCoins(db: Db, discordId: int, day: int, userOk: bool, coinsOk: bool)
    : (r: Result<Db, HistoryError>)
    ensures r.Err? <==> !userOk || !coinsOk
    ensures r.Err? ==> r.error == RolledBack
    ensures r.Ok? ==> |r.value.users| == |db.users| + 1 && r.value.users[..|db.users|] == db.users
    ensures r.Ok? ==> r.value.users[|db.users|] == User(db.nextUserId, discordId, true)
    ensures r.Ok? ==> r.value.rows == db.rows + [Row(db.nextUserId, InitialCoins, "Initial", None, None, day)]
    ensures r.Ok? ==> UserCoins(r.value.rows, db.nextUserId) == UserCoins(db.rows, db.nextUserId) + InitialCoins
    ensures r.Ok? ==> UserExistByDiscordId(r.value, discordId)
    ensures r.Ok? && Inv(db) ==> Inv(r.value)
  {
    if !userOk || !coinsOk then Err(RolledBack)
    else
      var u := User(db.nextUserId, discordId, true);
      var row := Row(u.id, InitialCoins, "Initial", None, None, day);
      var users := db.users + [u];
      assert users[..|db.users|] == db.users;
      assert users[|db.users|] == u;
      UserCoinsAppend(db.rows, row, u.id);
      Ok(Db(users, db.rows + [row], db.nextUserId + 1))
  }

  /** The corrected registration keeps every initial-coins flag backed by an initial row. */
  lemma RegisterKeepsFlagsBacked(db: Db, discordId: int, day: int, userOk: bool, coinsOk: bool)
    requires FlagsBacked(db)
    ensures var r := RegisterAndGiveInitialCoins(db, discordId, day, userOk, coinsOk);
      r.Ok? ==> FlagsBacked(r.value)
  {
    var r := RegisterAndGiveInitialCoins(db, discordId, day, userOk, coinsOk);
    if r.Ok? {
      var n := r.value;
      forall i | 0 <= i < |n.users| && n.users[i].receivedInitialCoins
        ensures exists k :: 0 <= k < |n.rows| && n.rows[k].userId == n.users[i].id
                            && n.rows[k].kind == "Initial" && n.rows[k].amount == InitialCoins
      {
        if i < |db.users| {
          assert n.users[i] == db.users[i];
          var k :| 0 <= k < |db.rows| && db.rows[k].userId == db.users[i].id
                   && db.rows[k].kind == "Initial" && db.rows[k].amount == InitialCoins;
          assert n.rows[k] == db.rows[k];
        } else {
          assert n.rows[|db.rows|].userId == n.users[i].id;
        }
      }
    }
  }
}

=== FILE: common.dfy ===
/** Small shared vocabulary: optional values, results and absolute value. */
module Common {

  /** A value that may be absent (SQL NULL, Python None, PHP null). */
  datatype Option<+T> = None | Some(value: T)

  /** Either a successful value or an error tag. */
  datatype Result<+T, +E> = Ok(value: T) | Err(error: E)

  /** Python's `abs` and PHP's `abs` on integers. */
  function Abs(x: int): (r: int)
    ensures r >= 0
    ensures r == x || r == -x
  {
    if x < 0 then -x else x
  }

  function Min(a: int, b: int): (r: int)
    ensures r <= a && r <= b
    ensures r == a || r == b
  {
    if a <= b then a else b
  }

  /** Position of the first element satisfying p (a query's `.first()`), if any. */
  function FirstIndex<T>(s: seq<T>, p: T -> bool): (r: Option<nat>)
    ensures r.None? <==> forall i :: 0 <= i < |s| ==> !p(s[i])
    ensures r.Some? ==> r.value < |s| && p(s[r.value])
    ensures r.Some? ==> forall i :: 0 <= i < r.value ==> !p(s[i])
  {
    if |s| == 0 then None
    else if p(s[0]) then Some(0)
    else match FirstIndex(s[1..], p)
      case None => None
      case Some(k) => Some(k + 1)
  }

  /** Position of the last element satisfying p, if any. */
  function LastIndex<T>(s: seq<T>, p: T -> bool): (r: Option<nat>)
    ensures r.None? <==> forall i :: 0 <= i < |s| ==> !p(s[i])
    ensures r.Some? ==> r.value < |s| && p(s[r.value])
    ensures r.Some? ==> forall i :: r.value < i < |s| ==> !p(s[i])
  {
    if |s| == 0 then None
    else if p(s[|s| - 1]) then Some(|s| - 1)
    else LastIndex(s[..|s| - 1], p)
  }

  /** The elements of s that satisfy p, in order (a query's `WHERE`): each kept as often as it occurs. */
  function Filter<T(!new)>(s: seq<T>, p: T -> bool): (r: seq<T>)
    ensures forall x :: x in r <==> x in s && p(x)
    ensures forall x :: multiset(r)[x] == if p(x) then multiset(s)[x] else 0
    ensures |r| <= |s|
  {
    if |s| == 0 then []
    else
      var last := s[|s| - 1];
      assert s == s[..|s| - 1] + [last];
      var init := Filter(s[..|s| - 1], p);
      if p(last) then init + [last] else init
  }

  /** Filtering an extended sequence filters the old part and then the new element. */
  lemma FilterAppend<T(!new)>(s: seq<T>, x: T, p: T -> bool)
    ensures Filter(s + [x], p) == Filter(s, p) + (if p(x) then [x] else [])
  {
    assert (s + [x])[..|s|] == s;
  }

  /** A sequence whose every element passes is kept whole. */
  lemma {:induction false} FilterKeepsAll<T(!new)>(s: seq<T>, p: T -> bool)
    requires forall x :: x in s ==> p(x)
    ensures Filter(s, p) == s
  {
    if |s| > 0 {
      var init := s[..|s| - 1];
      assert s == init + [s[|s| - 1]];
      assert forall x :: x in init ==> x in s;
      FilterKeepsAll(init, p);
    }
  }

  function Max(a: int, b: int): (r: int)
    ensures r >= a && r >= b
    ensures r == a || r == b
  {
    if a >= b then a else b
  }
}

=== FILE: cooldown.dfy ===
/**
 * `RedisHelper::cooldown`: a per-key counter in Redis that lets a key through a
 * limited number of times per window. The window (the key's expiry) is not
 * timed here: `Expire` stands for Redis dropping the key.
 */
module Cooldown {
  import opened Common

  /** The keys Redis holds, with their stored counts. */
  type Store = map<string, int>

  /** `Redis::get($key)` is truthy: present and not 0. */
  predicate Counting(s: Store, key: string)
  {
    key in s && s[key] != 0
  }

  /**
   * One call. With no (truthy) count the key is set to 1 and the call passes,
   * whatever `times` is; a count below `times` is incremented and passes; any
   * other count is left alone and refused.
   */
  function Cool(s: Store, key: string, times: int): (r: (Store, bool))
    ensures !Counting(s, key) ==> r.1 && key in r.0 && r.0[key] == 1
    ensures Counting(s, key) ==> (r.1 <==> s[key] < times)
    ensures Counting(s, key) && s[key] < times ==> key in r.0 && r.0[key] == s[key] + 1
    ensures !r.1 ==> r.0 == s
    ensures forall k :: k != key ==> (k in r.0 <==> k in s) && (k in s ==> r.0[k] == s[k])
  {
    if Counting(s, key) then
      if s[key] < times then (s[key := s[key] + 1], true) else (s, false)
    else (s[key := 1], true)
  }

  /** Redis dropping the key when its window ends. */
  function Expire(s: Store, key: string): (r: Store)
    ensures !Counting(r, key)
    ensures forall k :: k != key ==> (k in r <==> k in s) && (k in s ==> r[k] == s[k])
  {
    s - {key}
  }

  /** n calls in a row on one key with no expiry: the store after them and each call's answer. */
  function Calls(s: Store, key: string, times: int, n: nat): (r: (Store, seq<bool>))
    ensures |r.1| == n
  {
    if n == 0 then (s, [])
    else
      var (before, answers) := Calls(s, key, times, n - 1);
      var (after, ok) := Cool(before, key, times);
      (after, answers + [ok])
  }

  /**
   * From a fresh window, exactly the first max(1, times) calls pass and every
   * later one is refused; the count stops at max(1, times).
   */
  lemma {:induction false} FreshWindowPassesFirstCalls(s: Store, key: string, times: int, n: nat)
    requires !Counting(s, key)
    ensures var (after, answers) := Calls(s, key, times, n);
      (n > 0 ==> key in after && after[key] == Min(n, Max(1, times)))
      && forall i :: 0 <= i < n ==> (answers[i] <==> i < Max(1, times))
  {
    if n > 0 {
      FreshWindowPassesFirstCalls(s, key, times, n - 1);
      var (before, answers) := Calls(s, key, times, n - 1);
      var (after, ok) := Cool(before, key, times);
      assert Calls(s, key, times, n).1 == answers + [ok];
      if n == 1 {
        assert before == s;
      } else {
        assert before[key] == Min(n - 1, Max(1, times));
      }
    }
  }

  /** The number of passes among the answers. */
  function Passes(answers: seq<bool>): nat
  {
    if |answers| == 0 then 0 else Passes(answers[..|answers| - 1]) + (if answers[|answers| - 1] then 1 else 0)
  }

  /** However many calls are made within one window, at most max(1, times) pass. */
  lemma WindowPassesAtMost(s: Store, key: string, times: int, n: nat)
    requires !Counting(s, key)
    ensures Passes(Calls(s, key, times, n).1) == Min(n, Max(1, times))
  {
    FreshWindowPassesFirstCalls(s, key, times, n);
    PassesOfPrefix(Calls(s, key, times, n).1, Max(1, times));
  }

  /** Answers that are true exactly below index m contain min(length, m) passes. */
  lemma {:induction false} PassesOfPrefix(answers: seq<bool>, m: int)
    requires m >= 0
    requires forall i :: 0 <= i < |answers| ==> (answers[i] <==> i < m)
    ensures Passes(answers) == Min(|answers|, m)
  {
    if |answers| > 0 {
      var init := answers[..|answers| - 1];
      assert forall i :: 0 <= i < |init| ==> init[i] == answers[i];
      PassesOfPrefix(init, m);
    }
  }
}

=== FILE: daily_coins.dfy ===
/**
 * The daily-coins service: one claim per client per calendar date. A claim
 * asks the client service whether the client exists and the balance service
 * to credit the coins; both remote calls are oracle parameters. Dates are
 * day numbers.
 */
module DailyCoins {
  import opened Common
  import BalanceLedger
  import Ranking

  /** `DAILY_COINS_AMOUNT` when the environment does not set it. */
  const DefaultDailyAmount: int := 100

  /** The amount the history endpoint reports per claim (a literal, not the configured amount). */
  const HistoryAmountPerClaim: int := 100

  datatype Claim = Claim(clientId: string, claimDate: int)

  /** The daily-claim table and the balance service's table. */
  datatype State = State(claims: seq<Claim>, ledger: BalanceLedger.Ledger)

  /** What a remote HTTP call produced: a status code, or a transport failure. */
  datatype Reply = Answered(status: int) | Unreachable

  datatype ClaimError = AlreadyClaimed | ClientNotFound | ClientServiceDown | BalanceFailed | BalanceServiceDown

  function Status(e: ClaimError): int
  {
    match e
    case AlreadyClaimed => 400
    case ClientNotFound => 404
    case ClientServiceDown => 503
    case BalanceFailed => 500
    case BalanceServiceDown => 503
  }

  datatype ClaimReply = ClaimReply(amount: int, clientId: string, claimDate: int)

  datatype Claimed = Claimed(state: State, reply: ClaimReply)

  predicate HasClaimed(claims: seq<Claim>, clientId: string, date: int)
  {
    exists i :: 0 <= i < |claims| && claims[i] == Claim(clientId, date)
  }

  /** No client has two claims on the same date. */
  predicate OneClaimPerDay(claims: seq<Claim>)
  {
    forall i, j :: 0 <= i < j < |claims| ==> claims[i] != claims[j]
  }

  /**
   * `POST /daily-coins`. Refused, first failure wins, when the client already
   * claimed `today` (400), the client service says 404 (404) or cannot be reached
   * (503, any other status is accepted), the balance service cannot be reached
   * (503) or answers anything but 200 (500). The claim row is written only after
   * the credit succeeded.
   */
  function ClaimDaily(s: State, clientId: string, today: int, dailyAmount: int, client: Reply, balance: Reply)
    : (r: Result<Claimed, ClaimError>)
    ensures HasClaimed(s.claims, clientId, today) ==> r == Err(AlreadyClaimed)
    ensures !HasClaimed(s.claims, clientId, today) && client == Unreachable ==> r == Err(ClientServiceDown)
    ensures !HasClaimed(s.claims, clientId, today) && client == Answered(404) ==> r == Err(ClientNotFound)
    ensures r.Err? && r.error == BalanceServiceDown ==> balance == Unreachable
    ensures r.Err? && r.error == BalanceFailed ==> balance.Answered? && balance.status != 200
    ensures !HasClaimed(s.claims, clientId, today) && client.Answered? && client.status != 404 ==>
      && (balance == Unreachable ==> r == Err(BalanceServiceDown))
      && (balance.Answered? && balance.status != 200 ==> r == Err(BalanceFailed))
    ensures r.Ok? <==> !HasClaimed(s.claims, clientId, today) && client.Answered? && client.status != 404
                       && balance == Answered(200)
    ensures r.Ok? ==> r.value.state.claims == s.claims + [Claim(clientId, today)]
    ensures r.Ok? ==> r.value.reply == ClaimReply(dailyAmount, clientId, today)
    ensures r.Ok? ==> BalanceLedger.Balance(r.value.state.ledger, clientId)
                      == BalanceLedger.Balance(s.ledger, clientId) + Abs(dailyAmount)
    ensures r.Ok? ==> forall c :: c != clientId ==>
                        BalanceLedger.Balance(r.value.state.ledger, c) == BalanceLedger.Balance(s.ledger, c)
  {
    if HasClaimed(s.claims, clientId, today) then Err(AlreadyClaimed)
    else if client == Unreachable then Err(ClientServiceDown)
    else if client.status == 404 then Err(ClientNotFound)
    else if balance == Unreachable then Err(BalanceServiceDown)
    else if balance.status != 200 then Err(BalanceFailed)
    else
      var ledger := BalanceLedger.Add(s.ledger, clientId, dailyAmount, "Daily coins reward");
      Ok(Claimed(State(s.claims + [Claim(clientId, today)], ledger), ClaimReply(dailyAmount, clientId, today)))
  }

  /** A second claim by the same client on the same date is refused, whatever the remote services answer. */
  lemma SecondClaimSameDayRejected(s: State, clientId: string, today: int, dailyAmount: int,
                                   client: Reply, balance: Reply, client2: Reply, balance2: Reply)
    ensures var r := ClaimDaily(s, clientId, today, dailyAmount, client, balance);
      r.Ok? ==> ClaimDaily(r.value.state, clientId, today, dailyAmount, client2, balance2) == Err(AlreadyClaimed)
  {
    var r := ClaimDaily(s, clientId, today, dailyAmount, client, balance);
    if r.Ok? {
      var claims := r.value.state.claims;
      assert claims[|s.claims|] == Claim(clientId, today);
    }
  }

  /** Every accepted claim keeps the one-claim-per-date rule. */
  lemma ClaimKeepsOneClaimPerDay(s: State, clientId: string, today: int, dailyAmount: int, client: Reply, balance: Reply)
    requires OneClaimPerDay(s.claims)
    ensures var r := ClaimDaily(s, clientId, today, dailyAmount, client, balance);
      r.Ok? ==> OneClaimPerDay(r.value.state.claims)
  {
    var r := ClaimDaily(s, clientId, today, dailyAmount, client, balance);
    if r.Ok? {
      var claims := r.value.state.claims;
      forall i, j | 0 <= i < j < |claims| ensures claims[i] != claims[j] {
        if j == |s.claims| {
          assert claims[i] == s.claims[i];
        }
      }
    }
  }

  function ClaimDate(c: Claim): int
  {
    c.claimDate
  }

  /** The claims of one client, in table order. */
  function ClientClaims(claims: seq<Claim>, clientId: string): (r: seq<Claim>)
    ensures forall c :: c in r <==> c in claims && c.clientId == clientId
    ensures forall c :: multiset(r)[c] == if c.clientId == clientId then multiset(claims)[c] else 0
  {
    Filter(claims, (c: Claim) => c.clientId == clientId)
  }

  datatype HistoryEntry = HistoryEntry(claimDate: int, amount: int)

  datatype History = History(clientId: string, totalClaims: int, totalCoinsEarned: int, history: seq<HistoryEntry>)

  function Entry(c: Claim): HistoryEntry
  {
    HistoryEntry(c.claimDate, HistoryAmountPerClaim)
  }

  /**
   * `GET /daily-coins/history/{id}`: the client's latest `limit` claims, newest
   * first. Each entry reports 100 coins and the total is 100 per listed claim.
   */
  function ClaimHistory(claims: seq<Claim>, clientId: string, limit: nat): (r: History)
    ensures |r.history| == r.totalClaims == Min(limit, |ClientClaims(claims, clientId)|)
    ensures r.totalCoinsEarned == HistoryAmountPerClaim * r.totalClaims
    ensures forall i :: 0 <= i < |r.history| ==> r.history[i].amount == HistoryAmountPerClaim
    ensures forall i, j :: 0 <= i < j < |r.history| ==> r.history[i].claimDate >= r.history[j].claimDate
    ensures forall i :: 0 <= i < |r.history| ==> Claim(clientId, r.history[i].claimDate) in claims
    ensures forall c, i :: c in claims && c.clientId == clientId && 0 <= i < |r.history| && !(Entry(c) in r.history)
                           ==> c.claimDate <= r.history[i].claimDate
    ensures forall d :: multiset(r.history)[HistoryEntry(d, HistoryAmountPerClaim)] <= multiset(claims)[Claim(clientId, d)]
  {
    var mine := ClientClaims(claims, clientId);
    var top := Ranking.TopN(mine, ClaimDate, limit);
    var entries := Entries(top);
    SelectedClaims(claims, clientId, limit, mine, top);
    EachClaimReportedAtMostOnce(claims, clientId, mine, top);
    History(clientId, |top|, |top| * HistoryAmountPerClaim, entries)
  }

  function Entries(cs: seq<Claim>): (r: seq<HistoryEntry>)
    ensures |r| == |cs|
    ensures forall i :: 0 <= i < |cs| ==> r[i] == Entry(cs[i])
    ensures forall c :: c in cs ==> Entry(c) in r
  {
    if |cs| == 0 then [] else [Entry(cs[0])] + Entries(cs[1..])
  }

  /** What the selection of the latest claims guarantees, restated on the reported entries. */
  lemma SelectedClaims(claims: seq<Claim>, clientId: string, limit: nat, mine: seq<Claim>, top: seq<Claim>)
    requires mine == ClientClaims(claims, clientId)
    requires top == Ranking.TopN(mine, ClaimDate, limit)
    ensures |Entries(top)| == |top| == Min(limit, |mine|)
    ensures forall i :: 0 <= i < |top| ==> Entries(top)[i].amount == HistoryAmountPerClaim
    ensures forall i, j :: 0 <= i < j < |top| ==> Entries(top)[i].claimDate >= Entries(top)[j].claimDate
    ensures forall i :: 0 <= i < |top| ==> Claim(clientId, Entries(top)[i].claimDate) in claims
    ensures forall c, i :: c in claims && c.clientId == clientId && 0 <= i < |top| && !(Entry(c) in Entries(top))
                           ==> c.claimDate <= Entries(top)[i].claimDate
  {
    var entries := Entries(top);
    assert Ranking.SortedDesc(top, ClaimDate);
    forall i, j | 0 <= i < j < |top| ensures entries[i].claimDate >= entries[j].claimDate {
      assert ClaimDate(top[i]) >= ClaimDate(top[j]);
    }
    SelectedAreTheClients(claims, clientId, mine, top);
    OmittedAreOlder(claims, clientId, mine, top);
  }

  /** No claim is reported more often than the table holds it. */
  lemma EachClaimReportedAtMostOnce(claims: seq<Claim>, clientId: string, mine: seq<Claim>, top: seq<Claim>)
    requires mine == ClientClaims(claims, clientId)
    requires multiset(top) <= multiset(mine)
    ensures forall d :: multiset(Entries(top))[HistoryEntry(d, HistoryAmountPerClaim)] <= multiset(claims)[Claim(clientId, d)]
  {
    forall i | 0 <= i < |top| ensures top[i].clientId == clientId {
      assert top[i] in multiset(top);
    }
    forall d ensures multiset(Entries(top))[HistoryEntry(d, HistoryAmountPerClaim)] <= multiset(claims)[Claim(clientId, d)] {
      EntriesCount(top, clientId, d);
      assert multiset(top)[Claim(clientId, d)] <= multiset(mine)[Claim(clientId, d)];
    }
  }

  /** Among one client's claims, an entry occurs as often as the claim of that date. */
  lemma {:induction false} EntriesCount(cs: seq<Claim>, clientId: string, d: int)
    requires forall i :: 0 <= i < |cs| ==> cs[i].clientId == clientId
    ensures multiset(Entries(cs))[HistoryEntry(d, HistoryAmountPerClaim)] == multiset(cs)[Claim(clientId, d)]
  {
    if |cs| > 0 {
      var rest := cs[1..];
      EntriesCount(rest, clientId, d);
      assert cs == [cs[0]] + rest;
      assert Entries(cs) == [Entry(cs[0])] + Entries(rest);
    }
  }

  lemma SelectedAreTheClients(claims: seq<Claim>, clientId: string, mine: seq<Claim>, top: seq<Claim>)
    requires mine == ClientClaims(claims, clientId)
    requires multiset(top) <= multiset(mine)
    ensures forall i :: 0 <= i < |top| ==> Claim(clientId, Entries(top)[i].claimDate) in claims
  {
    var entries := Entries(top);
    forall i | 0 <= i < |top| ensures Claim(clientId, entries[i].claimDate) in claims {
      assert top[i] in multiset(top);
      assert top[i] in mine;
      assert top[i] == Claim(clientId, entries[i].claimDate);
    }
  }

  lemma OmittedAreOlder(claims: seq<Claim>, clientId: string, mine: seq<Claim>, top: seq<Claim>)
    requires mine == ClientClaims(claims, clientId)
    requires forall x, i :: x in multiset(mine) - multiset(top) && 0 <= i < |top| ==> ClaimDate(x) <= ClaimDate(top[i])
    ensures forall c, i :: c in claims && c.clientId == clientId && 0 <= i < |top| && !(Entry(c) in Entries(top))
                           ==> c.claimDate <= Entries(top)[i].claimDate
  {
    var entries := Entries(top);
    forall c, i | c in claims && c.clientId == clientId && 0 <= i < |top| && !(Entry(c) in entries)
      ensures c.claimDate <= entries[i].claimDate
    {
      assert c in mine;
      assert c in multiset(mine);
      assert c !in top;
      assert multiset(top)[c] == 0;
      assert c in multiset(mine) - multiset(top);
      assert ClaimDate(c) <= ClaimDate(top[i]);
    }
  }

  /**
   * Time moves forward: when today is no earlier than every earlier claim of the
   * client, a successful claim heads the client's history.
   */
  lemma NewClaimHeadsHistory(s: State, clientId: string, today: int, dailyAmount: int,
                             client: Reply, balance: Reply, limit: nat)
    requires forall c :: c in s.claims && c.clientId == clientId ==> c.claimDate <= today
    requires limit >= 1
    ensures var r := ClaimDaily(s, clientId, today, dailyAmount, client, balance);
      r.Ok? ==> var h := ClaimHistory(r.value.state.claims, clientId, limit);
        |h.history| >= 1 && h.history[0].claimDate == today
  {
    var r := ClaimDaily(s, clientId, today, dailyAmount, client, balance);
    if r.Ok? {
      var claims := r.value.state.claims;
      var c := Claim(clientId, today);
      assert claims[|s.claims|] == c;
      HistoryHeadedByLatest(claims, c, limit);
    }
  }

  /** A claim no other claim of its client postdates gives the date at the head of the client's history. */
  lemma HistoryHeadedByLatest(claims: seq<Claim>, c: Claim, limit: nat)
    requires c in claims
    requires forall d :: d in claims && d.clientId == c.clientId ==> d.claimDate <= c.claimDate
    requires limit >= 1
    ensures var h := ClaimHistory(claims, c.clientId, limit);
      |h.history| >= 1 && h.history[0].claimDate == c.claimDate
  {
    var h := ClaimHistory(claims, c.clientId, limit);
    assert c in ClientClaims(claims, c.clientId);
    HeadIsLatest(claims, c, h.history);
  }

  lemma HeadIsLatest(claims: seq<Claim>, c: Claim, h: seq<HistoryEntry>)
    requires forall d :: d in claims && d.clientId == c.clientId ==> d.claimDate <= c.claimDate
    requires |h| >= 1
    requires forall i, j :: 0 <= i < j < |h| ==> h[i].claimDate >= h[j].claimDate
    requires forall i :: 0 <= i < |h| ==> Claim(c.clientId, h[i].claimDate) in claims
    requires c in claims && (Entry(c) !in h ==> c.claimDate <= h[0].claimDate)
    ensures h[0].claimDate == c.claimDate
  {
    if Entry(c) in h {
      var k :| 0 <= k < |h| && h[k] == Entry(c);
      if k > 0 {
        assert h[0].claimDate >= h[k].claimDate;
      }
    }
    assert Claim(c.clientId, h[0].claimDate) in claims;
  }
}

=== FILE: economy_ledger.dfy ===
/**
 * The economy service's ledger: every row names a receiver and a sender, and a
 * user's balance is (sum received) - (sum sent). A row therefore moves its
 * amount from its sender to its receiver, and a self-addressed row moves nothing.
 */
module EconomyLedger {
  import opened Common

  /** One row; `id` stands for the generated uuid. */
  datatype Op = Op(id: nat, receiverId: string, senderId: string, amount: int, description: string)

  /** The table in insertion order and the next id to hand out. */
  datatype Store = Store(ops: seq<Op>, nextId: nat)

  function Received(ops: seq<Op>, u: string): int
  {
    if |ops| == 0 then 0
    else Received(ops[..|ops| - 1], u) + (if ops[|ops| - 1].receiverId == u then ops[|ops| - 1].amount else 0)
  }

  function Sent(ops: seq<Op>, u: string): int
  {
    if |ops| == 0 then 0
    else Sent(ops[..|ops| - 1], u) + (if ops[|ops| - 1].senderId == u then ops[|ops| - 1].amount else 0)
  }

  /** `get_user_balance`: received minus sent. */
  function Balance(ops: seq<Op>, u: string): int
  {
    Received(ops, u) - Sent(ops, u)
  }

  /** What a single row does to u's balance. */
  function Effect(op: Op, u: string): int
  {
    (if op.receiverId == u then op.amount else 0) - (if op.senderId == u then op.amount else 0)
  }

  lemma BalanceAppend(ops: seq<Op>, op: Op, u: string)
    ensures Balance(ops + [op], u) == Balance(ops, u) + Effect(op, u)
  {
    assert (ops + [op])[..|ops|] == ops;
  }

  /** A self-addressed row (receiver == sender) leaves every balance as it was. */
  lemma SelfRowIsNeutral(ops: seq<Op>, op: Op, u: string)
    requires op.receiverId == op.senderId
    ensures Balance(ops + [op], u) == Balance(ops, u)
  {
    BalanceAppend(ops, op, u);
  }

  /** A row moves its amount from its sender to its receiver: the two balances' sum is unchanged. */
  lemma RowConservesPair(ops: seq<Op>, op: Op)
    ensures Balance(ops + [op], op.receiverId) + Balance(ops + [op], op.senderId)
            == Balance(ops, op.receiverId) + Balance(ops, op.senderId)
  {
    BalanceAppend(ops, op, op.receiverId);
    BalanceAppend(ops, op, op.senderId);
  }

  function Append(s: Store, receiver: string, sender: string, amount: int, description: string): (r: Store)
    ensures r.ops == s.ops + [Op(s.nextId, receiver, sender, amount, description)]
    ensures r.nextId == s.nextId + 1
  {
    Store(s.ops + [Op(s.nextId, receiver, sender, amount, description)], s.nextId + 1)
  }

  /**
   * `/balance/add`: the requested row as given, then a self-addressed row of
   * -|amount| for the sender. Under the received-minus-sent formula the second
   * row is neutral, so the receiver gains `amount` and the sender loses it.
   */
  function AddOperation(s: Store, receiver: string, sender: string, amount: int, description: string): (r: Store)
    ensures |r.ops| == |s.ops| + 2 && r.ops[..|s.ops|] == s.ops
    ensures r.ops[|s.ops| + 1].receiverId == sender && r.ops[|s.ops| + 1].senderId == sender
    ensures r.ops[|s.ops| + 1].amount == -Abs(amount)
    ensures receiver != sender ==> Balance(r.ops, receiver) == Balance(s.ops, receiver) + amount
    ensures receiver != sender ==> Balance(r.ops, sender) == Balance(s.ops, sender) - amount
    ensures receiver == sender ==> Balance(r.ops, sender) == Balance(s.ops, sender)
    ensures forall u :: u != receiver && u != sender ==> Balance(r.ops, u) == Balance(s.ops, u)
  {
    var s1 := Append(s, receiver, sender, amount, description);
    var s2 := Append(s1, sender, sender, -Abs(amount), description);
    forall u ensures Balance(s2.ops, u) == Balance(s.ops, u) + Effect(s1.ops[|s.ops|], u) {
      BalanceAppend(s.ops, s1.ops[|s.ops|], u);
      SelfRowIsNeutral(s1.ops, s2.ops[|s1.ops|], u);
    }
    assert s2.ops[..|s.ops|] == s.ops;
    s2
  }

  /**
   * `/balance/subtract`: the requested row as given (its amount is not negated),
   * then a second sender-to-receiver row of |amount|. Both rows move value from
   * sender to receiver, so for a positive amount the receiver gains 2*amount.
   */
  function SubtractOperation(s: Store, receiver: string, sender: string, amount: int, description: string): (r: Store)
    ensures |r.ops| == |s.ops| + 2 && r.ops[..|s.ops|] == s.ops
    ensures receiver != sender ==> Balance(r.ops, receiver) == Balance(s.ops, receiver) + amount + Abs(amount)
    ensures receiver != sender ==> Balance(r.ops, sender) == Balance(s.ops, sender) - amount - Abs(amount)
    ensures receiver == sender ==> Balance(r.ops, sender) == Balance(s.ops, sender)
    ensures forall u :: u != receiver && u != sender ==> Balance(r.ops, u) == Balance(s.ops, u)
  {
    var s1 := Append(s, receiver, sender, amount, description);
    var s2 := Append(s1, receiver, sender, Abs(amount), description);
    forall u ensures Balance(s2.ops, u) == Balance(s.ops, u) + Effect(s1.ops[|s.ops|], u) + Effect(s2.ops[|s1.ops|], u) {
      BalanceAppend(s.ops, s1.ops[|s.ops|], u);
      BalanceAppend(s1.ops, s2.ops[|s1.ops|], u);
    }
    assert s2.ops[..|s.ops|] == s.ops;
    s2
  }

  /**
   * `/balance/transaction`: a self-addressed -|amount| row for the sender and a
   * sender-to-receiver +|amount| row. The sender drops by |amount|, the receiver
   * gains |amount|, and nobody else moves. There is no sender == receiver check;
   * in that case nothing changes.
   */
  function CreateTransaction(s: Store, sender: string, receiver: string, amount: int, description: string): (r: Store)
    ensures |r.ops| == |s.ops| + 2 && r.ops[..|s.ops|] == s.ops
    ensures sender != receiver ==> Balance(r.ops, sender) == Balance(s.ops, sender) - Abs(amount)
    ensures sender != receiver ==> Balance(r.ops, receiver) == Balance(s.ops, receiver) + Abs(amount)
    ensures Balance(r.ops, sender) + Balance(r.ops, receiver) == Balance(s.ops, sender) + Balance(s.ops, receiver)
    ensures sender == receiver ==> Balance(r.ops, sender) == Balance(s.ops, sender)
    ensures forall u :: u != receiver && u != sender ==> Balance(r.ops, u) == Balance(s.ops, u)
  {
    var s1 := Append(s, sender, sender, -Abs(amount), description);
    var s2 := Append(s1, receiver, sender, Abs(amount), description);
    forall u ensures Balance(s2.ops, u) == Balance(s.ops, u) + Effect(s2.ops[|s1.ops|], u) {
      SelfRowIsNeutral(s.ops, s1.ops[|s.ops|], u);
      BalanceAppend(s1.ops, s2.ops[|s1.ops|], u);
    }
    assert s2.ops[..|s.ops|] == s.ops;
    s2
  }

  /** `get_user_operations`: the rows where u is receiver or sender, in table order. */
  function Operations(ops: seq<Op>, u: string): (r: seq<Op>)
    ensures |r| <= |ops|
    ensures forall op :: op in r ==> op in ops && (op.receiverId == u || op.senderId == u)
    ensures forall i :: 0 <= i < |ops| && (ops[i].receiverId == u || ops[i].senderId == u) ==> ops[i] in r
    ensures forall op {:trigger multiset(r)[op]} ::
      multiset(r)[op] == if op.receiverId == u || op.senderId == u then multiset(ops)[op] else 0
  {
    if |ops| == 0 then []
    else
      var prefix := Operations(ops[..|ops| - 1], u);
      assert forall i :: 0 <= i < |ops| - 1 ==> ops[..|ops| - 1][i] == ops[i];
      assert ops == ops[..|ops| - 1] + [ops[|ops| - 1]];
      var last := ops[|ops| - 1];
      if last.receiverId == u || last.senderId == u then prefix + [last] else prefix
  }

  /** Rows that do not mention u have no effect on u's balance: the listing holds everything the balance depends on. */
  lemma {:induction false} BalanceDependsOnlyOnOperations(ops: seq<Op>, u: string)
    ensures Balance(ops, u) == Balance(Operations(ops, u), u)
  {
    if |ops| > 0 {
      var init := ops[..|ops| - 1];
      var last := ops[|ops| - 1];
      assert ops == init + [last];
      BalanceDependsOnlyOnOperations(init, u);
      BalanceAppend(init, last, u);
      if last.receiverId == u || last.senderId == u {
        BalanceAppend(Operations(init, u), last, u);
      }
    }
  }

  /** Index of the first row with the given id (`.first()`), if any. */
  function FindOp(ops: seq<Op>, id: nat): (r: Option<nat>)
    ensures r.None? <==> forall i :: 0 <= i < |ops| ==> ops[i].id != id
    ensures r.Some? ==> r.value < |ops| && ops[r.value].id == id
    ensures r.Some? ==> forall i :: 0 <= i < r.value ==> ops[i].id != id
  {
    FirstIndex(ops, (o: Op) => o.id == id)
  }

  datatype UpdateError = OperationNotFound

  function UpdateStatus(e: UpdateError): int
  {
    404
  }

  /**
   * `update_balance_operation`: 404 for an unknown id; otherwise the found row
   * takes each supplied (non-None) field and keeps the others; no other row changes.
   */
  function UpdateOperation(s: Store, id: nat, amount: Option<int>, description: Option<string>)
    : (r: Result<Store, UpdateError>)
    ensures r.Err? <==> forall i :: 0 <= i < |s.ops| ==> s.ops[i].id != id
    ensures r.Ok? ==> |r.value.ops| == |s.ops| && r.value.nextId == s.nextId
    ensures r.Ok? ==> exists k :: (0 <= k < |s.ops| && s.ops[k].id == id
      && r.value.ops[k].id == id
      && r.value.ops[k].receiverId == s.ops[k].receiverId
      && r.value.ops[k].senderId == s.ops[k].senderId
      && r.value.ops[k].amount == (if amount.Some? then amount.value else s.ops[k].amount)
      && r.value.ops[k].description == (if description.Some? then description.value else s.ops[k].description)
      && forall j :: 0 <= j < |s.ops| && j != k ==> r.value.ops[j] == s.ops[j])
  {
    match FindOp(s.ops, id)
    case None => Err(OperationNotFound)
    case Some(k) =>
      var row := s.ops[k];
      var newAmount := if amount.Some? then amount.value else row.amount;
      var newDescription := if description.Some? then description.value else row.description;
      Ok(s.(ops := s.ops[k := row.(amount := newAmount, description := newDescription)]))
  }

  /** Replacing one row swaps that row's effect for the new row's, on every balance. */
  lemma {:induction false} BalanceReplace(ops: seq<Op>, k: nat, op: Op, u: string)
    requires k < |ops|
    ensures Balance(ops[k := op], u) == Balance(ops, u) - Effect(ops[k], u) + Effect(op, u)
  {
    var n := |ops| - 1;
    var init := ops[..n];
    assert ops == init + [ops[n]];
    if k == n {
      assert ops[k := op] == init + [op];
      BalanceAppend(init, op, u);
      BalanceAppend(init, ops[n], u);
    } else {
      assert ops[k := op] == init[k := op] + [ops[n]];
      BalanceReplace(init, k, op, u);
      BalanceAppend(init[k := op], ops[n], u);
      BalanceAppend(init, ops[n], u);
    }
  }

  /**
   * Editing a row's amount from a to a' moves its receiver's balance by a' - a
   * and its sender's by a - a'; every other balance, and every balance when the
   * row is self-addressed, is unchanged. A description edit moves nothing.
   */
  lemma UpdateMovesBalances(s: Store, id: nat, amount: Option<int>, description: Option<string>, u: string)
    ensures var r := UpdateOperation(s, id, amount, description);
      r.Ok? ==>
        var row := s.ops[FindOp(s.ops, id).value];
        var delta := (if amount.Some? then amount.value else row.amount) - row.amount;
        && (u != row.receiverId && u != row.senderId ==> Balance(r.value.ops, u) == Balance(s.ops, u))
        && (row.receiverId == row.senderId ==> Balance(r.value.ops, u) == Balance(s.ops, u))
        && (row.receiverId != row.senderId ==>
              && Balance(r.value.ops, row.receiverId) == Balance(s.ops, row.receiverId) + delta
              && Balance(r.value.ops, row.senderId) == Balance(s.ops, row.senderId) - delta)
  {
    var r := UpdateOperation(s, id, amount, description);
    if r.Ok? {
      var k := FindOp(s.ops, id).value;
      var row := s.ops[k];
      var edited := row.(amount := if amount.Some? then amount.value else row.amount,
                         description := if description.Some? then description.value else row.description);
      assert r.value.ops == s.ops[k := edited];
      BalanceReplace(s.ops, k, edited, u);
      BalanceReplace(s.ops, k, edited, row.receiverId);
      BalanceReplace(s.ops, k, edited, row.senderId);
    }
  }
}

=== FILE: event_commands.dfy ===
/**
 * The event slash commands on top of the event repositories: placing a bet
 * (an ordered chain of checks where the first failure wins), closing an event,
 * ending it with a draw or a winner, and paging through the open and closed
 * events. Discord messages are reduced to the outcome they report.
 */
module EventCommands {
  import opened Common
  import CoinHistory
  import LegacyEvents

  /** PHP's `strtoupper` on ASCII letters. */
  function ToUpper(s: string): (r: string)
    ensures |r| == |s|
    ensures forall i :: 0 <= i < |s| ==> r[i] == (if 'a' <= s[i] <= 'z' then (s[i] as int - 32) as char else s[i])
  {
    if |s| == 0 then [] else [if 'a' <= s[0] <= 'z' then (s[0] as int - 32) as char else s[0]] + ToUpper(s[1..])
  }

  /** Lower-case choices are accepted: they are upper-cased before being checked. */
  lemma LowerCaseChoiceIsUpperCased()
    ensures ToUpper("a") == "A" && ToUpper("b") == "B" && ToUpper("B") == "B"
  {
  }

  datatype BetRefusal =
    | InvalidEventId
    | NoInitialCoins
    | EventMissing
    | EventNotOpen
    | AlreadyBet
    | InvalidAmount
    | InsufficientCoins
    | InvalidChoice
    | BetNotCreated

  /**
   * `betEventBet`. `eventId` and `amount` are the submitted texts, `None` when they
   * are not numeric. Checks, first failure wins: a numeric event id, a registered
   * user, an existing event, an OPEN event, no open bet of the user on it, a
   * positive amount, enough coins, a choice 'A' or 'B' (after upper-casing).
   * Only then is the bet created.
   */
  function BetCommand(w: LegacyEvents.World, discordId: int, eventId: Option<int>, choice: string, amount: Option<int>,
                      note: string, day: int, ok: bool): (r: Result<LegacyEvents.World, BetRefusal>)
    ensures eventId.None? ==> r == Err(InvalidEventId)
    ensures eventId.Some? && !CoinHistory.UserExistByDiscordId(w.coins, discordId) ==> r == Err(NoInitialCoins)
    ensures r.Ok? ==> eventId.Some? && amount.Some?
    ensures r.Ok? <==>
      && eventId.Some? && amount.Some?
      && CoinHistory.UserExistByDiscordId(w.coins, discordId)
      && LegacyEvents.StatusOf(w.events, eventId.value) == Some(LegacyEvents.Open)
      && !LegacyEvents.DidUserBet(w, CoinHistory.GetByDiscordId(w.coins.users, discordId).value, eventId.value)
      && amount.value > 0
      && CoinHistory.HasAvailableCoins(w.coins, discordId, amount.value)
      && (ToUpper(choice) == "A" || ToUpper(choice) == "B")
      && LegacyEvents.PlaceBet(w, discordId, eventId.value, ToUpper(choice), amount.value, note, day, ok).Ok?
    ensures r.Ok? ==> r.value == LegacyEvents.PlaceBet(w, discordId, eventId.value, ToUpper(choice), amount.value, note, day, ok).value
    ensures r.Err? && r.error == AlreadyBet ==> eventId.Some? && LegacyEvents.StatusOf(w.events, eventId.value) == Some(LegacyEvents.Open)
    ensures r.Err? && r.error == InsufficientCoins ==> amount.Some? && amount.value > 0
    ensures r.Err? && r.error == InvalidChoice ==> amount.Some? && CoinHistory.HasAvailableCoins(w.coins, discordId, amount.value)
    ensures eventId.Some? && CoinHistory.UserExistByDiscordId(w.coins, discordId) ==>
      var status, u := LegacyEvents.StatusOf(w.events, eventId.value), CoinHistory.GetByDiscordId(w.coins.users, discordId).value;
      && (status.None? ==> r == Err(EventMissing))
      && (status.Some? && status != Some(LegacyEvents.Open) ==> r == Err(EventNotOpen))
      && (status == Some(LegacyEvents.Open) && LegacyEvents.DidUserBet(w, u, eventId.value) ==> r == Err(AlreadyBet))
      && (status == Some(LegacyEvents.Open) && !LegacyEvents.DidUserBet(w, u, eventId.value) && amount.None?
          ==> r == Err(InvalidAmount))
      && (status == Some(LegacyEvents.Open) && !LegacyEvents.DidUserBet(w, u, eventId.value) && amount.Some?
          && amount.value <= 0
          ==> r == Err(InvalidAmount))
      && (status == Some(LegacyEvents.Open) && !LegacyEvents.DidUserBet(w, u, eventId.value)
          && amount.Some? && amount.value > 0 && !CoinHistory.HasAvailableCoins(w.coins, discordId, amount.value)
          ==> r == Err(InsufficientCoins))
      && (status == Some(LegacyEvents.Open) && !LegacyEvents.DidUserBet(w, u, eventId.value)
          && amount.Some? && amount.value > 0 && CoinHistory.HasAvailableCoins(w.coins, discordId, amount.value)
          && ToUpper(choice) != "A" && ToUpper(choice) != "B"
          ==> r == Err(InvalidChoice))
      && (status == Some(LegacyEvents.Open) && !LegacyEvents.DidUserBet(w, u, eventId.value)
          && amount.Some? && amount.value > 0 && CoinHistory.HasAvailableCoins(w.coins, discordId, amount.value)
          && (ToUpper(choice) == "A" || ToUpper(choice) == "B")
          && LegacyEvents.PlaceBet(w, discordId, eventId.value, ToUpper(choice), amount.value, note, day, ok).Err?
          ==> r == Err(BetNotCreated))
  {
    if eventId.None? then Err(InvalidEventId)
    else
      var user := CoinHistory.GetByDiscordId(w.coins.users, discordId);
      var letter := ToUpper(choice);
      if user.None? then Err(NoInitialCoins)
      else if LegacyEvents.StatusOf(w.events, eventId.value).None? then Err(EventMissing)
      else if LegacyEvents.StatusOf(w.events, eventId.value) != Some(LegacyEvents.Open) then Err(EventNotOpen)
      else if LegacyEvents.DidUserBet(w, user.value, eventId.value) then Err(AlreadyBet)
      else if amount.None? || amount.value <= 0 then Err(InvalidAmount)
      else if !CoinHistory.HasAvailableCoins(w.coins, discordId, amount.value) then Err(InsufficientCoins)
      else if letter != "A" && letter != "B" then Err(InvalidChoice)
      else
        match LegacyEvents.PlaceBet(w, discordId, eventId.value, letter, amount.value, note, day, ok)
        case Err(_) => Err(BetNotCreated)
        case Ok(n) => Ok(n)
  }

  /** A bet the command accepts never leaves the bettor's coins below zero. */
  lemma CommandBetNeverOverdraws(w: LegacyEvents.World, discordId: int, eventId: Option<int>, choice: string,
                                 amount: Option<int>, note: string, day: int, ok: bool)
    ensures var r := BetCommand(w, discordId, eventId, choice, amount, note, day, ok);
      r.Ok? ==> CoinHistory.Total(r.value.coins.users, r.value.coins.rows, discordId) >= 0
  {
    var r := BetCommand(w, discordId, eventId, choice, amount, note, day, ok);
    if r.Ok? {
      CoinHistory.HasAvailableCoinsMeaning(w.coins, discordId, amount.value);
    }
  }

  /** After an accepted bet, the same user's next bet on the still-open event is refused as a repeat. */
  lemma SecondBetRefused(w: LegacyEvents.World, discordId: int, eventId: Option<int>, choice: string, amount: Option<int>,
                         note: string, day: int, ok: bool,
                         choice2: string, amount2: Option<int>, note2: string, day2: int, ok2: bool)
    ensures var r := BetCommand(w, discordId, eventId, choice, amount, note, day, ok);
      r.Ok? ==> BetCommand(r.value, discordId, eventId, choice2, amount2, note2, day2, ok2) == Err(AlreadyBet)
  {
    var r := BetCommand(w, discordId, eventId, choice, amount, note, day, ok);
    if r.Ok? {
      var n := r.value;
      var u := CoinHistory.GetByDiscordId(w.coins.users, discordId).value;
      assert n.bets[|w.bets|].userId == u.id && n.bets[|w.bets|].eventId == eventId.value;
      LegacyEvents.DidUserBetIff(n, u, eventId.value);
    }
  }

  datatype CloseRefusal = MustBeOpen | Missing | SaveError

  /**
   * `closeEvent` command. The status is tested before existence. In the source a
   * missing event makes the non-nullable `getEventById` throw before either test;
   * the model instead gives a missing event a NULL status, which the status test
   * refuses as "must be open".
   */
  function CloseCommand(w: LegacyEvents.World, eventId: int, saved: bool): (r: Result<LegacyEvents.World, CloseRefusal>)
    ensures r.Ok? <==> LegacyEvents.StatusOf(w.events, eventId) == Some(LegacyEvents.Open) && saved
    ensures LegacyEvents.StatusOf(w.events, eventId) != Some(LegacyEvents.Open) ==> r == Err(MustBeOpen)
    ensures r.Err? && r.error == SaveError ==> !saved
    ensures r.Ok? ==> LegacyEvents.StatusOf(r.value.events, eventId) == Some(LegacyEvents.Closed)
    ensures r.Ok? ==> r.value.bets == w.bets && r.value.coins == w.coins
  {
    var status := LegacyEvents.StatusOf(w.events, eventId);
    if status != Some(LegacyEvents.Open) then Err(MustBeOpen)
    else if status.None? then Err(Missing)
    else
      match LegacyEvents.CloseEvent(w, eventId, saved)
      case Err(_) => Err(SaveError)
      case Ok(n) => Ok(n)
  }

  /** The existence check comes too late to fire: no input yields `Missing`. */
  lemma CloseNeverReportsMissing(w: LegacyEvents.World, eventId: int, saved: bool)
    ensures CloseCommand(w, eventId, saved) != Err(Missing)
  {
  }

  datatype EndRefusal = NotFound | AlreadyPaid | NotClosed | DrawError

  /** What the end command reports: a draw, the "no bets" message, or the winners. */
  datatype EndReply = Drew | NoBets | WinnersListed(winners: seq<LegacyEvents.Winner>)

  datatype Ended = Ended(world: LegacyEvents.World, reply: EndReply)

  /** The label that ends an event as a draw. */
  const DrawLabel: string := "Empate"

  /** The winner lines whose letter is the given one, in order. */
  function KeepLetter(ws: seq<LegacyEvents.Winner>, letter: string): (r: seq<LegacyEvents.Winner>)
    ensures forall x :: x in r <==> x in ws && x.choice == letter
    ensures forall x :: multiset(r)[x] == if x.choice == letter then multiset(ws)[x] else 0
    ensures |r| <= |ws|
  {
    Filter(ws, (x: LegacyEvents.Winner) => x.choice == letter)
  }

  /**
   * `endEvent`: refused for a missing event, an already PAID event, or any status
   * other than CLOSED. "Empate" runs the draw; any other label runs the payout, whose
   * empty winner list is reported as "no bets" and otherwise lists the winners
   * whose choice equals the label.
   */
  function EndCommand(w: LegacyEvents.World, eventId: int, letter: string, earnings: LegacyEvents.Bet -> int,
                      day: int, ok: bool): (r: Result<Ended, EndRefusal>)
    ensures LegacyEvents.StatusOf(w.events, eventId).None? ==> r == Err(NotFound)
    ensures LegacyEvents.StatusOf(w.events, eventId) == Some(LegacyEvents.Paid) ==> r == Err(AlreadyPaid)
    ensures r.Ok? ==> LegacyEvents.StatusOf(w.events, eventId) == Some(LegacyEvents.Closed)
    ensures r.Err? && r.error == DrawError ==> letter == DrawLabel && !ok
    ensures r.Ok? && letter == DrawLabel ==> r.value.reply == Drew
                                             && LegacyEvents.StatusOf(r.value.world.events, eventId) == Some(LegacyEvents.Draw)
    ensures r.Ok? && letter != DrawLabel && ok ==>
              LegacyEvents.StatusOf(r.value.world.events, eventId) == Some(LegacyEvents.Paid)
    ensures r.Ok? && letter != DrawLabel && !ok ==> r.value == Ended(w, NoBets)
    ensures LegacyEvents.StatusOf(w.events, eventId).Some? ==>
              var status := LegacyEvents.StatusOf(w.events, eventId);
              status != Some(LegacyEvents.Paid) && status != Some(LegacyEvents.Closed) ==> r == Err(NotClosed)
    ensures LegacyEvents.StatusOf(w.events, eventId) == Some(LegacyEvents.Closed) ==>
              r.Ok? || (letter == DrawLabel && r == Err(DrawError))
    ensures r.Ok? && letter == DrawLabel ==> LegacyEvents.DrawEvent(w, eventId, day, ok) == Ok(r.value.world)
    ensures r.Ok? && letter != DrawLabel ==>
              var p := LegacyEvents.PayoutEvent(w, eventId, letter, earnings, day, ok).value;
              && r.value.world == p.world
              && (r.value.reply == NoBets <==> |p.winners| == 0)
  {
    var status := LegacyEvents.StatusOf(w.events, eventId);
    if status.None? then Err(NotFound)
    else if status == Some(LegacyEvents.Paid) then Err(AlreadyPaid)
    else if status != Some(LegacyEvents.Closed) then Err(NotClosed)
    else if letter == DrawLabel then
      match LegacyEvents.DrawEvent(w, eventId, day, ok)
      case Err(_) => Err(DrawError)
      case Ok(n) => Ok(Ended(n, Drew))
    else
      var p := LegacyEvents.PayoutEvent(w, eventId, letter, earnings, day, ok).value;
      if |p.winners| == 0 then Ok(Ended(p.world, NoBets))
      else Ok(Ended(p.world, WinnersListed(KeepLetter(p.winners, letter))))
  }

  /** With unique choice ids, the command lists every winner the payout produced. */
  lemma EndListsEveryWinner(w: LegacyEvents.World, eventId: int, letter: string, earnings: LegacyEvents.Bet -> int,
                            day: int, ok: bool)
    requires LegacyEvents.Inv(w)
    ensures var r := EndCommand(w, eventId, letter, earnings, day, ok);
      r.Ok? && r.value.reply.WinnersListed? ==>
        r.value.reply.winners == LegacyEvents.PayoutEvent(w, eventId, letter, earnings, day, ok).value.winners
  {
    var r := EndCommand(w, eventId, letter, earnings, day, ok);
    if r.Ok? && r.value.reply.WinnersListed? {
      var p := LegacyEvents.PayoutEvent(w, eventId, letter, earnings, day, ok).value;
      LegacyEvents.WinnersCarryTheLetter(w, eventId, letter, earnings, day, ok);
      FilterKeepsAll(p.winners, (x: LegacyEvents.Winner) => x.choice == letter);
    }
  }

  /** The event list being paged through and the current page (an index into it). */
  datatype Listing = Listing(events: seq<LegacyEvents.Event>, page: int)

  /** The events in one status, in table order. */
  function WithStatus(events: seq<LegacyEvents.Event>, status: int): (r: seq<LegacyEvents.Event>)
    ensures forall e :: e in r <==> e in events && e.status == status
    ensures forall e :: multiset(r)[e] == if e.status == status then multiset(events)[e] else 0
    ensures |r| <= |events|
  {
    Filter(events, (e: LegacyEvents.Event) => e.status == status)
  }

  predicate PageValid(l: Listing)
  {
    0 <= l.page < |l.events|
  }

  /**
   * `listEvents`: the OPEN events followed by the CLOSED ones, on page 0; `None`
   * (the "no events" message, no paging) when there are none.
   */
  function ListEvents(w: LegacyEvents.World): (r: Option<Listing>)
    ensures r.None? <==> forall e :: e in w.events ==> e.status != LegacyEvents.Open && e.status != LegacyEvents.Closed
    ensures r.Some? ==> r.value.page == 0 && PageValid(r.value)
    ensures r.Some? ==> forall e :: e in r.value.events <==>
                          e in w.events && (e.status == LegacyEvents.Open || e.status == LegacyEvents.Closed)
    ensures r.Some? ==> forall i, j :: 0 <= i < j < |r.value.events| && r.value.events[j].status == LegacyEvents.Open
                                       ==> r.value.events[i].status == LegacyEvents.Open
    ensures r.Some? ==> forall e :: multiset(r.value.events)[e]
                                    == if e.status == LegacyEvents.Open || e.status == LegacyEvents.Closed
                                       then multiset(w.events)[e] else 0
  {
    var openOnes := WithStatus(w.events, LegacyEvents.Open);
    var closedOnes := WithStatus(w.events, LegacyEvents.Closed);
    var all := openOnes + closedOnes;
    OpenBeforeClosed(openOnes, closedOnes);
    if |all| == 0 then
      assert forall e :: e in w.events && e.status == LegacyEvents.Open ==> e in openOnes;
      None
    else
      assert all[0] in openOnes || all[0] in closedOnes;
      Some(Listing(all, 0))
  }

  lemma OpenBeforeClosed(openOnes: seq<LegacyEvents.Event>, closedOnes: seq<LegacyEvents.Event>)
    requires forall e :: e in openOnes ==> e.status == LegacyEvents.Open
    requires forall e :: e in closedOnes ==> e.status == LegacyEvents.Closed
    ensures var all := openOnes + closedOnes;
      forall i, j :: 0 <= i < j < |all| && all[j].status == LegacyEvents.Open ==> all[i].status == LegacyEvents.Open
  {
    var all := openOnes + closedOnes;
    forall k | 0 <= k < |all|
      ensures all[k].status == (if k < |openOnes| then LegacyEvents.Open else LegacyEvents.Closed)
    {
      if k < |openOnes| {
        assert all[k] == openOnes[k];
      } else {
        assert all[k] == closedOnes[k - |openOnes|];
      }
    }
  }

  /** `listEventsBackward`: at the first page nothing happens; otherwise one page back. */
  function Backward(l: Listing): (r: Listing)
    ensures r.events == l.events
    ensures l.page == 0 ==> r == l
    ensures l.page != 0 ==> r.page == l.page - 1
    ensures PageValid(l) ==> PageValid(r)
  {
    if l.page - 1 == -1 then l else l.(page := l.page - 1)
  }

  /** `listEventsForward`: at the last page nothing happens; otherwise one page on. */
  function Forward(l: Listing): (r: Listing)
    ensures r.events == l.events
    ensures l.page + 1 == |l.events| ==> r == l
    ensures l.page + 1 != |l.events| ==> r.page == l.page + 1
    ensures PageValid(l) ==> PageValid(r)
  {
    if l.page + 1 == |l.events| then l else l.(page := l.page + 1)
  }

  /** The footer "page X of N". */
  function Footer(l: Listing): (r: (int, int))
    requires PageValid(l)
    ensures 1 <= r.0 <= r.1 == |l.events|
    ensures r.0 == l.page + 1
  {
    (l.page + 1, |l.events|)
  }

  /** Buttons only ever move between valid pages: forward then back from a non-last page returns to it. */
  lemma ForwardThenBackward(l: Listing)
    requires PageValid(l) && l.page + 1 < |l.events|
    ensures Backward(Forward(l)) == l
  {
  }

  /** From the first page, k presses of "forward" reach page min(k, N - 1). */
  lemma {:induction false} ForwardPresses(l: Listing, k: nat)
    requires PageValid(l) && l.page == 0
    ensures PressForward(l, k).page == Min(k, |l.events| - 1)
  {
    if k > 0 {
      ForwardPresses(l, k - 1);
    }
  }

  function PressForward(l: Listing, k: nat): (r: Listing)
    requires PageValid(l)
    ensures PageValid(r) && r.events == l.events
  {
    if k == 0 then l else Forward(PressForward(l, k - 1))
  }
}

=== FILE: jokenpo.dfy ===
/**
 * Rock-paper-scissors-lizard-Spock against the bot: the rules table, the
 * outcome of one player's move against the bot's, the list of players (one
 * move per Discord id) and the evaluation of every move.
 */
module Jokenpo {
  import opened Common

  datatype Move = Tesoura | Papel | Pedra | Lagarto | Spock

  /** The possible moves, in the order `setBotMove` draws from. */
  const Moves: seq<Move> := [Tesoura, Papel, Pedra, Lagarto, Spock]

  /** The rules table: the two moves each move beats. */
  function Beats(m: Move): seq<Move>
  {
    match m
    case Tesoura => [Papel, Lagarto]
    case Papel => [Pedra, Spock]
    case Pedra => [Lagarto, Tesoura]
    case Lagarto => [Spock, Papel]
    case Spock => [Tesoura, Pedra]
  }

  /** Every move beats two distinct moves other than itself. */
  lemma EachMoveBeatsTwo(m: Move)
    ensures |Beats(m)| == 2 && Beats(m)[0] != Beats(m)[1] && m !in Beats(m)
  {
  }

  /** Of two distinct moves exactly one beats the other; no move beats itself. */
  lemma ExactlyOneWins(a: Move, b: Move)
    ensures a != b ==> ((b in Beats(a)) <==> (a !in Beats(b)))
    ensures a == b ==> b !in Beats(a)
  {
  }

  datatype Outcome = Empate | Ganhou | Perdeu

  /**
   * `getOutcome(move1, move2)`. The bot's move may still be unset: PHP's loose
   * `in_array(null, …)` finds no move equal to null, so the player loses.
   */
  function GetOutcome(move1: Move, move2: Option<Move>): (r: Outcome)
    ensures r == Empate <==> move2 == Some(move1)
    ensures r == Ganhou <==> move2.Some? && move2.value in Beats(move1)
    ensures move2.None? ==> r == Perdeu
  {
    if move2 == Some(move1) then Empate
    else if move2.Some? && move2.value in Beats(move1) then Ganhou
    else Perdeu
  }

  /** Swapping the two moves swaps winning and losing and keeps a tie. */
  lemma OutcomeSwaps(a: Move, b: Move)
    ensures GetOutcome(a, Some(b)) == Ganhou <==> GetOutcome(b, Some(a)) == Perdeu
    ensures GetOutcome(a, Some(b)) == Empate <==> GetOutcome(b, Some(a)) == Empate
  {
    ExactlyOneWins(a, b);
  }

  datatype Player = Player(discordId: int, move: Move, result: Option<Outcome>)

  datatype Game = Game(id: int, players: seq<Player>, botMove: Option<Move>)

  /** No Discord id plays twice in a game. */
  predicate DistinctPlayers(players: seq<Player>)
  {
    forall i, j :: 0 <= i < j < |players| ==> players[i].discordId != players[j].discordId
  }

  predicate HasPlayed(players: seq<Player>, discordId: int)
  {
    exists i :: 0 <= i < |players| && players[i].discordId == discordId
  }

  /** `setPlayerMove`: refused, with the game unchanged, when the Discord id already played; appended otherwise. */
  function SetPlayerMove(g: Game, p: Player): (r: (Game, bool))
    ensures !r.1 <==> HasPlayed(g.players, p.discordId)
    ensures !r.1 ==> r.0 == g
    ensures r.1 ==> r.0 == g.(players := g.players + [p])
  {
    if HasPlayed(g.players, p.discordId) then (g, false) else (g.(players := g.players + [p]), true)
  }

  /** Accepting moves keeps one move per Discord id, and the same id is refused the second time. */
  lemma SetPlayerMoveKeepsPlayersDistinct(g: Game, p: Player, q: Player)
    requires DistinctPlayers(g.players)
    ensures DistinctPlayers(SetPlayerMove(g, p).0.players)
    ensures q.discordId == p.discordId ==> !SetPlayerMove(SetPlayerMove(g, p).0, q).1
  {
    var n := SetPlayerMove(g, p).0;
    if SetPlayerMove(g, p).1 {
      assert n.players[|g.players|].discordId == p.discordId;
    } else {
      var i :| 0 <= i < |g.players| && g.players[i].discordId == p.discordId;
      assert n.players[i].discordId == p.discordId;
    }
  }

  /** `setBotMove`: `array_rand` picks an index of the moves; `pick` is that index. */
  function SetBotMove(g: Game, pick: int): (r: Game)
    requires 0 <= pick < |Moves|
    ensures r.botMove.Some? && r.id == g.id && r.players == g.players
  {
    g.(botMove := Some(Moves[pick]))
  }

  /** Every move can be the bot's: each is in the list it draws from. */
  lemma EveryMoveCanBeDrawn(g: Game, m: Move)
    ensures exists pick :: 0 <= pick < |Moves| && SetBotMove(g, pick).botMove == Some(m)
  {
    var pick := match m case Tesoura => 0 case Papel => 1 case Pedra => 2 case Lagarto => 3 case Spock => 4;
    assert SetBotMove(g, pick).botMove == Some(m);
  }

  /**
   * `evaluateMoves`: every player, in order, with the result of their move
   * against the bot's.
   */
  function EvaluateMoves(g: Game): (r: seq<Player>)
    ensures |r| == |g.players|
    ensures forall i :: 0 <= i < |r| ==> r[i].discordId == g.players[i].discordId && r[i].move == g.players[i].move
    ensures forall i :: 0 <= i < |r| ==> r[i].result.Some?
    ensures forall i :: 0 <= i < |r| ==> (r[i].result == Some(Ganhou) <==> g.botMove.Some? && g.botMove.value in Beats(r[i].move))
    ensures forall i :: 0 <= i < |r| ==> (r[i].result == Some(Empate) <==> g.botMove == Some(r[i].move))
  {
    seq(|g.players|, i requires 0 <= i < |g.players| => g.players[i].(result := Some(GetOutcome(g.players[i].move, g.botMove))))
  }

  /** Exactly two of the five moves win against any bot move, and exactly one ties. */
  lemma TwoMovesWinOneTies(bot: Move)
    ensures |set m | m in Moves && GetOutcome(m, Some(bot)) == Ganhou| == 2
    ensures |set m | m in Moves && GetOutcome(m, Some(bot)) == Empate| == 1
  {
    var winners := set m | m in Moves && GetOutcome(m, Some(bot)) == Ganhou;
    var ties := set m | m in Moves && GetOutcome(m, Some(bot)) == Empate;
    assert ties == {bot} by {
      forall m ensures m in ties <==> m == bot {
        MoveListed(m);
      }
    }
    var beaters := BeatenBy(bot);
    assert winners == {beaters.0, beaters.1} by {
      forall m ensures m in winners <==> m == beaters.0 || m == beaters.1 {
        MoveListed(m);
      }
    }
  }

  /** Every move is among those the bot draws from. */
  lemma MoveListed(m: Move)
    ensures m in Moves
  {
    match m
    case Tesoura => assert Moves[0] == m;
    case Papel => assert Moves[1] == m;
    case Pedra => assert Moves[2] == m;
    case Lagarto => assert Moves[3] == m;
    case Spock => assert Moves[4] == m;
  }

  /** The two moves that beat m. */
  function BeatenBy(m: Move): (r: (Move, Move))
    ensures r.0 != r.1
    ensures forall a :: m in Beats(a) <==> a == r.0 || a == r.1
  {
    match m
    case Tesoura => (Pedra, Spock)
    case Papel => (Tesoura, Lagarto)
    case Pedra => (Papel, Spock)
    case Lagarto => (Tesoura, Pedra)
    case Spock => (Papel, Lagarto)
  }
}

=== FILE: jokenpo_play.dfy ===
/**
 * A Jokenpo round as the bot runs it: a move costs a 200-coin entry fee,
 * checked and charged through the coin history; when the round ends every
 * move is evaluated against the bot's and each winner is credited 400.
 */
module JokenpoPlay {
  import opened Common
  import opened Jokenpo
  import CoinHistory

  const EntryFee: int := 200
  const Prize: int := 400

  /** A `jokenpo_players` row. `userId` is the looked-up user id, NULL when the lookup found nobody. */
  datatype PlayerRow = PlayerRow(gameId: int, userId: Option<int>, move: Move, amount: int, result: Option<Outcome>)

  /** The game kept in Redis, the coin history, and the player rows. */
  datatype Table = Table(game: Game, coins: CoinHistory.Db, rows: seq<PlayerRow>)

  datatype Refusal = NotEnoughCoins | AlreadyPlayed

  /** `getByDiscordId(d)['id']`, NULL for an unknown Discord id. */
  function UserIdOf(db: CoinHistory.Db, discordId: int): (r: Option<int>)
    ensures r.Some? <==> CoinHistory.UserExistByDiscordId(db, discordId)
  {
    CoinHistory.UserExistsIffFound(db, discordId);
    match CoinHistory.GetByDiscordId(db.users, discordId)
    case None => None
    case Some(u) => Some(u.id)
  }

  /** Passing the coin check for a positive amount means some user carries the Discord id. */
  lemma AvailableCoinsMeansKnownUser(db: CoinHistory.Db, discordId: int, amount: int)
    requires amount > 0
    requires CoinHistory.HasAvailableCoins(db, discordId, amount)
    ensures CoinHistory.UserExistByDiscordId(db, discordId)
  {
    assert CoinHistory.HasRows(db.users, db.rows, discordId);
    var i :| 0 <= i < |db.rows| && CoinHistory.OwnedBy(db.users, db.rows[i].userId, discordId);
    var k :| 0 <= k < |db.users| && db.users[k].id == db.rows[i].userId && db.users[k].discordId == discordId;
  }

  /**
   * `playJokenpo`: refused for fewer than 200 coins, then refused for a second
   * move, in both cases before anything is charged or stored. Otherwise the move
   * joins the game, 200 is debited (the spend's own result is not checked) and a
   * player row with amount 200 is written. `note` is the JSON description.
   */
  function PlayJokenpo(t: Table, discordId: int, move: Move, note: string, day: int): (r: Result<Table, Refusal>)
    ensures r.Err? <==> !CoinHistory.HasAvailableCoins(t.coins, discordId, EntryFee) || HasPlayed(t.game.players, discordId)
    ensures r.Err? ==> r.error == (if !CoinHistory.HasAvailableCoins(t.coins, discordId, EntryFee) then NotEnoughCoins else AlreadyPlayed)
    ensures r.Ok? ==> r.value.game == t.game.(players := t.game.players + [Player(discordId, move, None)])
    ensures r.Ok? ==> CoinHistory.Total(r.value.coins.users, r.value.coins.rows, discordId)
                      == CoinHistory.Total(t.coins.users, t.coins.rows, discordId) - EntryFee >= 0
    ensures r.Ok? ==> r.value.coins.users == t.coins.users && r.value.coins.nextUserId == t.coins.nextUserId
    ensures r.Ok? ==> UserIdOf(t.coins, discordId).Some?
    ensures r.Ok? ==> r.value.rows == t.rows + [PlayerRow(t.game.id, UserIdOf(t.coins, discordId), move, EntryFee, None)]
  {
    if !CoinHistory.HasAvailableCoins(t.coins, discordId, EntryFee) then Err(NotEnoughCoins)
    else
      var (game, accepted) := SetPlayerMove(t.game, Player(discordId, move, None));
      if !accepted then Err(AlreadyPlayed)
      else
        AvailableCoinsMeansKnownUser(t.coins, discordId, EntryFee);
        CoinHistory.GuardedSpendNeverOverdraws(t.coins, discordId, EntryFee, "Jokenpo", note, day);
        var coins := CoinHistory.SpendCoins(t.coins, discordId, -EntryFee, "Jokenpo", note, day).value;
        var uid := UserIdOf(t.coins, discordId);
        Ok(Table(game, coins, t.rows + [PlayerRow(t.game.id, uid, move, EntryFee, None)]))
  }

  /** The number of winning entries for a Discord id. */
  function WinCount(players: seq<Player>, discordId: int): nat
  {
    if |players| == 0 then 0
    else
      var last := players[|players| - 1];
      WinCount(players[..|players| - 1], discordId) + (if last.discordId == discordId && last.result == Some(Ganhou) then 1 else 0)
  }

  /** With one entry per Discord id, a Discord id wins once when its entry won and never otherwise. */
  lemma {:induction false} WinCountOfDistinct(players: seq<Player>, discordId: int)
    requires DistinctPlayers(players)
    ensures WinCount(players, discordId)
            == (if exists i :: 0 <= i < |players| && players[i].discordId == discordId && players[i].result == Some(Ganhou) then 1 else 0)
  {
    if |players| > 0 {
      var init := players[..|players| - 1];
      var last := players[|players| - 1];
      assert forall i :: 0 <= i < |init| ==> init[i] == players[i];
      WinCountOfDistinct(init, discordId);
      if last.discordId == discordId {
        forall i | 0 <= i < |init| ensures init[i].discordId != discordId {
          assert players[i].discordId != players[|players| - 1].discordId;
        }
      }
    }
  }

  /** The prize loop: +400 for every winning entry, through `spendCoins` (which fails for an unknown Discord id). */
  function PayWinners(db: CoinHistory.Db, players: seq<Player>, note: string, day: int): (r: CoinHistory.Db)
    requires CoinHistory.Inv(db)
    ensures r.users == db.users && r.nextUserId == db.nextUserId
    ensures forall d :: CoinHistory.Total(r.users, r.rows, d)
                        == CoinHistory.Total(db.users, db.rows, d)
                           + (if CoinHistory.UserExistByDiscordId(db, d) then Prize * WinCount(players, d) else 0)
  {
    if |players| == 0 then db
    else
      var last := players[|players| - 1];
      var prev := PayWinners(db, players[..|players| - 1], note, day);
      assert CoinHistory.Inv(prev);
      if last.result == Some(Ganhou) then
        match CoinHistory.SpendCoins(prev, last.discordId, Prize, "Jokenpo", note, day)
        case Err(_) => prev
        case Ok(next) =>
          assert forall d :: d != last.discordId ==> CoinHistory.Total(next.users, next.rows, d) == CoinHistory.Total(prev.users, prev.rows, d) by {
            forall d | d != last.discordId
              ensures CoinHistory.Total(next.users, next.rows, d) == CoinHistory.Total(prev.users, prev.rows, d)
            {
              CoinHistory.SpendTouchesOnlyThatUser(prev, last.discordId, Prize, "Jokenpo", note, day, d);
            }
          }
          next
      else prev
  }

  /** `where(jokenpo_id)->where(user_id)->update(result)`: every row of that game and looked-up user gets the result. */
  function SetResult(rows: seq<PlayerRow>, gameId: int, userId: Option<int>, result: Option<Outcome>): (r: seq<PlayerRow>)
    ensures |r| == |rows|
    ensures forall i :: 0 <= i < |r| ==> r[i] == (if rows[i].gameId == gameId && rows[i].userId == userId
                                                  then rows[i].(result := result) else rows[i])
  {
    seq(|rows|, i requires 0 <= i < |rows| =>
      if rows[i].gameId == gameId && rows[i].userId == userId then rows[i].(result := result) else rows[i])
  }

  /**
   * Stores every evaluated result, one update per player in order: a row of the
   * game ends with the result of the last player whose looked-up user id is the
   * row's. Rows no player maps to, rows of other games and all non-result fields
   * are untouched.
   */
  function RecordResults(rows: seq<PlayerRow>, gameId: int, db: CoinHistory.Db, players: seq<Player>): (r: seq<PlayerRow>)
    ensures |r| == |rows|
    ensures forall i :: 0 <= i < |r| ==> r[i].(result := rows[i].result) == rows[i]
    ensures forall i :: 0 <= i < |r| && rows[i].gameId != gameId ==> r[i] == rows[i]
    ensures forall i, k :: 0 <= i < |r| && 0 <= k < |players| && rows[i].gameId == gameId
                           && UserIdOf(db, players[k].discordId) == rows[i].userId
                           && (forall m :: k < m < |players| ==> UserIdOf(db, players[m].discordId) != rows[i].userId)
                           ==> r[i].result == players[k].result
    ensures forall i :: 0 <= i < |r| && (forall k :: 0 <= k < |players| ==> UserIdOf(db, players[k].discordId) != rows[i].userId)
                        ==> r[i] == rows[i]
  {
    if |players| == 0 then rows
    else
      var init := players[..|players| - 1];
      var last := players[|players| - 1];
      var prev := RecordResults(rows, gameId, db, init);
      assert forall k :: 0 <= k < |init| ==> init[k] == players[k];
      SetResult(prev, gameId, UserIdOf(db, last.discordId), last.result)
  }

  datatype Results = Results(table: Table, evaluated: seq<Player>)

  /**
   * `buildGameResults`: every move is evaluated against the bot's, each result is
   * stored on the player's row, and each winner is credited 400. Draws and
   * losses are credited nothing, so they forfeit the entry fee.
   */
  function BuildGameResults(t: Table, note: string, day: int): (r: Results)
    requires CoinHistory.Inv(t.coins)
    requires DistinctPlayers(t.game.players)
    ensures r.evaluated == EvaluateMoves(t.game) && r.table.game == t.game.(players := r.evaluated)
    ensures r.table.coins.users == t.coins.users
    ensures forall i :: 0 <= i < |t.game.players| ==>
              var d := t.game.players[i].discordId;
              CoinHistory.Total(r.table.coins.users, r.table.coins.rows, d)
              == CoinHistory.Total(t.coins.users, t.coins.rows, d)
                 + (if CoinHistory.UserExistByDiscordId(t.coins, d) && r.evaluated[i].result == Some(Ganhou) then Prize else 0)
    ensures forall d :: !HasPlayed(t.game.players, d) ==>
              CoinHistory.Total(r.table.coins.users, r.table.coins.rows, d) == CoinHistory.Total(t.coins.users, t.coins.rows, d)
    ensures |r.table.rows| == |t.rows|
    ensures forall j :: 0 <= j < |t.rows| ==> r.table.rows[j].(result := t.rows[j].result) == t.rows[j]
    ensures forall j :: 0 <= j < |t.rows| && t.rows[j].gameId != t.game.id ==> r.table.rows[j] == t.rows[j]
    ensures forall i, j :: 0 <= i < |r.evaluated| && 0 <= j < |t.rows| && t.rows[j].gameId == t.game.id
                           && CoinHistory.UserExistByDiscordId(t.coins, r.evaluated[i].discordId)
                           && t.rows[j].userId == UserIdOf(t.coins, r.evaluated[i].discordId)
                           ==> r.table.rows[j].result == r.evaluated[i].result
  {
    var evaluated := EvaluateMoves(t.game);
    assert DistinctPlayers(evaluated) by {
      forall i, j | 0 <= i < j < |evaluated| ensures evaluated[i].discordId != evaluated[j].discordId {
        assert t.game.players[i].discordId != t.game.players[j].discordId;
      }
    }
    var coins := PayWinners(t.coins, evaluated, note, day);
    forall d ensures WinCount(evaluated, d)
                     == (if exists i :: 0 <= i < |evaluated| && evaluated[i].discordId == d && evaluated[i].result == Some(Ganhou) then 1 else 0)
    {
      WinCountOfDistinct(evaluated, d);
    }
    forall i | 0 <= i < |t.game.players|
      ensures var d := t.game.players[i].discordId;
        WinCount(evaluated, d) == (if evaluated[i].result == Some(Ganhou) then 1 else 0)
    {
      var d := t.game.players[i].discordId;
      forall j | 0 <= j < |evaluated| && j != i ensures evaluated[j].discordId != d {
        assert t.game.players[j].discordId != t.game.players[i].discordId;
      }
    }
    var rows := RecordResults(t.rows, t.game.id, t.coins, evaluated);
    KnownPlayersGetTheirResult(t.rows, t.game.id, t.coins, evaluated, rows);
    Results(Table(t.game.(players := evaluated), coins, rows), evaluated)
  }

  /** With one entry per Discord id, a known player's rows carry that player's own result. */
  lemma KnownPlayersGetTheirResult(rows: seq<PlayerRow>, gameId: int, db: CoinHistory.Db, players: seq<Player>, r: seq<PlayerRow>)
    requires CoinHistory.Inv(db) && DistinctPlayers(players)
    requires r == RecordResults(rows, gameId, db, players)
    ensures forall i, j :: 0 <= i < |players| && 0 <= j < |rows| && rows[j].gameId == gameId
                           && CoinHistory.UserExistByDiscordId(db, players[i].discordId)
                           && rows[j].userId == UserIdOf(db, players[i].discordId)
                           ==> r[j].result == players[i].result
  {
    forall i, j | 0 <= i < |players| && 0 <= j < |rows| && rows[j].gameId == gameId
                  && CoinHistory.UserExistByDiscordId(db, players[i].discordId)
                  && rows[j].userId == UserIdOf(db, players[i].discordId)
      ensures r[j].result == players[i].result
    {
      forall m | i < m < |players| ensures UserIdOf(db, players[m].discordId) != rows[j].userId {
        KnownIdsDiffer(db, players[i].discordId, players[m].discordId);
      }
    }
  }

  /** A known Discord id and any other Discord id never look up the same user id. */
  lemma KnownIdsDiffer(db: CoinHistory.Db, d1: int, d2: int)
    requires CoinHistory.Inv(db) && d1 != d2 && CoinHistory.UserExistByDiscordId(db, d1)
    ensures UserIdOf(db, d1) != UserIdOf(db, d2)
  {
    CoinHistory.UserExistsIffFound(db, d1);
    CoinHistory.UserExistsIffFound(db, d2);
    if CoinHistory.GetByDiscordId(db.users, d2).Some? {
      CoinHistory.FoundUsersDiffer(db, d1, d2);
    }
  }

  /**
   * A round with one known player: they pay 200 to play and, after the bot's
   * move, get 400 back only if their move beats it — a net +200, or -200 for a
   * draw or a loss.
   */
  lemma SoloRound(t: Table, discordId: int, move: Move, pick: int, note: string, day: int)
    requires CoinHistory.Inv(t.coins)
    requires t.game.players == []
    requires CoinHistory.HasAvailableCoins(t.coins, discordId, EntryFee)
    requires 0 <= pick < |Moves|
    ensures PlayJokenpo(t, discordId, move, note, day).Ok?
    ensures var played := PlayJokenpo(t, discordId, move, note, day).value;
      var ended := BuildGameResults(played.(game := SetBotMove(played.game, pick)), note, day).table.coins;
      CoinHistory.Total(ended.users, ended.rows, discordId)
      == CoinHistory.Total(t.coins.users, t.coins.rows, discordId)
         + (if Moves[pick] in Beats(move) then Prize - EntryFee else -EntryFee)
  {
    var played := PlayJokenpo(t, discordId, move, note, day).value;
    var drawn := played.(game := SetBotMove(played.game, pick));
    assert drawn.game.players == [Player(discordId, move, None)];
    assert CoinHistory.Inv(drawn.coins);
    AvailableCoinsMeansKnownUser(t.coins, discordId, EntryFee);
    assert CoinHistory.UserExistByDiscordId(drawn.coins, discordId);
    SoloPayout(drawn, note, day, discordId, move, Moves[pick]);
  }

  /** A lone registered player gains the prize exactly when their move beats the bot's. */
  lemma SoloPayout(drawn: Table, note: string, day: int, discordId: int, move: Move, botMove: Move)
    requires CoinHistory.Inv(drawn.coins)
    requires drawn.game.players == [Player(discordId, move, None)]
    requires drawn.game.botMove == Some(botMove)
    requires CoinHistory.UserExistByDiscordId(drawn.coins, discordId)
    ensures var ended := BuildGameResults(drawn, note, day).table.coins;
      CoinHistory.Total(ended.users, ended.rows, discordId)
      == CoinHistory.Total(drawn.coins.users, drawn.coins.rows, discordId) + (if botMove in Beats(move) then Prize else 0)
  {
    var r := BuildGameResults(drawn, note, day);
    assert r.evaluated[0].result == Some(GetOutcome(move, Some(botMove)));
  }
}

=== FILE: legacy_events.dfy ===
/**
 * The bot's own event betting (the repositories under the slash commands):
 * events with a numeric status, two labelled choices per event, bet rows, and
 * the coin history that every stake, refund and prize is written to. Each
 * repository call is one atomic step; `ok`/`saved` parameters say whether the
 * database calls inside it succeeded.
 */
module LegacyEvents {
  import opened Common
  import CoinHistory

  const Open: int := 1
  const Closed: int := 2
  const Canceled: int := 3
  const Paid: int := 4
  const Draw: int := 5

  datatype Event = Event(id: int, name: string, status: int, createdBy: Option<int>, winnerChoiceId: Option<int>)

  /** An event choice: `letter` is the `choice` column ("A" or "B"). */
  datatype Choice = Choice(id: int, eventId: int, letter: string, description: string)

  datatype Bet = Bet(userId: int, eventId: int, choiceId: int, amount: int)

  datatype World = World(
    events: seq<Event>,
    choices: seq<Choice>,
    bets: seq<Bet>,
    coins: CoinHistory.Db,
    nextEventId: int,
    nextChoiceId: int)

  datatype EventError = EventNotFound | SaveFailed | RolledBack | UnknownUser | UnknownChoice

  /** Generated event and choice ids are unique and below their counters. */
  predicate Inv(w: World)
  {
    && (forall i :: 0 <= i < |w.events| ==> w.events[i].id < w.nextEventId)
    && (forall i, j :: 0 <= i < j < |w.events| ==> w.events[i].id != w.events[j].id)
    && (forall i :: 0 <= i < |w.choices| ==> w.choices[i].id < w.nextChoiceId)
    && (forall i, j :: 0 <= i < j < |w.choices| ==> w.choices[i].id != w.choices[j].id)
    && (forall i :: 0 <= i < |w.choices| ==> w.choices[i].eventId < w.nextEventId)
  }

  /** `Event::find`: the position of the event with this id. */
  function FindEvent(events: seq<Event>, id: int): (r: Option<nat>)
    ensures r.None? <==> forall i :: 0 <= i < |events| ==> events[i].id != id
    ensures r.Some? ==> r.value < |events| && events[r.value].id == id
  {
    LastIndex(events, (e: Event) => e.id == id)
  }

  /** The status of the event, or NULL when there is no such event. */
  function StatusOf(events: seq<Event>, id: int): (r: Option<int>)
    ensures r.None? <==> forall i :: 0 <= i < |events| ==> events[i].id != id
  {
    match FindEvent(events, id)
    case None => None
    case Some(k) => Some(events[k].status)
  }

  /** `->choices->where('choice', letter)->first()`: the event's first choice with that letter. */
  function ChoiceByLetter(choices: seq<Choice>, eventId: int, letter: string): (r: Option<Choice>)
    ensures r.None? <==> forall i :: 0 <= i < |choices| ==> !(choices[i].eventId == eventId && choices[i].letter == letter)
    ensures r.Some? ==> r.value in choices && r.value.eventId == eventId && r.value.letter == letter
  {
    if |choices| == 0 then None
    else if choices[0].eventId == eventId && choices[0].letter == letter then Some(choices[0])
    else ChoiceByLetter(choices[1..], eventId, letter)
  }

  /** The choice row a bet points at. */
  function ChoiceById(choices: seq<Choice>, id: int): (r: Option<Choice>)
    ensures r.None? <==> forall i :: 0 <= i < |choices| ==> choices[i].id != id
    ensures r.Some? ==> r.value in choices && r.value.id == id
  {
    if |choices| == 0 then None
    else if choices[0].id == id then Some(choices[0])
    else ChoiceById(choices[1..], id)
  }

  datatype Created = Created(world: World, event: Event)

  /**
   * `create`: an OPEN event created by the user with that Discord id (no creator
   * when there is none) and its two choices 'A' and 'B', all in one transaction.
   */
  function CreateEvent(w: World, name: string, optionA: string, optionB: string, discordId: int, ok: bool)
    : (r: Result<Created, EventError>)
    ensures r.Err? <==> !ok
    ensures r.Ok? ==> r.value.event.status == Open && r.value.event.winnerChoiceId.None?
    ensures r.Ok? ==> r.value.event.id == w.nextEventId && r.value.world.events == w.events + [r.value.event]
    ensures r.Ok? ==> r.value.event.name == name
    ensures r.Ok? ==> var user := CoinHistory.GetByDiscordId(w.coins.users, discordId);
      && (user.None? ==> r.value.event.createdBy.None?)
      && (user.Some? ==> r.value.event.createdBy == Some(user.value.id))
    ensures r.Ok? ==> r.value.world.choices == w.choices + [Choice(w.nextChoiceId, w.nextEventId, "A", optionA),
                                                            Choice(w.nextChoiceId + 1, w.nextEventId, "B", optionB)]
    ensures r.Ok? ==> r.value.world.bets == w.bets && r.value.world.coins == w.coins
    ensures r.Ok? && Inv(w) ==> Inv(r.value.world)
  {
    if !ok then Err(RolledBack)
    else
      var user := CoinHistory.GetByDiscordId(w.coins.users, discordId);
      var e := Event(w.nextEventId, name, Open, if user.Some? then Some(user.value.id) else None, None);
      var choices := w.choices + [Choice(w.nextChoiceId, e.id, "A", optionA), Choice(w.nextChoiceId + 1, e.id, "B", optionB)];
      Ok(Created(World(w.events + [e], choices, w.bets, w.coins, w.nextEventId + 1, w.nextChoiceId + 2), e))
  }

  /** A new event offers exactly the labels 'A' and 'B'. */
  lemma CreatedEventOffersAAndB(w: World, name: string, optionA: string, optionB: string, discordId: int, letter: string)
    requires Inv(w)
    ensures var r := CreateEvent(w, name, optionA, optionB, discordId, true);
      r.Ok? ==> (ChoiceByLetter(r.value.world.choices, r.value.event.id, letter).Some? <==> letter == "A" || letter == "B")
  {
    var r := CreateEvent(w, name, optionA, optionB, discordId, true);
    var cs := r.value.world.choices;
    var n := |w.choices|;
    if letter == "A" {
      assert cs[n].eventId == w.nextEventId && cs[n].letter == "A";
    } else if letter == "B" {
      assert cs[n + 1].eventId == w.nextEventId && cs[n + 1].letter == "B";
    } else {
      forall i | 0 <= i < |cs| ensures !(cs[i].eventId == w.nextEventId && cs[i].letter == letter) {
        if i < n {
          assert cs[i] == w.choices[i];
        }
      }
    }
  }

  /** Overwrites the status (and possibly the winner) of an event found at position k. */
  function SetStatus(w: World, k: nat, status: int, winner: Option<int>): (r: World)
    requires k < |w.events|
    ensures |r.events| == |w.events| && r.events[k] == w.events[k].(status := status, winnerChoiceId := winner)
    ensures forall i :: 0 <= i < |w.events| && i != k ==> r.events[i] == w.events[i]
    ensures r.choices == w.choices && r.bets == w.bets && r.coins == w.coins
    ensures Inv(w) ==> Inv(r)
  {
    w.(events := w.events[k := w.events[k].(status := status, winnerChoiceId := winner)])
  }

  /** `closeEvent`: status CLOSED, whatever it was before. A missing event is an error. */
  function CloseEvent(w: World, id: int, saved: bool): (r: Result<World, EventError>)
    ensures r.Err? <==> StatusOf(w.events, id).None? || !saved
    ensures r.Ok? ==> StatusOf(r.value.events, id) == Some(Closed)
    ensures r.Ok? ==> |r.value.events| == |w.events| && forall i :: 0 <= i < |w.events| && w.events[i].id != id ==> r.value.events[i] == w.events[i]
    ensures r.Ok? ==> r.value.bets == w.bets && r.value.coins == w.coins
  {
    match FindEvent(w.events, id)
    case None => Err(EventNotFound)
    case Some(k) =>
      if !saved then Err(SaveFailed)
      else
        var n := SetStatus(w, k, Closed, w.events[k].winnerChoiceId);
        assert FindEvent(n.events, id).Some?;
        StatusAfterSet(w, k, Closed, w.events[k].winnerChoiceId, id);
        Ok(n)
  }

  /** After `SetStatus` at the event's position, its status reads back as set. */
  lemma StatusAfterSet(w: World, k: nat, status: int, winner: Option<int>, id: int)
    requires k < |w.events| && w.events[k].id == id
    requires FindEvent(w.events, id) == Some(k)
    ensures StatusOf(SetStatus(w, k, status, winner).events, id) == Some(status)
  {
    var n := SetStatus(w, k, status, winner);
    FindEventSameIds(w.events, n.events, id);
  }

  /** Two event lists with the same ids in the same places find an id at the same position. */
  lemma {:induction false} FindEventSameIds(a: seq<Event>, b: seq<Event>, id: int)
    requires |a| == |b|
    requires forall i :: 0 <= i < |a| ==> a[i].id == b[i].id
    ensures FindEvent(a, id) == FindEvent(b, id)
  {
    if |a| > 0 && a[|a| - 1].id != id {
      FindEventSameIds(a[..|a| - 1], b[..|b| - 1], id);
    }
  }

  /** `finishEvent`: status PAID, whatever it was before. */
  function FinishEvent(w: World, id: int, saved: bool): (r: Result<World, EventError>)
    ensures r.Err? <==> StatusOf(w.events, id).None? || !saved
    ensures r.Ok? ==> StatusOf(r.value.events, id) == Some(Paid)
    ensures r.Ok? ==> |r.value.events| == |w.events| && forall i :: 0 <= i < |w.events| && w.events[i].id != id ==> r.value.events[i] == w.events[i]
    ensures r.Ok? ==> r.value.bets == w.bets && r.value.coins == w.coins
  {
    match FindEvent(w.events, id)
    case None => Err(EventNotFound)
    case Some(k) =>
      if !saved then Err(SaveFailed)
      else
        StatusAfterSet(w, k, Paid, w.events[k].winnerChoiceId, id);
        Ok(SetStatus(w, k, Paid, w.events[k].winnerChoiceId))
  }

  /** `updateEventWithWinner`: status PAID and the winning choice recorded, with no check on either. */
  function UpdateEventWithWinner(w: World, choiceId: int, id: int, saved: bool): (r: Result<World, EventError>)
    ensures r.Err? <==> StatusOf(w.events, id).None? || !saved
    ensures r.Ok? ==> StatusOf(r.value.events, id) == Some(Paid)
    ensures r.Ok? ==> exists k :: 0 <= k < |r.value.events| && r.value.events[k].id == id
                                  && r.value.events[k].winnerChoiceId == Some(choiceId)
    ensures r.Ok? ==> |r.value.events| == |w.events| && forall i :: 0 <= i < |w.events| && w.events[i].id != id ==> r.value.events[i] == w.events[i]
  {
    match FindEvent(w.events, id)
    case None => Err(EventNotFound)
    case Some(k) =>
      if !saved then Err(SaveFailed)
      else
        StatusAfterSet(w, k, Paid, Some(choiceId), id);
        Ok(SetStatus(w, k, Paid, Some(choiceId)))
  }

  /** `getBetsByEventId`: every bet on the event, in table order. */
  function BetsOfEvent(bets: seq<Bet>, eventId: int): (r: seq<Bet>)
    ensures forall b :: b in r <==> b in bets && b.eventId == eventId
    ensures forall b :: multiset(r)[b] == if b.eventId == eventId then multiset(bets)[b] else 0
  {
    Filter(bets, (b: Bet) => b.eventId == eventId)
  }

  /** `getUserOpenBets`: the user's bets on the event, provided the event is OPEN. */
  function UserOpenBets(w: World, userId: int, eventId: int): (r: seq<Bet>)
    ensures forall b :: b in r <==> b in w.bets && b.userId == userId && b.eventId == eventId
                                     && StatusOf(w.events, eventId) == Some(Open)
    ensures forall b :: multiset(r)[b] == if b.userId == userId && b.eventId == eventId && StatusOf(w.events, eventId) == Some(Open)
                                          then multiset(w.bets)[b] else 0
  {
    if StatusOf(w.events, eventId) == Some(Open) then UserBetsOn(w.bets, userId, eventId) else []
  }

  function UserBetsOn(bets: seq<Bet>, userId: int, eventId: int): (r: seq<Bet>)
    ensures forall b :: b in r <==> b in bets && b.userId == userId && b.eventId == eventId
    ensures forall b :: multiset(r)[b] == if b.userId == userId && b.eventId == eventId then multiset(bets)[b] else 0
  {
    Filter(bets, (b: Bet) => b.userId == userId && b.eventId == eventId)
  }

  /** `didUserBet`: the user (looked up by Discord id) holds an open bet on the event. */
  predicate DidUserBet(w: World, user: CoinHistory.User, eventId: int)
  {
    |UserOpenBets(w, user.id, eventId)| > 0
  }

  /** The listing and the flag agree: a user has bet exactly when some bet row of theirs is on the open event. */
  lemma DidUserBetIff(w: World, user: CoinHistory.User, eventId: int)
    ensures DidUserBet(w, user, eventId) <==>
              StatusOf(w.events, eventId) == Some(Open)
              && exists i :: 0 <= i < |w.bets| && w.bets[i].userId == user.id && w.bets[i].eventId == eventId
  {
    var r := UserOpenBets(w, user.id, eventId);
    if |r| > 0 {
      assert r[0] in r;
    }
    if StatusOf(w.events, eventId) == Some(Open)
       && exists i :: 0 <= i < |w.bets| && w.bets[i].userId == user.id && w.bets[i].eventId == eventId {
      var i :| 0 <= i < |w.bets| && w.bets[i].userId == user.id && w.bets[i].eventId == eventId;
      assert w.bets[i] in r;
    }
  }

  /** Which bets of an event a loop credits: all of them (a draw) or those on one choice (a payout). */
  datatype Selection = AllBets | OnChoice(choiceId: int)

  predicate Picks(sel: Selection, b: Bet)
  {
    sel.AllBets? || b.choiceId == sel.choiceId
  }

  /** A bet's own stake: what a draw returns. */
  function Stake(b: Bet): int { b.amount }

  /** The sum credited to user v over the selected bets of the event. */
  function CreditSum(bets: seq<Bet>, eventId: int, sel: Selection, amountOf: Bet -> int, v: int): int
  {
    if |bets| == 0 then 0
    else
      var last := bets[|bets| - 1];
      CreditSum(bets[..|bets| - 1], eventId, sel, amountOf, v)
      + (if last.eventId == eventId && Picks(sel, last) && last.userId == v then amountOf(last) else 0)
  }

  lemma CreditSumAppend(bets: seq<Bet>, b: Bet, eventId: int, sel: Selection, amountOf: Bet -> int, v: int)
    ensures CreditSum(bets + [b], eventId, sel, amountOf, v)
            == CreditSum(bets, eventId, sel, amountOf, v)
               + (if b.eventId == eventId && Picks(sel, b) && b.userId == v then amountOf(b) else 0)
  {
    assert (bets + [b])[..|bets|] == bets;
  }

  /** What user v has staked on the event. */
  function EventStake(bets: seq<Bet>, eventId: int, v: int): int
  {
    CreditSum(bets, eventId, AllBets, Stake, v)
  }

  /**
   * The credit loop shared by a draw and a payout: one "EventBet" history row per
   * selected bet of the event, in bet order, for the bet's user.
   */
  function Credits(db: CoinHistory.Db, bets: seq<Bet>, eventId: int, sel: Selection, amountOf: Bet -> int,
                   note: Bet -> string, day: int): (r: CoinHistory.Db)
    ensures r.users == db.users && r.nextUserId == db.nextUserId
    ensures |r.rows| >= |db.rows| && r.rows[..|db.rows|] == db.rows
    ensures forall v :: CoinHistory.UserCoins(r.rows, v)
                        == CoinHistory.UserCoins(db.rows, v) + CreditSum(bets, eventId, sel, amountOf, v)
  {
    if |bets| == 0 then db
    else
      var last := bets[|bets| - 1];
      var prev := Credits(db, bets[..|bets| - 1], eventId, sel, amountOf, note, day);
      if last.eventId == eventId && Picks(sel, last) then
        var r := CoinHistory.Create(prev, last.userId, amountOf(last), "EventBet", Some(eventId), Some(note(last)), day);
        assert r.rows[..|db.rows|] == prev.rows[..|db.rows|];
        r
      else prev
  }

  /** The description of a draw refund. */
  function DrawNote(b: Bet): string { "{\"status\":\"Draw\"}" }

  /**
   * `drawEvent`: every bet of the event is credited its own amount and the event
   * becomes DRAW; any failure rolls all of it back.
   */
  function DrawEvent(w: World, eventId: int, day: int, ok: bool): (r: Result<World, EventError>)
    ensures r.Err? <==> StatusOf(w.events, eventId).None? || !ok
    ensures r.Ok? ==> StatusOf(r.value.events, eventId) == Some(Draw)
    ensures r.Ok? ==> forall v :: CoinHistory.UserCoins(r.value.coins.rows, v)
                                  == CoinHistory.UserCoins(w.coins.rows, v) + EventStake(w.bets, eventId, v)
    ensures r.Ok? ==> r.value.bets == w.bets && r.value.choices == w.choices
    ensures r.Ok? ==> |r.value.events| == |w.events| && forall i :: 0 <= i < |w.events| && w.events[i].id != eventId ==> r.value.events[i] == w.events[i]
  {
    match FindEvent(w.events, eventId)
    case None => Err(EventNotFound)
    case Some(k) =>
      if !ok then Err(RolledBack)
      else
        var coins := Credits(w.coins, w.bets, eventId, AllBets, Stake, DrawNote, day);
        StatusAfterSet(w, k, Draw, w.events[k].winnerChoiceId, eventId);
        FindEventSameIds(w.events, w.events[k := w.events[k].(status := Draw)], eventId);
        Ok(SetStatus(w, k, Draw, w.events[k].winnerChoiceId).(coins := coins))
  }

  /** One line of the payout's result: who won, on which letter, and how much. */
  datatype Winner = Winner(userId: int, choice: string, earnings: int)

  /** The bets on one choice of the event, in table order. */
  function ChoiceBets(bets: seq<Bet>, eventId: int, choiceId: int): (r: seq<Bet>)
    ensures forall b :: b in r <==> b in bets && b.eventId == eventId && b.choiceId == choiceId
    ensures forall b :: multiset(r)[b] == if b.eventId == eventId && b.choiceId == choiceId then multiset(bets)[b] else 0
  {
    Filter(bets, (b: Bet) => b.eventId == eventId && b.choiceId == choiceId)
  }

  /** The line a winning bet contributes. */
  function WinnerLine(choices: seq<Choice>, earnings: Bet -> int, b: Bet): Winner
  {
    Winner(b.userId, ChoiceLetter(choices, b.choiceId), earnings(b))
  }

  /** The winners list, one line per selected bet, in bet order; the letter is read from the bet's own choice row. */
  function Winners(bets: seq<Bet>, eventId: int, choiceId: int, choices: seq<Choice>, earnings: Bet -> int)
    : (r: seq<Winner>)
    ensures forall x :: x in r ==> exists b :: b in bets && b.eventId == eventId && b.choiceId == choiceId
                                               && x.userId == b.userId && x.earnings == earnings(b)
                                               && x.choice == ChoiceLetter(choices, b.choiceId)
    ensures |r| == 0 <==> forall b :: b in bets ==> !(b.eventId == eventId && b.choiceId == choiceId)
    ensures |r| == |ChoiceBets(bets, eventId, choiceId)|
    ensures forall i :: 0 <= i < |r| ==> r[i] == WinnerLine(choices, earnings, ChoiceBets(bets, eventId, choiceId)[i])
    ensures forall b :: b in bets && b.eventId == eventId && b.choiceId == choiceId ==> WinnerLine(choices, earnings, b) in r
  {
    if |bets| == 0 then
      LinesOfChoiceBets(bets, eventId, choiceId, choices, earnings, []);
      []
    else
      var init := Winners(bets[..|bets| - 1], eventId, choiceId, choices, earnings);
      var last := bets[|bets| - 1];
      var r := if last.eventId == eventId && last.choiceId == choiceId then init + [WinnerLine(choices, earnings, last)]
               else init;
      WinnersStep(bets, eventId, choiceId, choices, earnings, init, r);
      LinesOfChoiceBets(bets, eventId, choiceId, choices, earnings, r);
      r
  }

  lemma ChoiceBetsAppend(bets: seq<Bet>, b: Bet, eventId: int, choiceId: int)
    ensures ChoiceBets(bets + [b], eventId, choiceId)
            == ChoiceBets(bets, eventId, choiceId) + (if b.eventId == eventId && b.choiceId == choiceId then [b] else [])
  {
    FilterAppend(bets, b, (x: Bet) => x.eventId == eventId && x.choiceId == choiceId);
  }

  /** One more bet adds its line exactly when it is on the choice. */
  lemma WinnersStep(bets: seq<Bet>, eventId: int, choiceId: int, choices: seq<Choice>, earnings: Bet -> int,
                    init: seq<Winner>, r: seq<Winner>)
    requires |bets| > 0
    requires var sel := ChoiceBets(bets[..|bets| - 1], eventId, choiceId);
      |init| == |sel| && forall i :: 0 <= i < |init| ==> init[i] == WinnerLine(choices, earnings, sel[i])
    requires var last := bets[|bets| - 1];
      r == if last.eventId == eventId && last.choiceId == choiceId then init + [WinnerLine(choices, earnings, last)] else init
    ensures var sel := ChoiceBets(bets, eventId, choiceId);
      |r| == |sel| && forall i :: 0 <= i < |r| ==> r[i] == WinnerLine(choices, earnings, sel[i])
  {
    var last := bets[|bets| - 1];
    var before := ChoiceBets(bets[..|bets| - 1], eventId, choiceId);
    assert bets == bets[..|bets| - 1] + [last];
    ChoiceBetsAppend(bets[..|bets| - 1], last, eventId, choiceId);
    var sel := ChoiceBets(bets, eventId, choiceId);
    if last.eventId == eventId && last.choiceId == choiceId {
      assert sel == before + [last];
      forall i | 0 <= i < |r| ensures r[i] == WinnerLine(choices, earnings, sel[i]) {
        if i < |init| {
          assert r[i] == init[i] && sel[i] == before[i];
        }
      }
    } else {
      assert sel == before;
    }
  }

  /** Lines matching the choice's bets one for one come from those bets, and cover all of them. */
  lemma LinesOfChoiceBets(bets: seq<Bet>, eventId: int, choiceId: int, choices: seq<Choice>, earnings: Bet -> int,
                          r: seq<Winner>)
    requires var sel := ChoiceBets(bets, eventId, choiceId);
      |r| == |sel| && forall i :: 0 <= i < |r| ==> r[i] == WinnerLine(choices, earnings, sel[i])
    ensures forall x :: x in r ==> exists b :: b in bets && b.eventId == eventId && b.choiceId == choiceId
                                               && x.userId == b.userId && x.earnings == earnings(b)
                                               && x.choice == ChoiceLetter(choices, b.choiceId)
    ensures |r| == 0 <==> forall b :: b in bets ==> !(b.eventId == eventId && b.choiceId == choiceId)
    ensures forall b :: b in bets && b.eventId == eventId && b.choiceId == choiceId ==> WinnerLine(choices, earnings, b) in r
  {
    var sel := ChoiceBets(bets, eventId, choiceId);
    forall x | x in r
      ensures exists b :: b in bets && b.eventId == eventId && b.choiceId == choiceId
                          && x.userId == b.userId && x.earnings == earnings(b) && x.choice == ChoiceLetter(choices, b.choiceId)
    {
      var i :| 0 <= i < |r| && r[i] == x;
      assert sel[i] in sel;
    }
    forall b | b in bets && b.eventId == eventId && b.choiceId == choiceId
      ensures WinnerLine(choices, earnings, b) in r
    {
      assert b in sel;
      var i :| 0 <= i < |sel| && sel[i] == b;
      assert r[i] == WinnerLine(choices, earnings, b);
    }
    if |r| != 0 {
      assert sel[0] in sel;
    }
  }

  /** The letter of the choice with this id ("" when the row is missing). */
  function ChoiceLetter(choices: seq<Choice>, id: int): string
  {
    match ChoiceById(choices, id)
    case None => ""
    case Some(c) => c.letter
  }

  datatype Payout = Payout(world: World, winners: seq<Winner>)

  /**
   * `payoutEvent`: with the event's first choice carrying the letter, every bet on
   * that choice is credited `earnings(bet)` (the odds and the random extra multiplier
   * are not modelled) and the event becomes PAID with that winner. A letter matching
   * no choice pays nobody but still marks the event PAID with no winner. If the
   * transaction fails nothing changes and the list is empty.
   */
  function PayoutEvent(w: World, eventId: int, letter: string, earnings: Bet -> int, day: int, ok: bool)
    : (r: Result<Payout, EventError>)
    ensures r.Err? <==> StatusOf(w.events, eventId).None?
    ensures r.Ok? && !ok ==> r.value == Payout(w, [])
    ensures r.Ok? && ok ==> StatusOf(r.value.world.events, eventId) == Some(Paid)
    ensures r.Ok? && ok ==> exists k :: 0 <= k < |r.value.world.events| && r.value.world.events[k].id == eventId
                                        && r.value.world.events[k].winnerChoiceId
                                           == (var c := ChoiceByLetter(w.choices, eventId, letter); if c.Some? then Some(c.value.id) else None)
    ensures r.Ok? && ok ==> var c := ChoiceByLetter(w.choices, eventId, letter);
      forall v :: CoinHistory.UserCoins(r.value.world.coins.rows, v)
                  == CoinHistory.UserCoins(w.coins.rows, v)
                     + (if c.Some? then CreditSum(w.bets, eventId, OnChoice(c.value.id), earnings, v) else 0)
    ensures r.Ok? ==> r.value.world.bets == w.bets && r.value.world.choices == w.choices
    ensures r.Ok? && ok ==> var c := ChoiceByLetter(w.choices, eventId, letter);
      && (c.None? ==> r.value.winners == [])
      && (c.Some? ==> r.value.winners == Winners(w.bets, eventId, c.value.id, w.choices, earnings)
                      && |r.value.winners| == |ChoiceBets(w.bets, eventId, c.value.id)|
                      && forall b :: b in w.bets && b.eventId == eventId && b.choiceId == c.value.id
                                     ==> WinnerLine(w.choices, earnings, b) in r.value.winners)
  {
    match FindEvent(w.events, eventId)
    case None => Err(EventNotFound)
    case Some(k) =>
      if !ok then Ok(Payout(w, []))
      else
        var c := ChoiceByLetter(w.choices, eventId, letter);
        var winner := if c.Some? then Some(c.value.id) else None;
        var paid := SetStatus(w, k, Paid, winner);
        StatusAfterSet(w, k, Paid, winner, eventId);
        if c.Some? then
          var coins := Credits(w.coins, w.bets, eventId, OnChoice(c.value.id), earnings, PayoutNote, day);
          Ok(Payout(paid.(coins := coins), Winners(w.bets, eventId, c.value.id, w.choices, earnings)))
        else
          Ok(Payout(paid, []))
  }

  /** The JSON description of a prize row (its float odds are not modelled). */
  function PayoutNote(b: Bet): string { "{\"betted\":...}" }

  /** A letter that names no choice of the event pays nobody and lists nobody. */
  lemma UnknownLetterPaysNobody(w: World, eventId: int, letter: string, earnings: Bet -> int, day: int)
    requires ChoiceByLetter(w.choices, eventId, letter).None?
    ensures var r := PayoutEvent(w, eventId, letter, earnings, day, true);
      r.Ok? ==> r.value.winners == [] && r.value.world.coins == w.coins
  {
  }

  /**
   * With unique choice ids, every listed winner's letter is the paid letter, so the
   * command's `choice == letter` filter keeps all of them.
   */
  lemma WinnersCarryTheLetter(w: World, eventId: int, letter: string, earnings: Bet -> int, day: int, ok: bool)
    requires Inv(w)
    ensures var r := PayoutEvent(w, eventId, letter, earnings, day, ok);
      r.Ok? ==> forall x :: x in r.value.winners ==> x.choice == letter
  {
    var r := PayoutEvent(w, eventId, letter, earnings, day, ok);
    if r.Ok? && ok {
      var c := ChoiceByLetter(w.choices, eventId, letter);
      if c.Some? {
        forall x | x in r.value.winners ensures x.choice == letter {
          var b :| b in w.bets && b.eventId == eventId && b.choiceId == c.value.id && x.choice == ChoiceLetter(w.choices, b.choiceId);
          UniqueChoiceId(w.choices, c.value);
        }
      }
    }
  }

  /** With unique ids, looking up a choice's id finds that choice. */
  lemma UniqueChoiceId(choices: seq<Choice>, c: Choice)
    requires forall i, j :: 0 <= i < j < |choices| ==> choices[i].id != choices[j].id
    requires c in choices
    ensures ChoiceById(choices, c.id) == Some(c)
  {
    var r := ChoiceById(choices, c.id);
    var k :| 0 <= k < |choices| && choices[k] == c;
    var m :| 0 <= m < |choices| && choices[m] == r.value;
    assert choices[m].id == choices[k].id;
  }

  /**
   * `EventBetRepository::create`: the bet row and a `-amount` "EventBet" history row
   * for the same user, both or neither. An unknown user or a letter naming no choice
   * of the event makes the inserts fail.
   */
  function PlaceBet(w: World, discordId: int, eventId: int, letter: string, amount: int, note: string, day: int, ok: bool)
    : (r: Result<World, EventError>)
    ensures r.Err? <==> !CoinHistory.UserExistByDiscordId(w.coins, discordId)
                        || ChoiceByLetter(w.choices, eventId, letter).None? || !ok
    ensures r.Ok? ==> var u := CoinHistory.GetByDiscordId(w.coins.users, discordId).value;
      var c := ChoiceByLetter(w.choices, eventId, letter).value;
      && r.value.bets == w.bets + [Bet(u.id, eventId, c.id, amount)]
      && r.value.coins.rows == w.coins.rows + [CoinHistory.Row(u.id, -amount, "EventBet", Some(eventId), Some(note), day)]
      && CoinHistory.Total(r.value.coins.users, r.value.coins.rows, discordId)
         == CoinHistory.Total(w.coins.users, w.coins.rows, discordId) - amount
    ensures r.Ok? ==> r.value.events == w.events && r.value.choices == w.choices && r.value.coins.users == w.coins.users
  {
    match CoinHistory.GetByDiscordId(w.coins.users, discordId)
    case None => Err(UnknownUser)
    case Some(u) =>
      match ChoiceByLetter(w.choices, eventId, letter)
      case None => Err(UnknownChoice)
      case Some(c) =>
        if !ok then Err(RolledBack)
        else
          var coins := CoinHistory.Create(w.coins, u.id, -amount, "EventBet", Some(eventId), Some(note), day);
          assert coins.rows == w.coins.rows + [CoinHistory.Row(u.id, -amount, "EventBet", Some(eventId), Some(note), day)];
          Ok(w.(bets := w.bets + [Bet(u.id, eventId, c.id, amount)], coins := coins))
  }

  /** A bet moves coins into the stake: each user's coins plus stake on the event stay the same. */
  lemma PlaceBetConservesCoinsAndStake(w: World, discordId: int, eventId: int, letter: string, amount: int,
                                       note: string, day: int, ok: bool, v: int)
    ensures var r := PlaceBet(w, discordId, eventId, letter, amount, note, day, ok);
      r.Ok? ==> CoinHistory.UserCoins(r.value.coins.rows, v) + EventStake(r.value.bets, eventId, v)
                == CoinHistory.UserCoins(w.coins.rows, v) + EventStake(w.bets, eventId, v)
  {
    var r := PlaceBet(w, discordId, eventId, letter, amount, note, day, ok);
    if r.Ok? {
      var u := CoinHistory.GetByDiscordId(w.coins.users, discordId).value;
      var c := ChoiceByLetter(w.choices, eventId, letter).value;
      var b := Bet(u.id, eventId, c.id, amount);
      CreditSumAppend(w.bets, b, eventId, AllBets, Stake, v);
      CoinHistory.UserCoinsAppend(w.coins.rows, CoinHistory.Row(u.id, -amount, "EventBet", Some(eventId), Some(note), day), v);
    }
  }

  /** A draw right after a bet gives every user back exactly what they had before it plus their earlier stakes. */
  lemma BetThenDrawRestores(w: World, discordId: int, eventId: int, letter: string, amount: int,
                            note: string, day: int, v: int)
    ensures var r := PlaceBet(w, discordId, eventId, letter, amount, note, day, true);
      r.Ok? ==> var d := DrawEvent(r.value, eventId, day, true);
        d.Ok? ==> CoinHistory.UserCoins(d.value.coins.rows, v)
                  == CoinHistory.UserCoins(w.coins.rows, v) + EventStake(w.bets, eventId, v)
  {
    PlaceBetConservesCoinsAndStake(w, discordId, eventId, letter, amount, note, day, true, v);
  }
}

=== FILE: ranking.dfy ===
/**
 * Ordering by a descending integer key, and "the first n of that order".
 * Used for every leaderboard and "latest first" listing in the system
 * (Python `sorted(..., reverse=True)[:n]`, SQL `ORDER BY ... DESC LIMIT n`).
 */
module Ranking {
  import opened Common

  predicate SortedDesc<T>(s: seq<T>, key: T -> int)
  {
    forall i, j :: 0 <= i < j < |s| ==> key(s[i]) >= key(s[j])
  }

  /** Inserts x into a descending sequence, before the first element with a smaller key. */
  function Insert<T>(x: T, s: seq<T>, key: T -> int): (r: seq<T>)
    requires SortedDesc(s, key)
    ensures SortedDesc(r, key)
    ensures multiset(r) == multiset(s) + multiset{x}
    ensures |r| == |s| + 1
    ensures forall k :: 0 <= k < |r| ==> r[k] == x || r[k] in s
  {
    if |s| == 0 then [x]
    else if key(x) >= key(s[0]) then [x] + s
    else
      var rest := Insert(x, s[1..], key);
      InsertBehindHead(x, s, key, rest);
      [s[0]] + rest
  }

  /** Putting the head back in front of x inserted into the tail gives x inserted into the whole. */
  lemma InsertBehindHead<T>(x: T, s: seq<T>, key: T -> int, rest: seq<T>)
    requires SortedDesc(s, key) && |s| > 0 && key(x) < key(s[0])
    requires SortedDesc(rest, key)
    requires multiset(rest) == multiset(s[1..]) + multiset{x}
    requires |rest| == |s|
    requires forall k :: 0 <= k < |rest| ==> rest[k] == x || rest[k] in s[1..]
    ensures SortedDesc([s[0]] + rest, key)
    ensures multiset([s[0]] + rest) == multiset(s) + multiset{x}
    ensures forall k :: 0 <= k < |rest| + 1 ==> ([s[0]] + rest)[k] == x || ([s[0]] + rest)[k] in s
  {
    assert s == [s[0]] + s[1..];
    var r := [s[0]] + rest;
    forall k | 1 <= k < |r| ensures key(r[0]) >= key(r[k]) {
      assert r[k] == rest[k - 1];
      if rest[k - 1] != x {
        var m :| 0 <= m < |s[1..]| && s[1..][m] == rest[k - 1];
        assert s[m + 1] == rest[k - 1];
      }
    }
    forall i, j | 0 <= i < j < |r| ensures key(r[i]) >= key(r[j]) {
      if i > 0 {
        assert r[i] == rest[i - 1] && r[j] == rest[j - 1];
      }
    }
    forall k | 1 <= k < |r| ensures r[k] == x || r[k] in s {
      assert r[k] == rest[k - 1];
    }
  }

  /** Insertion sort into descending key order. */
  function SortDesc<T>(s: seq<T>, key: T -> int): (r: seq<T>)
    ensures SortedDesc(r, key)
    ensures multiset(r) == multiset(s)
    ensures |r| == |s|
  {
    if |s| == 0 then []
    else
      assert s == [s[0]] + s[1..];
      Insert(s[0], SortDesc(s[1..], key), key)
  }

  /**
   * The first n elements of the descending order: a sorted selection of
   * min(n, |s|) elements of s, none of which is beaten by an element left out.
   */
  function TopN<T>(s: seq<T>, key: T -> int, n: nat): (r: seq<T>)
    ensures |r| == Min(n, |s|)
    ensures SortedDesc(r, key)
    ensures multiset(r) <= multiset(s)
    ensures |s| <= n ==> multiset(r) == multiset(s)
    ensures forall x, i :: x in multiset(s) - multiset(r) && 0 <= i < |r| ==> key(x) <= key(r[i])
  {
    var t := SortDesc(s, key);
    var m := Min(n, |s|);
    PrefixDominates(t, key, m);
    t[..m]
  }

  /** In a descending sequence, everything after position m is beaten by everything before it. */
  lemma PrefixDominates<T>(t: seq<T>, key: T -> int, m: nat)
    requires SortedDesc(t, key)
    requires m <= |t|
    ensures multiset(t[..m]) <= multiset(t)
    ensures m == |t| ==> multiset(t[..m]) == multiset(t)
    ensures forall x, i :: x in multiset(t) - multiset(t[..m]) && 0 <= i < m ==> key(x) <= key(t[i])
  {
    assert t == t[..m] + t[m..];
    assert multiset(t) == multiset(t[..m]) + multiset(t[m..]);
    forall x, i | x in multiset(t) - multiset(t[..m]) && 0 <= i < m
      ensures key(x) <= key(t[i])
    {
      assert x in multiset(t[m..]);
      assert x in t[m..];
      var k :| 0 <= k < |t[m..]| && t[m..][k] == x;
      assert t[m + k] == x;
    }
  }

  /** An element of s that the top n left out ranks no higher than any selected one. */
  lemma LeftOutRanksLower<T>(s: seq<T>, key: T -> int, n: nat, x: T)
    requires x in s && x !in TopN(s, key, n)
    ensures forall i :: 0 <= i < |TopN(s, key, n)| ==> key(x) <= key(TopN(s, key, n)[i])
  {
    var r := TopN(s, key, n);
    assert multiset(r)[x] == 0;
    assert x in multiset(s) - multiset(r);
  }

  /**
   * A selection (sub-multiset) of a sequence whose elements have pairwise
   * distinct identities is drawn from it and has pairwise distinct identities.
   */
  lemma SelectionKeepsDistinct<T, K>(items: seq<T>, top: seq<T>, id: T -> K)
    requires forall a, b :: 0 <= a < b < |items| ==> id(items[a]) != id(items[b])
    requires multiset(top) <= multiset(items)
    ensures forall i :: 0 <= i < |top| ==> top[i] in items
    ensures forall i, j :: 0 <= i < j < |top| ==> id(top[i]) != id(top[j])
  {
    forall i | 0 <= i < |top| ensures top[i] in items {
      assert top[i] in multiset(top);
    }
    forall i, j | 0 <= i < j < |top| ensures id(top[i]) != id(top[j]) {
      PairDistinct(items, top, id, i, j);
    }
  }

  lemma PairDistinct<T, K>(items: seq<T>, top: seq<T>, id: T -> K, i: int, j: int)
    requires forall a, b :: 0 <= a < b < |items| ==> id(items[a]) != id(items[b])
    requires multiset(top) <= multiset(items)
    requires 0 <= i < j < |top|
    ensures id(top[i]) != id(top[j])
  {
    assert top[i] in multiset(top);
    assert top[j] in multiset(top);
    var a :| 0 <= a < |items| && items[a] == top[i];
    var b :| 0 <= b < |items| && items[b] == top[j];
    SingleOccurrence(items, id, a);
    RepeatCounts(top, i, j);
    assert multiset(top)[top[i]] <= multiset(items)[items[a]];
    assert id(items[a]) == id(items[b]) ==> a == b;
  }

  /** An element whose identity is unique in the sequence occurs exactly once. */
  lemma SingleOccurrence<T, K>(items: seq<T>, id: T -> K, a: int)
    requires forall x, y :: 0 <= x < y < |items| ==> id(items[x]) != id(items[y])
    requires 0 <= a < |items|
    ensures multiset(items)[items[a]] == 1
  {
    assert items == items[..a] + [items[a]] + items[a + 1..];
    forall k | 0 <= k < |items| && k != a ensures items[k] != items[a] {
      if k < a {
        assert id(items[k]) != id(items[a]);
      } else {
        assert id(items[a]) != id(items[k]);
      }
    }
    assert items[a] !in items[..a];
    assert items[a] !in items[a + 1..];
  }

  /** Two equal positions make an element occur at least twice. */
  lemma RepeatCounts<T>(s: seq<T>, i: int, j: int)
    requires 0 <= i < j < |s|
    ensures multiset(s)[s[i]] >= 1 + (if s[i] == s[j] then 1 else 0)
  {
    assert s == s[..j] + s[j..];
    assert s[i] == s[..j][i];
    assert s[j..][0] == s[j];
    assert s[j] in multiset(s[j..]);
  }
}

=== FILE: roulette.dfy ===
/**
 * The roulette: a drawn number picks a colour (green for 0, black for other
 * even numbers, red for odd ones), and every user's stake on that colour is
 * paid at fixed odds into the coin history. Bets are grouped per user and
 * colour before paying.
 */
module Roulette {
  import opened Common
  import Ranking
  import CoinHistory

  const Open: int := 1
  const Closed: int := 2
  const Canceled: int := 3
  const Paid: int := 4

  const Green: int := 1
  const Black: int := 2
  const Red: int := 3

  const GreenMultiplier: int := 14
  const BlackMultiplier: int := 2
  const RedMultiplier: int := 2

  datatype Game = Game(id: int, description: string, amount: int, status: int, result: Option<int>, createdBy: int)

  /** A `roulette_bet` row; `choice` is a colour code. */
  datatype Bet = Bet(userId: int, rouletteId: int, amount: int, choice: int)

  datatype Table = Table(games: seq<Game>, bets: seq<Bet>, coins: CoinHistory.Db, nextId: int)

  /**
   * `CreatorUnknown`: `created_by` is a non-null foreign key, so a game whose
   * creator lookup found no user is refused by the insert.
   */
  datatype RouletteError = GameNotFound | SaveFailed | CreatorUnknown

  /**
   * `getWinnerChoiceByNumber`. Only "is the remainder 0" is asked, so PHP's
   * truncating `%` and Dafny's Euclidean `%` agree on negative numbers too.
   */
  function ColourOf(n: int): (c: int)
    ensures c == Green <==> n == 0
    ensures c == Black <==> n != 0 && n % 2 == 0
    ensures c == Red <==> n % 2 != 0
  {
    if n == 0 then Green else if n % 2 == 0 then Black else Red
  }

  /** The odds `payoutRoulette` applies: 14 on green, 2 otherwise. */
  function Odds(colour: int): (r: int)
    ensures r >= 2
  {
    if colour == Green then 14 else 2
  }

  /** The literal odds agree with the declared multiplier constants for every colour a number can draw. */
  lemma OddsMatchMultipliers(n: int)
    ensures Odds(ColourOf(n)) == (if ColourOf(n) == Green then GreenMultiplier
                                  else if ColourOf(n) == Black then BlackMultiplier else RedMultiplier)
  {
  }

  /** `Roulette::find`: the position of the game with this id. */
  function FindGame(games: seq<Game>, id: int): (r: Option<nat>)
    ensures r.None? <==> forall i :: 0 <= i < |games| ==> games[i].id != id
    ensures r.Some? ==> r.value < |games| && games[r.value].id == id
  {
    LastIndex(games, (g: Game) => g.id == id)
  }

  /**
   * `createEvent`: a new OPEN game created by the user with the Discord id. An
   * unknown Discord id leaves `created_by` NULL, which the table refuses.
   */
  function CreateGame(t: Table, description: string, value: int, discordId: int, ok: bool): (r: Result<(Table, int), RouletteError>)
    ensures CoinHistory.GetByDiscordId(t.coins.users, discordId).None? ==> r == Err(CreatorUnknown)
    ensures r.Err? <==> CoinHistory.GetByDiscordId(t.coins.users, discordId).None? || !ok
    ensures r.Ok? ==> r.value.1 == t.nextId && r.value.0.games == t.games + [Game(t.nextId, description, value, Open, None,
                        CoinHistory.GetByDiscordId(t.coins.users, discordId).value.id)]
    ensures r.Ok? ==> r.value.0.bets == t.bets && r.value.0.coins == t.coins && r.value.0.nextId == t.nextId + 1
  {
    match CoinHistory.GetByDiscordId(t.coins.users, discordId)
    case None => Err(CreatorUnknown)
    case Some(u) =>
      if !ok then Err(SaveFailed)
      else
        var g := Game(t.nextId, description, value, Open, None, u.id);
        Ok((t.(games := t.games + [g], nextId := t.nextId + 1), t.nextId))
  }

  /**
   * A created game is found under the returned id, is OPEN, and is listed by
   * `listEventsByStatus([OPEN])` without a limit.
   */
  lemma CreatedGameIsListedOpen(t: Table, description: string, value: int, discordId: int, ok: bool)
    ensures var r := CreateGame(t, description, value, discordId, ok);
      r.Ok? ==>
        var games := r.value.0.games;
        && FindGame(games, r.value.1) == Some(|t.games|)
        && games[|t.games|].status == Open
        && games[|t.games|] in ListByStatus(games, {Open}, None)
  {
  }

  /** Sets the status (and possibly the result) of a game; no prior status is required. */
  function SetGame(t: Table, id: int, status: int, result: Option<int>, saved: bool): (r: Result<Table, RouletteError>)
    ensures r.Err? <==> FindGame(t.games, id).None? || !saved
    ensures r.Ok? ==> var k := FindGame(t.games, id).value;
      |r.value.games| == |t.games| && r.value.games[k] == t.games[k].(status := status, result := result)
      && (forall i :: 0 <= i < |t.games| && i != k ==> r.value.games[i] == t.games[i])
    ensures r.Ok? ==> r.value.bets == t.bets && r.value.coins == t.coins
  {
    match FindGame(t.games, id)
    case None => Err(GameNotFound)
    case Some(k) =>
      if !saved then Err(SaveFailed)
      else Ok(t.(games := t.games[k := t.games[k].(status := status, result := result)]))
  }

  /** `close` / `closeEvent`: status CLOSED, result untouched. */
  function Close(t: Table, id: int, saved: bool): (r: Result<Table, RouletteError>)
    ensures r.Err? <==> FindGame(t.games, id).None? || !saved
    ensures r.Ok? ==> var k := FindGame(t.games, id).value;
      |r.value.games| == |t.games| && r.value.games[k].status == Closed && r.value.games[k].result == t.games[k].result
    ensures r.Ok? ==> |r.value.games| == |t.games| && forall i :: 0 <= i < |t.games| && t.games[i].id != id ==> r.value.games[i] == t.games[i]
    ensures r.Ok? ==> r.value.bets == t.bets && r.value.coins == t.coins
  {
    match FindGame(t.games, id)
    case None => Err(GameNotFound)
    case Some(k) => SetGame(t, id, Closed, t.games[k].result, saved)
  }

  /** `finish`: status PAID, result untouched. */
  function Finish(t: Table, id: int, saved: bool): (r: Result<Table, RouletteError>)
    ensures r.Err? <==> FindGame(t.games, id).None? || !saved
    ensures r.Ok? ==> var k := FindGame(t.games, id).value;
      |r.value.games| == |t.games| && r.value.games[k].status == Paid && r.value.games[k].result == t.games[k].result
    ensures r.Ok? ==> |r.value.games| == |t.games| && forall i :: 0 <= i < |t.games| && t.games[i].id != id ==> r.value.games[i] == t.games[i]
    ensures r.Ok? ==> r.value.bets == t.bets && r.value.coins == t.coins
  {
    match FindGame(t.games, id)
    case None => Err(GameNotFound)
    case Some(k) => SetGame(t, id, Paid, t.games[k].result, saved)
  }

  /** `updateRouletteWithWinner`: status PAID and the drawn number stored. */
  function UpdateWithWinner(t: Table, number: int, id: int, saved: bool): (r: Result<Table, RouletteError>)
    ensures r.Err? <==> FindGame(t.games, id).None? || !saved
    ensures r.Ok? ==> var k := FindGame(t.games, id).value;
      |r.value.games| == |t.games| && r.value.games[k].status == Paid && r.value.games[k].result == Some(number)
    ensures r.Ok? ==> |r.value.games| == |t.games| && forall i :: 0 <= i < |t.games| && t.games[i].id != id ==> r.value.games[i] == t.games[i]
    ensures r.Ok? ==> r.value.bets == t.bets && r.value.coins == t.coins
  {
    SetGame(t, id, Paid, Some(number), saved)
  }

  /**
   * `createRouletteBet`: the bet row, then a `-betAmount` "RouletteBet" history
   * row, without a transaction. A failed insert throws, so a failed bet insert
   * writes nothing further, while a failed history insert leaves the bet row
   * without its debit. The answer is true only when both succeeded.
   */
  function CreateBet(t: Table, userId: int, rouletteId: int, amount: int, choice: int, day: int,
                     betOk: bool, historyOk: bool): (r: (Table, bool))
    ensures r.1 <==> betOk && historyOk
    ensures r.0.bets == t.bets + (if betOk then [Bet(userId, rouletteId, amount, choice)] else [])
    ensures betOk && historyOk ==>
      && r.0.coins.rows == t.coins.rows + [CoinHistory.Row(userId, -amount, "RouletteBet", Some(rouletteId), None, day)]
      && CoinHistory.UserCoins(r.0.coins.rows, userId) == CoinHistory.UserCoins(t.coins.rows, userId) - amount
    ensures !(betOk && historyOk) ==> r.0.coins == t.coins
    ensures r.0.coins != t.coins ==> r.0.bets != t.bets
    ensures r.0.games == t.games
  {
    if !betOk then (t, false)
    else
      var bets := t.bets + [Bet(userId, rouletteId, amount, choice)];
      var coins := if historyOk then CoinHistory.Create(t.coins, userId, -amount, "RouletteBet", Some(rouletteId), None, day)
                   else t.coins;
      (t.(bets := bets, coins := coins), historyOk)
  }

  /** `getChoiceByRouletteIdAndKey`: the bets on this game and colour, in table order. */
  function BetsOnChoice(bets: seq<Bet>, rouletteId: int, choice: int): (r: seq<Bet>)
    ensures forall b :: b in r <==> b in bets && b.rouletteId == rouletteId && b.choice == choice
    ensures forall b :: multiset(r)[b] == if b.rouletteId == rouletteId && b.choice == choice then multiset(bets)[b] else 0
    ensures |r| <= |bets|
  {
    Filter(bets, (b: Bet) => b.rouletteId == rouletteId && b.choice == choice)
  }

  /** A `(user, colour)` grouping key. */
  datatype Key = Key(userId: int, choice: int)

  function KeyOf(b: Bet): Key { Key(b.userId, b.choice) }

  /** The total a user has staked on a colour in this game. */
  function Stake(bets: seq<Bet>, rouletteId: int, k: Key): int
  {
    if |bets| == 0 then 0
    else
      var last := bets[|bets| - 1];
      Stake(bets[..|bets| - 1], rouletteId, k) + (if last.rouletteId == rouletteId && KeyOf(last) == k then last.amount else 0)
  }

  lemma StakeAppend(bets: seq<Bet>, b: Bet, rouletteId: int, k: Key)
    ensures Stake(bets + [b], rouletteId, k) == Stake(bets, rouletteId, k) + (if b.rouletteId == rouletteId && KeyOf(b) == k then b.amount else 0)
  {
    assert (bets + [b])[..|bets|] == bets;
  }

  /** The grouping keys of the game's bets, each once, in first-appearance order. */
  function Keys(bets: seq<Bet>, rouletteId: int): (r: seq<Key>)
    ensures forall k :: k in r <==> exists i :: 0 <= i < |bets| && bets[i].rouletteId == rouletteId && KeyOf(bets[i]) == k
    ensures forall i, j :: 0 <= i < j < |r| ==> r[i] != r[j]
  {
    if |bets| == 0 then []
    else
      var init := Keys(bets[..|bets| - 1], rouletteId);
      var last := bets[|bets| - 1];
      assert forall i :: 0 <= i < |bets| - 1 ==> bets[..|bets| - 1][i] == bets[i];
      if last.rouletteId != rouletteId || KeyOf(last) in init then init else init + [KeyOf(last)]
  }

  /** A key no bet of the game carries has an empty stake. */
  lemma {:induction false} AbsentKeyHasNoStake(bets: seq<Bet>, rouletteId: int, k: Key)
    requires k !in Keys(bets, rouletteId)
    ensures Stake(bets, rouletteId, k) == 0
  {
    if |bets| > 0 {
      var init := bets[..|bets| - 1];
      assert forall i :: 0 <= i < |init| ==> init[i] == bets[i];
      AbsentKeyHasNoStake(init, rouletteId, k);
    }
  }

  /** One line of `getBetsByEventId`: a user, a colour, and the summed amount. */
  datatype Grouped = Grouped(userId: int, choice: int, amount: int)

  function GroupLines(bets: seq<Bet>, rouletteId: int, keys: seq<Key>): (r: seq<Grouped>)
    ensures |r| == |keys|
    ensures forall i :: 0 <= i < |r| ==> r[i] == Grouped(keys[i].userId, keys[i].choice, Stake(bets, rouletteId, keys[i]))
  {
    if |keys| == 0 then []
    else [Grouped(keys[0].userId, keys[0].choice, Stake(bets, rouletteId, keys[0]))] + GroupLines(bets, rouletteId, keys[1..])
  }

  function GroupKey(g: Grouped): Key { Key(g.userId, g.choice) }

  /**
   * `getBetsByEventId`: the game's bets grouped by user and colour with their summed
   * amount; each pair appears once, and exactly the pairs that were bet appear.
   */
  function BetsByGame(bets: seq<Bet>, rouletteId: int): (r: seq<Grouped>)
    ensures forall i, j :: 0 <= i < j < |r| ==> GroupKey(r[i]) != GroupKey(r[j])
    ensures forall g :: g in r ==> g.amount == Stake(bets, rouletteId, GroupKey(g))
    ensures forall i :: 0 <= i < |bets| && bets[i].rouletteId == rouletteId ==>
                        exists g :: g in r && GroupKey(g) == KeyOf(bets[i])
    ensures forall g :: g in r ==>
                        exists i :: 0 <= i < |bets| && bets[i].rouletteId == rouletteId && KeyOf(bets[i]) == GroupKey(g)
  {
    var keys := Keys(bets, rouletteId);
    var r := GroupLines(bets, rouletteId, keys);
    forall i | 0 <= i < |bets| && bets[i].rouletteId == rouletteId
      ensures exists g :: g in r && GroupKey(g) == KeyOf(bets[i])
    {
      assert KeyOf(bets[i]) in keys;
      var p :| 0 <= p < |keys| && keys[p] == KeyOf(bets[i]);
      assert r[p] in r;
    }
    forall g | g in r
      ensures exists i :: 0 <= i < |bets| && bets[i].rouletteId == rouletteId && KeyOf(bets[i]) == GroupKey(g)
    {
      var p :| 0 <= p < |r| && r[p] == g;
      assert keys[p] in keys;
    }
    r
  }

  /** What the payout credits user v: each of v's groups on the colour times the odds. */
  function GroupCredit(groups: seq<Grouped>, colour: int, odds: int, v: int): int
  {
    if |groups| == 0 then 0
    else
      var last := groups[|groups| - 1];
      GroupCredit(groups[..|groups| - 1], colour, odds, v) + (if last.choice == colour && last.userId == v then last.amount * odds else 0)
  }

  /** The payout loop: one "RouletteBet" row of `amount × odds` per group on the winning colour. */
  function PayGroups(db: CoinHistory.Db, groups: seq<Grouped>, colour: int, odds: int, rouletteId: int, day: int)
    : (r: CoinHistory.Db)
    ensures r.users == db.users
    ensures forall v :: CoinHistory.UserCoins(r.rows, v) == CoinHistory.UserCoins(db.rows, v) + GroupCredit(groups, colour, odds, v)
  {
    if |groups| == 0 then db
    else
      var last := groups[|groups| - 1];
      var prev := PayGroups(db, groups[..|groups| - 1], colour, odds, rouletteId, day);
      if last.choice == colour then CoinHistory.Create(prev, last.userId, last.amount * odds, "RouletteBet", Some(rouletteId), None, day)
      else prev
  }

  /** With each (user, colour) pair at most once, a user's credit is the one group of that pair, or nothing. */
  lemma {:induction false} CreditOfDistinctGroups(groups: seq<Grouped>, colour: int, odds: int, v: int)
    requires forall i, j :: 0 <= i < j < |groups| ==> GroupKey(groups[i]) != GroupKey(groups[j])
    ensures (forall g :: g in groups ==> GroupKey(g) != Key(v, colour)) ==> GroupCredit(groups, colour, odds, v) == 0
    ensures forall g :: g in groups && GroupKey(g) == Key(v, colour) ==> GroupCredit(groups, colour, odds, v) == g.amount * odds
  {
    if |groups| > 0 {
      var init := groups[..|groups| - 1];
      var last := groups[|groups| - 1];
      assert forall i :: 0 <= i < |init| ==> init[i] == groups[i];
      assert forall g :: g in groups ==> g in init || g == last;
      CreditOfDistinctGroups(init, colour, odds, v);
      if GroupKey(last) == Key(v, colour) {
        assert forall g :: g in init ==> GroupKey(g) != Key(v, colour);
      }
    }
  }

  /** Paying the grouped bets credits each user their whole stake on the colour times the odds. */
  lemma CreditIsStake(bets: seq<Bet>, rouletteId: int, colour: int, odds: int, v: int)
    ensures GroupCredit(BetsByGame(bets, rouletteId), colour, odds, v) == Stake(bets, rouletteId, Key(v, colour)) * odds
  {
    var groups := BetsByGame(bets, rouletteId);
    var k := Key(v, colour);
    CreditOfDistinctGroups(groups, colour, odds, v);
    if g :| g in groups && GroupKey(g) == k {
      assert g.amount == Stake(bets, rouletteId, k);
    } else {
      forall i | 0 <= i < |bets| && bets[i].rouletteId == rouletteId ensures KeyOf(bets[i]) != k {
        assert exists g :: g in groups && GroupKey(g) == KeyOf(bets[i]);
      }
      AbsentKeyHasNoStake(bets, rouletteId, k);
    }
  }

  /** Credits every user the odds times their stake on the colour. */
  function PayStakes(db: CoinHistory.Db, bets: seq<Bet>, rouletteId: int, colour: int, day: int): (r: CoinHistory.Db)
    ensures r.users == db.users
    ensures forall v :: CoinHistory.UserCoins(r.rows, v)
                        == CoinHistory.UserCoins(db.rows, v) + Stake(bets, rouletteId, Key(v, colour)) * Odds(colour)
  {
    var groups := BetsByGame(bets, rouletteId);
    forall v ensures GroupCredit(groups, colour, Odds(colour), v) == Stake(bets, rouletteId, Key(v, colour)) * Odds(colour) {
      CreditIsStake(bets, rouletteId, colour, Odds(colour), v);
    }
    PayGroups(db, groups, colour, Odds(colour), rouletteId, day)
  }

  /** A line of the payout's result. */
  datatype Winner = Winner(userId: int, choice: int, earnings: int)

  function WinnerLines(groups: seq<Grouped>, colour: int, odds: int): (r: seq<Winner>)
    ensures forall x :: x in r ==> x.choice == colour
    ensures forall x :: x in r ==> exists g :: g in groups && g.choice == colour && x.userId == g.userId && x.earnings == g.amount * odds
    ensures |r| <= |groups|
    ensures forall g :: g in groups && g.choice == colour ==> Winner(g.userId, colour, g.amount * odds) in r
    ensures (forall i, j :: 0 <= i < j < |groups| ==> GroupKey(groups[i]) != GroupKey(groups[j]))
            ==> forall i, j :: 0 <= i < j < |r| ==> r[i].userId != r[j].userId
  {
    if |groups| == 0 then []
    else
      var rest := WinnerLines(groups[1..], colour, odds);
      assert forall g :: g in groups[1..] ==> g in groups;
      if groups[0].choice == colour then [Winner(groups[0].userId, colour, groups[0].amount * odds)] + rest else rest
  }

  /** The winners list: one line per user who bet on the colour, earning their stake times the odds. */
  function Winners(bets: seq<Bet>, rouletteId: int, colour: int): (r: seq<Winner>)
    ensures forall x :: x in r ==> x.choice == colour && x.earnings == Stake(bets, rouletteId, Key(x.userId, colour)) * Odds(colour)
    ensures forall x :: x in r ==> exists b :: b in bets && b.rouletteId == rouletteId && b.userId == x.userId && b.choice == colour
    ensures forall b :: b in bets && b.rouletteId == rouletteId && b.choice == colour
                        ==> Winner(b.userId, colour, Stake(bets, rouletteId, Key(b.userId, colour)) * Odds(colour)) in r
    ensures forall i, j :: 0 <= i < j < |r| ==> r[i].userId != r[j].userId
  {
    var groups := BetsByGame(bets, rouletteId);
    var r := WinnerLines(groups, colour, Odds(colour));
    forall x | x in r ensures x.earnings == Stake(bets, rouletteId, Key(x.userId, colour)) * Odds(colour) {
      var g :| g in groups && g.choice == colour && x.userId == g.userId && x.earnings == g.amount * Odds(colour);
      assert GroupKey(g) == Key(x.userId, colour);
    }
    r
  }

  datatype Payout = Payout(table: Table, winners: seq<Winner>)

  /**
   * `payoutRoulette`: the game is marked PAID with the drawn number first; then
   * every user is credited their summed stake on the drawn colour times its odds.
   * No status is checked and nothing is rolled back.
   */
  function PayoutRoulette(t: Table, rouletteId: int, number: int, day: int): (r: Result<Payout, RouletteError>)
    ensures r.Err? <==> FindGame(t.games, rouletteId).None?
    ensures r.Ok? ==> var k := FindGame(t.games, rouletteId).value;
      |r.value.table.games| == |t.games| && r.value.table.games[k].status == Paid && r.value.table.games[k].result == Some(number)
    ensures r.Ok? ==> forall v :: CoinHistory.UserCoins(r.value.table.coins.rows, v)
                                  == CoinHistory.UserCoins(t.coins.rows, v)
                                     + Stake(t.bets, rouletteId, Key(v, ColourOf(number))) * Odds(ColourOf(number))
    ensures r.Ok? ==> forall x :: x in r.value.winners ==>
                        x.choice == ColourOf(number)
                        && x.earnings == Stake(t.bets, rouletteId, Key(x.userId, x.choice)) * Odds(ColourOf(number))
    ensures r.Ok? ==> r.value.table.bets == t.bets
    ensures r.Ok? ==> forall i :: 0 <= i < |t.games| && t.games[i].id != rouletteId ==> r.value.table.games[i] == t.games[i]
    ensures r.Ok? ==> r.value.table.coins.users == t.coins.users && r.value.table.nextId == t.nextId
    ensures r.Ok? ==> forall b :: b in t.bets && b.rouletteId == rouletteId && b.choice == ColourOf(number)
                        ==> Winner(b.userId, b.choice, Stake(t.bets, rouletteId, KeyOf(b)) * Odds(b.choice)) in r.value.winners
    ensures r.Ok? ==> forall x :: x in r.value.winners ==>
                        exists b :: b in t.bets && b.rouletteId == rouletteId && b.userId == x.userId && b.choice == x.choice
    ensures r.Ok? ==> forall i, j :: 0 <= i < j < |r.value.winners| ==> r.value.winners[i].userId != r.value.winners[j].userId
  {
    match UpdateWithWinner(t, number, rouletteId, true)
    case Err(e) => Err(e)
    case Ok(marked) =>
      var colour := ColourOf(number);
      Ok(Payout(marked.(coins := PayStakes(marked.coins, t.bets, rouletteId, colour, day)), Winners(t.bets, rouletteId, colour)))
  }

  /** Nobody who staked nothing on the drawn colour gains anything. */
  lemma LosersGetNothing(t: Table, rouletteId: int, number: int, day: int, v: int)
    requires forall b :: b in t.bets && b.rouletteId == rouletteId && b.userId == v ==> b.choice != ColourOf(number)
    ensures var r := PayoutRoulette(t, rouletteId, number, day);
      r.Ok? ==> CoinHistory.UserCoins(r.value.table.coins.rows, v) == CoinHistory.UserCoins(t.coins.rows, v)
  {
    var k := Key(v, ColourOf(number));
    assert k !in Keys(t.bets, rouletteId);
    AbsentKeyHasNoStake(t.bets, rouletteId, k);
  }

  function GameId(g: Game): int { g.id }

  function WithStatuses(games: seq<Game>, statuses: set<int>): (r: seq<Game>)
    ensures forall g :: g in r <==> g in games && g.status in statuses
    ensures forall g :: multiset(r)[g] == if g.status in statuses then multiset(games)[g] else 0
  {
    Filter(games, (g: Game) => g.status in statuses)
  }

  /**
   * `listEventsByStatus`: the games whose status is listed, newest id first. The
   * limit is applied only when it is truthy (set and non-zero) and the query builder
   * ignores a negative one.
   */
  function ListByStatus(games: seq<Game>, statuses: set<int>, limit: Option<int>): (r: seq<Game>)
    ensures forall g :: g in r ==> g in games && g.status in statuses
    ensures forall i, j :: 0 <= i < j < |r| ==> r[i].id >= r[j].id
    ensures |r| == (if limit.Some? && limit.value > 0 then Min(limit.value, |WithStatuses(games, statuses)|)
                    else |WithStatuses(games, statuses)|)
    ensures forall g, i :: g in games && g.status in statuses && g !in r && 0 <= i < |r| ==> g.id <= r[i].id
    ensures multiset(r) <= multiset(WithStatuses(games, statuses))
    ensures !(limit.Some? && limit.value > 0) ==> multiset(r) == multiset(WithStatuses(games, statuses))
  {
    var matching := WithStatuses(games, statuses);
    var n := if limit.Some? && limit.value > 0 then limit.value else |matching|;
    var r := Ranking.TopN(matching, GameId, n);
    ListedMatchNewestFirst(games, statuses, matching, n, r);
    r
  }

  /** The newest n games with a wanted status: each has it, and none left out is newer. */
  lemma ListedMatchNewestFirst(games: seq<Game>, statuses: set<int>, matching: seq<Game>, n: nat, r: seq<Game>)
    requires matching == WithStatuses(games, statuses)
    requires r == Ranking.TopN(matching, GameId, n)
    ensures forall g :: g in r ==> g in games && g.status in statuses
    ensures forall i, j :: 0 <= i < j < |r| ==> r[i].id >= r[j].id
    ensures forall g, i :: g in games && g.status in statuses && g !in r && 0 <= i < |r| ==> g.id <= r[i].id
  {
    forall g | g in r ensures g in matching {
      assert g in multiset(r);
    }
    assert Ranking.SortedDesc(r, GameId);
    forall g, i | g in games && g.status in statuses && g !in r && 0 <= i < |r| ensures g.id <= r[i].id {
      assert g in multiset(matching);
      assert multiset(r)[g] == 0;
      assert g in multiset(matching) - multiset(r);
      assert GameId(g) <= GameId(r[i]);
    }
  }

  /**
   * A user's first bet on a game, paid out: a bet on the drawn colour nets the
   * stake times (odds - 1); a bet on another colour loses the stake.
   */
  lemma {:induction false} BetThenPayout(t: Table, userId: int, rouletteId: int, amount: int, choice: int, number: int, day: int)
    requires forall b :: b in t.bets && b.rouletteId == rouletteId ==> b.userId != userId
    requires FindGame(t.games, rouletteId).Some?
    ensures var placed := CreateBet(t, userId, rouletteId, amount, choice, day, true, true).0;
      var r := PayoutRoulette(placed, rouletteId, number, day);
      r.Ok? && CoinHistory.UserCoins(r.value.table.coins.rows, userId)
               == CoinHistory.UserCoins(t.coins.rows, userId)
                  + (if choice == ColourOf(number) then amount * (Odds(choice) - 1) else -amount)
  {
    var placed := CreateBet(t, userId, rouletteId, amount, choice, day, true, true).0;
    FirstBetStake(t, userId, rouletteId, amount, choice, number, day);
    var stake := Stake(placed.bets, rouletteId, Key(userId, ColourOf(number)));
    var before := CoinHistory.UserCoins(t.coins.rows, userId);
    var r := PayoutRoulette(placed, rouletteId, number, day);
    assert r.Ok?;
    var after := CoinHistory.UserCoins(r.value.table.coins.rows, userId);
    assert after == CoinHistory.UserCoins(placed.coins.rows, userId) + stake * Odds(ColourOf(number));
    NetOfFirstBet(after, before, amount, stake, choice, ColourOf(number));
  }

  /** Losing the stake and then being paid stake times the odds nets (odds - 1) times the stake on a hit, minus the stake on a miss. */
  lemma NetOfFirstBet(after: int, before: int, amount: int, stake: int, choice: int, drawn: int)
    requires stake == (if choice == drawn then amount else 0)
    requires after == before - amount + stake * Odds(drawn)
    ensures after == before + (if choice == drawn then amount * (Odds(choice) - 1) else -amount)
  {
    if choice == drawn {
      assert stake * Odds(drawn) == amount * Odds(choice);
    }
  }

  /** After a user's first bet on a game, their stake on a colour is the amount when it is their choice, else nothing. */
  lemma FirstBetStake(t: Table, userId: int, rouletteId: int, amount: int, choice: int, number: int, day: int)
    requires forall b :: b in t.bets && b.rouletteId == rouletteId ==> b.userId != userId
    requires FindGame(t.games, rouletteId).Some?
    ensures var placed := CreateBet(t, userId, rouletteId, amount, choice, day, true, true).0;
      && Stake(placed.bets, rouletteId, Key(userId, ColourOf(number))) == (if choice == ColourOf(number) then amount else 0)
      && CoinHistory.UserCoins(placed.coins.rows, userId) == CoinHistory.UserCoins(t.coins.rows, userId) - amount
      && FindGame(placed.games, rouletteId).Some?
  {
    var placed := CreateBet(t, userId, rouletteId, amount, choice, day, true, true).0;
    var k := Key(userId, ColourOf(number));
    assert k !in Keys(t.bets, rouletteId);
    AbsentKeyHasNoStake(t.bets, rouletteId, k);
    StakeAppend(t.bets, Bet(userId, rouletteId, amount, choice), rouletteId, k);
  }
}

=== FILE: transfer_command.dfy ===
/**
 * The `/transferir` slash command: a chain of checks in a fixed order in front
 * of the coin-history transfer, with a "Troll" penalty for sending coins to
 * oneself.
 */
module TransferCommand {
  import opened Common
  import CoinHistory

  /** Days a sender's account must exceed before it may transfer. */
  const MinAccountDays: int := 15

  datatype Refusal = InvalidAmount | AccountTooNew | InsufficientCoins | SenderNotFound | ReceiverNotFound | TransferFailed

  datatype Done = Trolled(db: CoinHistory.Db) | Transferred(db: CoinHistory.Db)

  /**
   * `$coins > env('TRANSFER_LIMIT')`. An unset limit is NULL, and PHP compares an
   * integer with NULL as booleans, so every non-zero amount is then "above" it.
   */
  predicate AboveLimit(coins: int, limit: Option<int>)
  {
    match limit
    case None => coins != 0
    case Some(l) => coins > l
  }

  /**
   * `DateTime::diff(...)->days`: whole days between today and the sender's
   * `created_at`, in either direction. With no sender, `created_at` is NULL,
   * which `DateTime` reads as now: 0 days.
   */
  function AccountAge(sender: Option<CoinHistory.User>, createdDay: int, today: int): (r: int)
    ensures r >= 0
    ensures sender.None? ==> r == 0
  {
    if sender.None? then 0 else Abs(today - createdDay)
  }

  /** The amount check: between 1 and the limit. */
  predicate ValidAmount(coins: int, limit: Option<int>)
  {
    !(coins <= 0 || AboveLimit(coins, limit))
  }

  /** The account-age check: more than 15 days. */
  predicate OldEnough(db: CoinHistory.Db, fromDiscordId: int, createdDay: int, today: int)
  {
    AccountAge(CoinHistory.GetByDiscordId(db.users, fromDiscordId), createdDay, today) > MinAccountDays
  }

  /** The three checks before the self-transfer test. */
  predicate PassesChecks(db: CoinHistory.Db, fromDiscordId: int, coins: int, limit: Option<int>, createdDay: int, today: int)
  {
    ValidAmount(coins, limit) && OldEnough(db, fromDiscordId, createdDay, today) && CoinHistory.HasAvailableCoins(db, fromDiscordId, coins)
  }

  /**
   * `handle`: rejects, in this order, an amount outside 1..limit, a sender account
   * no older than 15 days, a balance below the amount; then a self-transfer costs
   * the sender the amount as a "Troll" row and nothing is transferred; then a
   * missing sender or receiver is rejected; then the repository transfer runs.
   * `createdDay` is the sender's `created_at` day; `fromOk` and `toOk` say whether
   * the transfer's two inserts succeed. A failed insert throws in the source and
   * escapes without a reply; `TransferFailed` stands for that outcome.
   */
  function Handle(db: CoinHistory.Db, fromDiscordId: int, toDiscordId: int, coins: int, limit: Option<int>,
                  createdDay: int, today: int, fromOk: bool, toOk: bool): (r: Result<Done, Refusal>)
    ensures r == Err(InvalidAmount) <==> !ValidAmount(coins, limit)
    ensures r == Err(AccountTooNew) <==> ValidAmount(coins, limit) && !OldEnough(db, fromDiscordId, createdDay, today)
    ensures r == Err(InsufficientCoins) <==> ValidAmount(coins, limit) && OldEnough(db, fromDiscordId, createdDay, today)
                                             && !CoinHistory.HasAvailableCoins(db, fromDiscordId, coins)
    ensures r.Ok? && r.value.Trolled? <==> PassesChecks(db, fromDiscordId, coins, limit, createdDay, today) && fromDiscordId == toDiscordId
    ensures r.Ok? && r.value.Trolled? ==>
              r.value.db.users == db.users
              && CoinHistory.Total(r.value.db.users, r.value.db.rows, fromDiscordId) == CoinHistory.Total(db.users, db.rows, fromDiscordId) - coins >= 0
    ensures r == Err(ReceiverNotFound) <==> PassesChecks(db, fromDiscordId, coins, limit, createdDay, today) && fromDiscordId != toDiscordId
                                            && !CoinHistory.UserExistByDiscordId(db, toDiscordId)
    ensures r == Err(TransferFailed) <==> PassesChecks(db, fromDiscordId, coins, limit, createdDay, today) && fromDiscordId != toDiscordId
                                          && CoinHistory.UserExistByDiscordId(db, toDiscordId) && (!fromOk || !toOk)
    ensures r.Ok? && r.value.Transferred? <==> PassesChecks(db, fromDiscordId, coins, limit, createdDay, today) && fromDiscordId != toDiscordId
                                               && CoinHistory.UserExistByDiscordId(db, toDiscordId) && fromOk && toOk
    ensures r.Ok? && r.value.Transferred? ==>
              CoinHistory.GetByDiscordId(db.users, fromDiscordId).Some? && CoinHistory.GetByDiscordId(db.users, toDiscordId).Some?
              && var fromId := CoinHistory.GetByDiscordId(db.users, fromDiscordId).value.id;
                 var toId := CoinHistory.GetByDiscordId(db.users, toDiscordId).value.id;
                 r.value.db == CoinHistory.Transfer(db, fromId, coins, toId, today, true, true).value
  {
    var sender := CoinHistory.GetByDiscordId(db.users, fromDiscordId);
    var receiver := CoinHistory.GetByDiscordId(db.users, toDiscordId);
    CoinHistory.UserExistsIffFound(db, fromDiscordId);
    CoinHistory.UserExistsIffFound(db, toDiscordId);
    if coins <= 0 || AboveLimit(coins, limit) then Err(InvalidAmount)
    else if AccountAge(sender, createdDay, today) <= MinAccountDays then Err(AccountTooNew)
    else if !CoinHistory.HasAvailableCoins(db, fromDiscordId, coins) then Err(InsufficientCoins)
    else if fromDiscordId == toDiscordId then
      TrollPenalty(db, sender.value, coins, today)
    else if !CoinHistory.UserExistByDiscordId(db, fromDiscordId) then Err(SenderNotFound)
    else if !CoinHistory.UserExistByDiscordId(db, toDiscordId) then Err(ReceiverNotFound)
    else match CoinHistory.Transfer(db, sender.value.id, coins, receiver.value.id, today, fromOk, toOk)
      case Err(_) => Err(TransferFailed)
      case Ok(next) => Ok(Transferred(next))
  }

  /** The self-transfer branch: `create(fromUser.id, -coins, 'Troll')`. */
  function TrollPenalty(db: CoinHistory.Db, sender: CoinHistory.User, coins: int, today: int): (r: Result<Done, Refusal>)
    requires CoinHistory.GetByDiscordId(db.users, sender.discordId) == Some(sender)
    requires coins > 0 && CoinHistory.HasAvailableCoins(db, sender.discordId, coins)
    ensures r.Ok? && r.value.Trolled? && r.value.db.users == db.users
    ensures CoinHistory.Total(r.value.db.users, r.value.db.rows, sender.discordId)
            == CoinHistory.Total(db.users, db.rows, sender.discordId) - coins >= 0
  {
    var k :| 0 <= k < |db.users| && db.users[k] == sender && sender.discordId == sender.discordId;
    assert CoinHistory.OwnedBy(db.users, sender.id, sender.discordId);
    var next := CoinHistory.Create(db, sender.id, -coins, "Troll", None, None, today);
    assert CoinHistory.HasRows(db.users, db.rows, sender.discordId);
    Ok(Trolled(next))
  }

  /**
   * The "sender not found" reply cannot be given: a missing sender has account
   * age 0, so any amount that passes the first check is refused as too new.
   */
  lemma SenderNotFoundUnreachable(db: CoinHistory.Db, fromDiscordId: int, toDiscordId: int, coins: int, limit: Option<int>,
                                  createdDay: int, today: int, fromOk: bool, toOk: bool)
    ensures Handle(db, fromDiscordId, toDiscordId, coins, limit, createdDay, today, fromOk, toOk) != Err(SenderNotFound)
  {
    CoinHistory.UserExistsIffFound(db, fromDiscordId);
  }

  /** With no transfer limit configured, every transfer is refused as an invalid amount. */
  lemma UnsetLimitRefusesAll(db: CoinHistory.Db, fromDiscordId: int, toDiscordId: int, coins: int,
                             createdDay: int, today: int, fromOk: bool, toOk: bool)
    ensures Handle(db, fromDiscordId, toDiscordId, coins, None, createdDay, today, fromOk, toOk) == Err(InvalidAmount)
  {
  }

  /**
   * A completed transfer between two different Discord ids on a well-formed
   * history moves exactly `coins` from the sender's user to the receiver's and
   * touches no other user.
   */
  lemma TransferMovesExactlyTheAmount(db: CoinHistory.Db, fromDiscordId: int, toDiscordId: int, coins: int, limit: Option<int>,
                                      createdDay: int, today: int)
    requires CoinHistory.Inv(db)
    ensures var r := Handle(db, fromDiscordId, toDiscordId, coins, limit, createdDay, today, true, true);
      r.Ok? && r.value.Transferred? ==>
        var fromId := CoinHistory.GetByDiscordId(db.users, fromDiscordId).value.id;
        var toId := CoinHistory.GetByDiscordId(db.users, toDiscordId).value.id;
        fromId != toId
        && CoinHistory.UserCoins(r.value.db.rows, fromId) == CoinHistory.UserCoins(db.rows, fromId) - coins
        && CoinHistory.UserCoins(r.value.db.rows, toId) == CoinHistory.UserCoins(db.rows, toId) + coins
        && forall v :: v != fromId && v != toId ==> CoinHistory.UserCoins(r.value.db.rows, v) == CoinHistory.UserCoins(db.rows, v)
  {
    var r := Handle(db, fromDiscordId, toDiscordId, coins, limit, createdDay, today, true, true);
    if r.Ok? && r.value.Transferred? {
      CoinHistory.FoundUsersDiffer(db, fromDiscordId, toDiscordId);
    }
  }
}
